=== FILE: README.md ===
# Data analyst agent — a Dafny model of its request core

The data analyst agent answers questions about a sales table. A question
typed on the analysis page goes to an SQL endpoint. That endpoint asks a
model (through Amazon Bedrock's Converse API) for a `generate_sql_query`
tool call, runs the query against SQLite and returns the rows. The page then
sends the rows to a chart endpoint, which asks the model for a chart
definition and normalises it for the chart widgets. With a file attached,
the page goes to the chart endpoint directly. A Python (FastAPI) twin of the
SQL endpoint and a router endpoint that picks a tool complete the core.

This project models that core as pure functions over JSON values. It states,
for each step, the replies and errors the code produces, and proves the
properties listed under "## Model":

| file | module | models |
|---|---|---|
| `wrappers.dfy` | `Wrappers` | `Option` |
| `js.dfy` | `Js` | JSON values under JavaScript's rules: truthiness, `||`, own-property reads, `in`, template-literal rendering, `Object.entries`, spread assignment, and `map` that may throw |
| `gateway.dfy` | `Gateway` | the runtime codecs, the outcome of a Converse call, HTTP replies, `content.find(c => key in c)`, and the tool input of a response block |
| `visualize.dfy` | `Visualize` | `POST /api/visualize`: validation, `processFileContent`, the `bedrockMessages` mapping, `processToolResponse` (pie normalisation and colours), and the reply |
| `analyze.dfy` | `Analyze` | `POST /api/analyze`: validation, query extraction, execution and the reply's null and default rules |
| `py_backend.dfy` | `PyBackend` | `POST /analyze` of the FastAPI backend: Python's `in` and indexing, the content scan as a loop, and the response model |
| `twins.dfy` | `Twins` | where the TypeScript and Python SQL endpoints answer the same Converse reply differently |
| `router.dfy` | `Router` | `POST /api/router`: validation, the history filter, the image-bytes rewrite, the request log line and the reply |
| `page.dfy` | `Page` | `handleSubmit` on the analysis page, as one transition of the page state |
| `flows.dfy` | `Flows` | how the page's requests meet the endpoints' validation |

Calls to the model gateway, the database, `fetch` and `uuidv4` are function
parameters of the handlers. The base64, URI and JSON codecs are fields of
`Gateway.Codec`. Each of these is left uninterpreted, so every property holds
whatever they return.

## Model

| member | source | states |
|---|---|---|
| Gateway.FindWithKey | data-analyst-agent/app/api/visualize/route.ts:371-372 | the block found is the first whose `key in block` test is true, every earlier test being false; no block means every test was false; a throw means the first block whose test did not return false is a primitive, every earlier test being false |
| Visualize.Validate | data-analyst-agent/app/api/visualize/route.ts:266-285 | each 400 message in both directions: messages missing or not an array, then model falsy, then region falsy; no error exactly when all three pass |
| Visualize.CanonicalBase64 | data-analyst-agent/app/api/visualize/route.ts:11-17 | when the decoder inverts the encoder, `btoa(atob(s)) === s` accepts exactly the strings that encode something |
| Visualize.ImageMediaType | data-analyst-agent/app/api/visualize/route.ts:48-50 | an "image/" media type always has a subtype after the first slash, and the type starts with "image/" plus that subtype |
| Visualize.ProcessFileContentSpec | data-analyst-agent/app/api/visualize/route.ts:19-89 | no block without file data or base64; a text file yields "File contents of <name>:" plus the decoded text, exactly when decoding succeeds; an image block only for an allowed subtype of an "image/" type, with string base64 that passes the check; nothing for other media types |
| Visualize.ConvertItem | data-analyst-agent/app/api/visualize/route.ts:304-317 | an item yields a block exactly when its type is "text" or "image"; a text block carries the item's text; an image block has the subtype after the first "/" of its media type as format and the decoded base64 data as bytes; the mapping throws exactly on a null item, or an image item whose source is nullish or whose media type or data is not a string |
| Visualize.ConvertItems | data-analyst-agent/app/api/visualize/route.ts:302-318 | the blocks correspond one to one, in order, with the kept items, each being that item's conversion (so an image block has the item's subtype as format and its decoded data as bytes); the mapping throws exactly when some item throws |
| Visualize.BaseContent | data-analyst-agent/app/api/visualize/route.ts:300-322 | a null message throws; array content gives the converted kept items; a non-empty string content becomes one text block; falsy content, and truthy content that is neither an array nor a string, give no blocks |
| Visualize.ConvertMessage | data-analyst-agent/app/api/visualize/route.ts:299-335 | a message keeps its role and its blocks; the upload's blocks are added only when it counts as the last message; it throws exactly when its content throws |
| Visualize.ConvertMessagesShape | data-analyst-agent/app/api/visualize/route.ts:299-335 | the roles are kept; an earlier object message, or one unequal to the last, keeps only its own blocks; an earlier primitive equal to the last also gets the upload (the `===` identity test); the last message gets the upload; the mapping throws exactly when some message's content throws |
| Visualize.NormalizeItem | data-analyst-agent/app/api/visualize/route.ts:393-401 | a pie item becomes an object with only `segment` and `value`: the segment is the first truthy of the x-axis key, segment, category and name; the value is the value key's entry or `value`; a null item throws |
| Visualize.NormalizeItems | data-analyst-agent/app/api/visualize/route.ts:393-401 | the items are normalised one to one, in order; the map throws exactly when some item is null |
| Visualize.NormalizeItemIdempotent | data-analyst-agent/app/api/visualize/route.ts:393-403 | normalising an item a second time, with "segment" as the x-axis key as the first pass sets it, gives the same item back (truthy segment, value key other than "segment") |
| Visualize.NormalizeItemsIdempotent | data-analyst-agent/app/api/visualize/route.ts:392-404 | the same, for a whole data array |
| Visualize.Colorize | data-analyst-agent/app/api/visualize/route.ts:406-416 | every chart-config entry keeps its key and position and all its own properties except `color`, which becomes the colour of its position (`hsl(var(--chart-i+1))`) |
| Visualize.ColorizeKeys | data-analyst-agent/app/api/visualize/route.ts:406-416 | the coloured config has the same keys, in the same order |
| Visualize.ProcessToolResponse | data-analyst-agent/app/api/visualize/route.ts:374-426 | a chart exactly when there is a tool input and it is an object with a truthy chart type, an array `data`, a chart config, and (for a pie) data the pie step normalises without throwing; no chart without a tool input |
| Visualize.ProcessChartAccepts | data-analyst-agent/app/api/visualize/route.ts:385-426 | a tool input becomes a chart exactly when it is accepted: an object with a truthy chart type, an array `data`, a chart config, and a pie step that does not throw |
| Visualize.ProcessToolResponseShape | data-analyst-agent/app/api/visualize/route.ts:385-421 | the chart keeps the input's keys in order; its chart config has the input's keys, each coloured by position; apart from a pie, every other field is passed through unchanged |
| Visualize.PieStepShape | data-analyst-agent/app/api/visualize/route.ts:392-404 | the pie step keeps the chart's keys and leaves the chart config alone |
| Visualize.PieStepData | data-analyst-agent/app/api/visualize/route.ts:392-404 | the pie step replaces `data` with the items normalised one to one, and sets the x-axis key of an object config to "segment" |
| Visualize.PieEffect | data-analyst-agent/app/api/visualize/route.ts:392-404 | what the pie step leaves in the chart object it edits in place, whether or not it throws: only `data` and `config` can change |
| Visualize.PieEffectOnSuccess | data-analyst-agent/app/api/visualize/route.ts:392-404 | when the pie step completes, what it leaves in place is the chart it returns |
| Visualize.PieEffectOnMapThrow | data-analyst-agent/app/api/visualize/route.ts:392-401 | when the `map` throws (a nullish chart config or config with data present, or a null item) the object is untouched |
| Visualize.PieEffectOnLateThrow | data-analyst-agent/app/api/visualize/route.ts:392-403 | with a primitive `config`, the step throws at `config.xAxisKey = "segment"`, after `data` has already been replaced by the normalised items |
| Visualize.ToolUseAfter | data-analyst-agent/app/api/visualize/route.ts:385-403 | the tool use after `processToolResponse`: unchanged unless its input is a pie chart object, and then the same keys and fields except `input`, which holds what the pie step left in place |
| Visualize.ToolUseShowsChart | data-analyst-agent/app/api/visualize/route.ts:385-435 | when a chart is produced from an object input, the reply's tool use input agrees with the chart on every key except `chartConfig` |
| Visualize.ProcessedChart | data-analyst-agent/app/api/visualize/route.ts:385-421 | an accepted object input becomes the (pie-normalised) chart with its chart config coloured |
| Visualize.InputAfter | data-analyst-agent/app/api/visualize/route.ts:385-404 | for an accepted object input, the tool use's input afterwards is the chart before colouring |
| Visualize.LateThrowShowsInToolUse | data-analyst-agent/app/api/visualize/route.ts:392-435 | a pie input with a primitive `config` gives no chart, yet the tool use in the reply carries the normalised data |
| Visualize.Respond | data-analyst-agent/app/api/visualize/route.ts:371-437 | the reply throws exactly when a block search throws; its content is the text block's truthy `text`, or ""; `hasToolUse` holds exactly when a tool block exists; without one, the chart and tool use are null; the tool use is the block's, null when falsy, and as the pie step left it when the input is a pie chart object; a non-null chart is the processed first tool block |
| Visualize.ReplyToolUseShowsChart | data-analyst-agent/app/api/visualize/route.ts:371-437 | in a reply with a chart from an object input, `toolUse.input` and `chartData` agree on every key except `chartConfig` |
| Visualize.Post | data-analyst-agent/app/api/visualize/route.ts:252-476 | invalid requests get their 400; an unreadable or null body, and a message mapping that throws, get 500; a 200 needs a valid request, a message mapping that does not throw, and a Converse reply; a service fault gives its HTTP status (500 when missing), another failure gives 500 with its message, a reply without content gives 500 "Invalid response from Bedrock API", and a reply with content gives the built reply (500 when building it throws) |
| Analyze.Validate | data-analyst-agent/app/api/analyze/route.ts:21-41 | each 400 message in both directions: messages missing, not an array or empty, then model falsy, then region falsy |
| Analyze.ExtractQuery | data-analyst-agent/app/api/analyze/route.ts:130-156 | a query is extracted exactly when the tool input exists, parses, and holds a non-empty string query; the explanation is the input's, or "" when that is falsy |
| Analyze.Assemble | data-analyst-agent/app/api/analyze/route.ts:158-175 | the query runs exactly when one was extracted; the result is null exactly when the database fails (or nothing ran); the query is null exactly when none was extracted; the explanation is null exactly when there is none or it is falsy; the content is the text, or "No response generated" |
| Analyze.Respond | data-analyst-agent/app/api/analyze/route.ts:127-128 | building the reply throws exactly when the search for the text block or the tool block throws |
| Analyze.RespondFields | data-analyst-agent/app/api/analyze/route.ts:127-175 | the reply's query, explanation, result and content, in terms of the first text block and the first tool block, each in both directions: null query without an extracted one, null explanation when it is absent or "", null result when nothing ran or the database failed |
| Analyze.Post | data-analyst-agent/app/api/analyze/route.ts:11-218 | invalid requests get their 400; an unreadable or null body, and a failed schema read or sample, get 500; a reply with content answers with the reply built from it (500 when building it throws); at most one query runs, and only on a 200 that reports it; a non-null result comes from running the reported query; a service fault gives its status, another failure gives 500 with its message, and a reply without content gives 500 |
| PyBackend.PyIn | data-analyst-agent/py-backend/app/app.py:153-160 | Python's `in` works on dicts (key membership), lists and strings, and raises on anything else |
| PyBackend.PyIndex | data-analyst-agent/py-backend/app/app.py:157-163 | `d[key]` succeeds exactly on a dict holding the key, and returns its value |
| PyBackend.TextOf | data-analyst-agent/py-backend/app/app.py:153-154 | a block adds its `text` when it has one, "" otherwise; the `in` test raising makes the scan raise |
| PyBackend.ToolOf | data-analyst-agent/py-backend/app/app.py:156-164 | a block without `toolUse` picks nothing; a pick comes from a dict `toolUse` and carries its `toolUseId` |
| PyBackend.ScanContent | data-analyst-agent/py-backend/app/app.py:146-164 | the loop computes the fold; it succeeds exactly when every block can be scanned; its text is every block's text concatenated in order, and its pick is that of the last tool block that yields one |
| PyBackend.ScanThrowsExtends | data-analyst-agent/py-backend/app/app.py:152-164 | once the scan raises on a prefix, it raises on the whole content |
| PyBackend.ScanNormal | data-analyst-agent/py-backend/app/app.py:152-164 | the scan succeeds exactly when every block can be scanned |
| PyBackend.ScanText | data-analyst-agent/py-backend/app/app.py:152-154 | the text is the concatenation of all text blocks, in order |
| PyBackend.ScanPickStep | data-analyst-agent/py-backend/app/app.py:156-164 | a scan that succeeds on content plus one block succeeded on the content and on the block, and its pick is the block's when that yields one, and the earlier pick otherwise |
| PyBackend.ScanPicksLastTool | data-analyst-agent/py-backend/app/app.py:156-164 | the pick of a successful scan is the last block that yields one, read from the right |
| PyBackend.LastPickIsLast | data-analyst-agent/py-backend/app/app.py:156-164 | the last pick is the value of some block, with no later block yielding one; no pick means no block yields one |
| PyBackend.Validate | data-analyst-agent/py-backend/app/app.py:71-76 | each 400 message in both directions: empty messages, then empty model, then empty region |
| PyBackend.StopReason | data-analyst-agent/py-backend/app/app.py:182 | a missing stop reason becomes "end_turn"; a string one is kept |
| PyBackend.Finish | data-analyst-agent/py-backend/app/app.py:166-192 | the query runs exactly when it is a non-empty string; a 200 carries the scanned text, the pick's query, tool name, explanation and tool use id, and the stop reason as given (or "end_turn"); a 500 is always the internal error, and happens exactly when a non-`sqlite3` error is raised, the stop reason or a picked explanation or id is not a string; a `sqlite3.Error` leaves the result empty; a result comes from running the query |
| PyBackend.Post | data-analyst-agent/py-backend/app/app.py:65-201 | invalid requests get their 400; every other error is a 500; a failed schema read or sample, and a scan that raises, give the internal 500; a scanned reply is finished by `Finish`; at most one query runs; a service fault or any other Converse failure gives 500 with its message, and a reply without content gives 500 "Invalid response from Bedrock API" |
| PyBackend.PostFields | data-analyst-agent/py-backend/app/app.py:146-192 | a 200's content is all text blocks concatenated, and its query is that of the last tool block that yields one |
| Twins.ParseFailureDiffers | data-analyst-agent/app/api/analyze/route.ts:141 | a tool input that is a JSON string failing to parse gives a 200 with a null query in TypeScript, while the Python scan raises (app.py:159) |
| Twins.UndecodableToolBlock | data-analyst-agent/py-backend/app/app.py:156-159 | a tool block whose input fails to decode has no `text`, has `toolUse`, gives TypeScript no tool input and makes the Python block scan raise |
| Twins.FirstVersusLastTool | data-analyst-agent/app/api/analyze/route.ts:128 | with two tool blocks whose inputs hold only a query, TypeScript uses the first query and Python the last (app.py:156-164) |
| Twins.TypeScriptKeepsFirstTool | data-analyst-agent/app/api/analyze/route.ts:128-158 | the TypeScript reply to two such tool blocks reports the first block's query |
| Twins.PythonKeepsLastTool | data-analyst-agent/py-backend/app/app.py:156-164 | the Python scan of two such tool blocks succeeds and picks the second block's query |
| Twins.ToolBlockFacts | data-analyst-agent/py-backend/app/app.py:153-164 | a tool block has no `text`, does have `toolUse`, and both sides read the same input and query from it |
| Twins.FirstTextVersusAllText | data-analyst-agent/app/api/analyze/route.ts:174 | with two text blocks, TypeScript answers with the first text and Python with both concatenated (app.py:152-154) |
| Twins.EmptyQueryDiffers | data-analyst-agent/py-backend/app/app.py:160-166 | an empty query is no query in TypeScript; Python picks it as a tool call but does not run it |
| Twins.ServiceFaultStatusDiffers | data-analyst-agent/app/api/analyze/route.ts:195-206 | a 403 service fault is answered 403 by TypeScript and 500 by Python (app.py:198-201) |
| Twins.BlockAgrees | data-analyst-agent/py-backend/app/app.py:153-164 | a block both sides can read gives Python its text (or "") and TypeScript the same `in` answers; TypeScript extracts a query from a tool block exactly when Python picks a non-empty one, and the two are equal |
| Twins.FindUnique | data-analyst-agent/app/api/analyze/route.ts:127-128 | among object blocks with at most one holding a key, the search returns that block, or none |
| Twins.LastToolUnique | data-analyst-agent/py-backend/app/app.py:156-164 | with at most one tool block, Python's pick is that block's |
| Twins.AllTextUnique | data-analyst-agent/py-backend/app/app.py:152-154 | with at most one text block, Python's text is that block's text, or "" |
| Twins.AllTextNone | data-analyst-agent/py-backend/app/app.py:152-154 | without text blocks, Python's text is "" |
| Twins.AllTextAt | data-analyst-agent/py-backend/app/app.py:152-154 | when block k is the only text block, Python's text is block k's text |
| Twins.BlockText | data-analyst-agent/py-backend/app/app.py:153-154 | Python reads a readable block's `text`, or "" when it has none |
| Twins.ScanCompletes | data-analyst-agent/py-backend/app/app.py:146-164 | Python's scan of readable blocks succeeds with all texts and the last pick |
| Twins.QueriesAgree | data-analyst-agent/app/api/analyze/route.ts:127-175 | with at most one text block and one tool block, TypeScript reports the query Python picks, unless it is empty |
| Twins.ContentsAgree | data-analyst-agent/app/api/analyze/route.ts:127-174 | with at most one text block and one tool block, TypeScript answers with Python's text, or "No response generated" when it is empty |
| Twins.TextFound | data-analyst-agent/app/api/analyze/route.ts:127-174 | with a single text block, TypeScript's content is Python's text, or "No response generated" when it is empty |
| Twins.RespondContent | data-analyst-agent/app/api/analyze/route.ts:127-174 | TypeScript's content is the found text block's truthy `text`, or "No response generated" |
| Twins.TextBlockContent | data-analyst-agent/app/api/analyze/route.ts:174 | a string `text` is truthy exactly when it is not empty |
| Twins.SingleBlocksAgree | data-analyst-agent/app/api/analyze/route.ts:127-175 | on any reply with at most one text block and one tool block, each readable by both, both sides succeed and agree on query and content (app.py:146-192) |
| Router.Validate | data-analyst-agent/app/api/router/route.ts:57-69 | each 400 message in both directions: messages missing or not an array, then model or region falsy |
| Router.IsToolItem | data-analyst-agent/app/api/router/route.ts:76 | an object item is a tool item exactly when it holds `toolUse` or `toolResult`; `in` throws on primitives |
| Router.AnyToolItem | data-analyst-agent/app/api/router/route.ts:76 | `some` is true only with a tool item, false exactly when every item is a plain object, and throws only on a primitive |
| Router.Keep | data-analyst-agent/app/api/router/route.ts:74-77 | a message without array content is kept; one with array content is kept exactly when no item is a tool item; a null message throws |
| Router.FilterMessages | data-analyst-agent/app/api/router/route.ts:73-77 | the filter keeps exactly the messages it should keep, each as often as it occurs in the history, and no other; it throws exactly when some test throws |
| Router.FilterIsSubsequence | data-analyst-agent/app/api/router/route.ts:73-77 | the kept messages are a subsequence of the history, in the original order |
| Router.FilterKeepsPlainHistory | data-analyst-agent/app/api/router/route.ts:73-77 | a history without tool items passes unchanged |
| Router.RewriteItem | data-analyst-agent/app/api/router/route.ts:83-96 | an item without image bytes is returned as it is; a null item throws |
| Router.RewriteItemSpec | data-analyst-agent/app/api/router/route.ts:83-95 | an image with string base64 bytes keeps every other field of the item, the image and the source, and its bytes become the decoded buffer |
| Router.RewriteItems | data-analyst-agent/app/api/router/route.ts:82-97 | items are rewritten one to one, in order; the map throws exactly when some item throws |
| Router.RewriteMessage | data-analyst-agent/app/api/router/route.ts:78-100 | a message without array content passes unchanged; otherwise it keeps its keys and all other fields, and its content is the rewritten items |
| Router.RewriteMessages | data-analyst-agent/app/api/router/route.ts:78-101 | messages are rewritten one to one, in order; the map throws exactly when some message throws |
| Router.Answer | data-analyst-agent/app/api/router/route.ts:130-148 | the reply is the first tool block's `toolUse`, exactly when that block, its `toolUse` and its input are truthy; anything else is the generic 500 |
| Router.Post | data-analyst-agent/app/api/router/route.ts:52-149 | invalid requests get their 400; every other request that does not reach processing (unreadable or null body, a throwing filter or rewrite) gets the generic 500, as do all other failures; a processed message without array content ends in the generic 500 (the log line); a 200 is the answer to the cleaned history |
| Router.PostIntended | data-analyst-agent/app/api/router/route.ts:52-149 | as `Router.Post`, except that a cleaned history always reaches the gateway |
| Router.IntendedAgreesWithoutStringContent | data-analyst-agent/app/api/router/route.ts:118-126 | when every processed message has array content, the route as written and the intended one answer alike |
| Router.StringContentCrashes | data-analyst-agent/app/api/router/route.ts:118-126 | one user message with string content is kept by the filter, yet the route answers the generic 500, whatever the gateway says |
| Router.StringContentProcessed | data-analyst-agent/app/api/router/route.ts:73-126 | that history passes validation, the filter and the rewrite unchanged, and its log line throws |
| Page.TrimEmptyIffBlank | data-analyst-agent/app/analysis/page.tsx:427 | `input.trim()` is empty exactly when the input is all white space or line terminators |
| Page.ApiMessageIntended | data-analyst-agent/app/analysis/page.tsx:450-482 | a message without a file is sent with its blocks; a text file is sent as "File contents of <name>:", the decoded text and the typed text, and throws exactly when decoding fails; an image file is sent as an image item plus the typed text |
| Page.ApiMessages | data-analyst-agent/app/analysis/page.tsx:450-482 | the history is sent one to one, in order; it throws exactly when some file fails to decode |
| Page.ApiMessageAsWritten | data-analyst-agent/app/analysis/page.tsx:450-482 | as the page converts a message: it throws exactly when a text file fails to decode; the role is kept; without a file it sends the blocks; a text file sends "File contents of <name>:", the decoded text and the rendered block array; an image file sends the block array as its text item |
| Page.ApiMessagesAsWritten | data-analyst-agent/app/analysis/page.tsx:450-482 | the history as the page converts it, one to one, in order; it throws exactly when some file fails to decode |
| Page.AsWrittenAgreesWithoutFile | data-analyst-agent/app/analysis/page.tsx:450-482 | the page's conversion and the corrected one throw on the same message, keep its role, and are equal for a message without a file |
| Page.AsWrittenHistoryAgrees | data-analyst-agent/app/analysis/page.tsx:450-482 | the two histories throw alike, and are equal when no message carries a file |
| Page.TextUploadLosesTypedText | data-analyst-agent/app/analysis/page.tsx:456 | as written, the text after a text file's contents is "[object Object]" whatever was typed; the corrected message carries the typed text |
| Page.ImageUploadSendsBlockArray | data-analyst-agent/app/analysis/page.tsx:470-473 | as written, the text item of an image upload holds the block array and not the typed text; the corrected message carries the typed text |
| Page.Begin | data-analyst-agent/app/analysis/page.tsx:432-446 | a turn starts by appending the user's message with the pending upload, showing the thinking message, clearing the input and setting loading; the query log and the upload are untouched |
| Page.QueryMessage | data-analyst-agent/app/analysis/page.tsx:540-559 | the SQL reply is recorded as an assistant message with the reply's text and one tool call, with the turn's tool use id, the SQL tool's name and the reply's query and explanation, and no tool result |
| Page.UploadPath | data-analyst-agent/app/analysis/page.tsx:490-518 | one call to the chart endpoint with the whole history; on a 2xx, one chart reply; otherwise failure; nothing is logged |
| Page.ChartReplyMessage | data-analyst-agent/app/analysis/page.tsx:509-518 | the chart reply is an assistant message with one text block holding the reply's content and no tool result; its tool-use flag is truthy exactly when the reply's `hasToolUse` or `toolUse` is; its chart data is the reply's truthy chart data, else the tool use's truthy input, else null |
| Page.QueryPath | data-analyst-agent/app/analysis/page.tsx:519-606 | one call to the SQL endpoint; its answer is logged and recorded with the tool call; the chart endpoint is called exactly when the answer has rows, with a single user message; after a 2xx chart reply the third message carries its content (or "Here's the visualization based on the data.") and its chart data (or null); a non-2xx from either endpoint is a failure |
| Page.Submit | data-analyst-agent/app/analysis/page.tsx:425-636 | a submit while loading, or with blank input and no upload, changes nothing; otherwise the messages grow by the user's message, what the body added and one apology on failure; the log grows by what was logged; the turn ends idle; the upload is kept |
| Page.BlankInputIgnored | data-analyst-agent/app/analysis/page.tsx:427 | blank input without an upload leaves the page as it was and calls nothing |
| Page.StartsAndEnds | data-analyst-agent/app/analysis/page.tsx:427-446 | an idle submit with text or an upload keeps the history as a prefix, followed by the user's message, and ends idle with no thinking message and an empty input |
| Page.UploadTurn | data-analyst-agent/app/analysis/page.tsx:490-518 | with an upload, at most one call, to the chart endpoint only; exactly one assistant message follows the user's: the chart reply on a 2xx, the apology otherwise; the log is unchanged |
| Page.QueryTurn | data-analyst-agent/app/analysis/page.tsx:519-623 | without an upload, the SQL endpoint gets the whole history; a 2xx answer is logged; the chart endpoint is called exactly when the answer has rows; a failed SQL call leaves only the user's message and the apology |
| Page.ChartRequestStandsAlone | data-analyst-agent/app/analysis/page.tsx:561-594 | the chart request after a query is a single user message whose content starts with "Visualize this data: " |
| Page.BodyCalls | data-analyst-agent/app/analysis/page.tsx:490-594 | every request of a turn's body posts a non-empty history with the session's model and region |
| Page.TurnCalls | data-analyst-agent/app/analysis/page.tsx:425-611 | every request of a turn posts a non-empty history with the session's model and region |
| Page.SnocPlain | data-analyst-agent/app/analysis/page.tsx:609-623 | appending a message without tool results keeps every tool result answered by an earlier tool call |
| Page.SnocAnswer | data-analyst-agent/app/analysis/page.tsx:564-582 | appending a tool result whose call is already in the history keeps every tool result answered |
| Page.AddedShape | data-analyst-agent/app/analysis/page.tsx:509-606 | of the messages a turn adds, only the second can hold a tool result, and it answers the tool call in the first |
| Page.AppendAnswersInPlace | data-analyst-agent/app/analysis/page.tsx:539-606 | appending such messages to a history whose tool results are answered keeps them all answered |
| Page.SubmitKeepsResultsAnswered | data-analyst-agent/app/analysis/page.tsx:539-582 | a turn keeps every tool result in the history answered by a tool call in an earlier message |
| Flows.BodyAccepted | data-analyst-agent/app/api/analyze/route.ts:21-41 | a page body with a non-empty history, model and region passes both endpoints' validation (visualize/route.ts:266-285) and carries no `fileData` |
| Flows.TurnRequestsAccepted | data-analyst-agent/app/analysis/page.tsx:490-594 | once a model and a region are chosen, no request of a turn is turned away by validation, and no chart request carries `fileData` |
| Flows.ChartReplyShown | data-analyst-agent/app/analysis/page.tsx:509-518 | for any reply the chart endpoint builds (visualize/route.ts:431-437), the page shows its text, a tool-use flag set exactly when the endpoint found a tool block, the processed chart when there is one, and otherwise the truthy raw tool input |
| Flows.ReplyShape | data-analyst-agent/app/api/visualize/route.ts:371-437 | the chart endpoint's reply has a null tool use when it found no tool block, and its chart, when present, is an object |
| Flows.ReplyShown | data-analyst-agent/app/analysis/page.tsx:509-518 | the page's chart message for any reply of that shape |
| Flows.ReplyFieldsRead | data-analyst-agent/app/api/visualize/route.ts:431-437 | each field of the serialised chart reply reads back |

## Left out

- Logging, the system prompts, tool schemas and inference settings, and Bedrock and SQLite client creation are left out. They do not affect the replies. The one exception is the router's request log line, which can throw, and it is modelled.
- The model, the database, the file system, `fetch` and `uuidv4` are parameters. Reading the schema file and sampling the table is the single flag `setupOk`.
- The exact texts of runtime exceptions (TypeErrors, decode failures, Python `KeyError`s) are all one constant, `Gateway.InternalError`. Messages of Converse failures are kept.
- Numbers are integers. Floating point and JSON number formatting are not modelled.
- Objects have distinct keys, in insertion order. JavaScript's ordering of integer-like keys first, prototype properties and getters are not modelled. Property reads are own properties, plus `length` and index keys on arrays, strings and buffers.
- `String(v)` renders a buffer as Latin-1 characters, one per byte. `Buffer.from` on a non-string is modelled as a throw.
- A request body that is not a JSON object is modelled only as far as null (reading from it throws). Other primitives read as having no properties.
- Pydantic request validation (a 422 for a malformed Python request) is left out. The Python handler receives typed messages. Response validation is modelled: a non-string explanation, tool use id or stop reason is a 500.
- React's deferred state updaters are applied in the order they were queued, as one render would apply them. Concurrent submits, scrolling and the scroll lock are left out.
- `handleFileSelect`, the chart components and the rest of the page's UI are not part of this model.
- Page.HasRows: a `length` that is not a number counts as no rows. JavaScript would coerce a numeric string.
- Page.ApiMessages: the history is converted with the corrected conversion (`Page.ApiMessageIntended`), not the page's as written. `Page.AsWrittenHistoryAgrees` shows the two throw alike and send the same history when no message carries a file; with a file, the text differs as "## Findings" describes.
- Page.Submit: the requests of a turn carry the history converted by `Page.ApiMessages`, so they carry the typed text of an upload where the page as written sends "[object Object]" or a block array.
- Page.Submit: a 2xx reply whose body is not a JSON object is not modelled. The endpoints only ever send objects.

## Findings

| source | as written | input that shows it | evidently intended | confidence | as-written member | corrected member |
|---|---|---|---|---|---|---|
| data-analyst-agent/app/api/router/route.ts:118-126 | the request log line calls `msg.content.map` on every processed message before the gateway call, so a message with string content throws and the request gets the generic 500 | `{"messages":[{"role":"user","content":"hi"}],"model":"m","region":"r"}`, whose only message the filter keeps (line 75) | logging does not change the reply: the cleaned history goes to the gateway | medium, not executed | Router.Post, Router.StringContentCrashes | Router.PostIntended, Router.IntendedAgreesWithoutStringContent |
| data-analyst-agent/app/analysis/page.tsx:456 and :472 | a message with a file renders its content blocks with `${msg.content}` (text files) or sends them as `text` (images), so the typed question becomes "[object Object]", or a block array where a string belongs | a text upload with the input "total sales by region" | the typed text follows the file contents, and is the image's text item | medium, not executed | Page.ApiMessageAsWritten, Page.TextUploadLosesTypedText, Page.ImageUploadSendsBlockArray | Page.ApiMessageIntended, used by Page.ApiMessages and Page.Submit |

=== FILE: analyze.dfy ===
/** The SQL endpoint (`POST /api/analyze`): request validation, extraction of
    the `generate_sql_query` tool output, the rule that only an extracted query
    is executed (a database error leaving the result null), and the assembly of
    the reply with its null and default rules. */
module Analyze {
  import opened Wrappers
  import opened Js
  import opened Gateway

  const MessagesRequired := "Messages are required and must be a non-empty array"
  const ModelRequired := "Model selection is required"
  const RegionRequired := "Region selection is required"
  const NoResponse := "No response generated"

  /** The fields the handler destructures from the request body. */
  datatype Request = Request(messages: Val, model: Val, region: Val)

  /** The `{query, explanation}` pair extracted from a tool block. */
  datatype QuerySpec = QuerySpec(query: string, explanation: Json)

  /** The 200 body: `{query, explanation, result, content}`. */
  datatype AnalyzeReply = AnalyzeReply(query: Json, explanation: Json, result: Json, content: Json)

  /** The HTTP reply together with the queries handed to the database, in order. */
  datatype Outcome = Outcome(reply: Reply<AnalyzeReply>, executed: seq<string>)

  predicate NonEmptyArray(v: Val) {
    v.Some? && v.value.JArr? && |v.value.items| > 0
  }

  /** The 400 message for an invalid request, or None when it may proceed. */
  function Validate(req: Request): (r: Option<string>)
    ensures r == Some(MessagesRequired) <==> !NonEmptyArray(req.messages)
    ensures r == Some(ModelRequired) <==> NonEmptyArray(req.messages) && !Truthy(req.model)
    ensures r == Some(RegionRequired) <==> NonEmptyArray(req.messages) && Truthy(req.model) && !Truthy(req.region)
    ensures r.None? <==> NonEmptyArray(req.messages) && Truthy(req.model) && Truthy(req.region)
  {
    if !Truthy(req.messages) || !req.messages.value.JArr? || |req.messages.value.items| == 0 then Some(MessagesRequired)
    else if !Truthy(req.model) then Some(ModelRequired)
    else if !Truthy(req.region) then Some(RegionRequired)
    else None
  }

  /** A tool input whose `query` is a non-empty string. */
  predicate HasQuery(toolData: Json) {
    var q := Prop(toolData, "query");
    q.Some? && q.value.JStr? && q.value.s != ""
  }

  /** `processToolResponse`: the query and explanation of a tool block, or None. */
  function ExtractQuery(c: Codec, block: Json): (r: Option<QuerySpec>)
    ensures r.Some? <==> ToolInput(c, block).Some? && HasQuery(ToolInput(c, block).value)
    ensures r.Some? ==>
      && Prop(ToolInput(c, block).value, "query") == Some(JStr(r.value.query))
      && r.value.query != ""
      && (Truthy(Prop(ToolInput(c, block).value, "explanation")) ==>
            Prop(ToolInput(c, block).value, "explanation") == Some(r.value.explanation))
      && (!Truthy(Prop(ToolInput(c, block).value, "explanation")) ==> r.value.explanation == JStr(""))
  {
    match ToolInput(c, block)
    case None => None
    case Some(toolData) =>
      if !HasQuery(toolData) then None
      else Some(QuerySpec(Prop(toolData, "query").value.s, Or(Prop(toolData, "explanation"), Some(JStr(""))).value))
  }

  /** `responseData` for an extracted query (or none) and the first text
      block's `text`: the query runs exactly when one was extracted, and a
      database error leaves the result null. */
  function Assemble(spec: Option<QuerySpec>, text: Val, run: string -> Option<seq<Json>>): (o: Outcome)
    ensures o.reply.Ok?
    ensures spec.None? ==> o.executed == [] && o.reply.body.query == JNull && o.reply.body.result == JNull
    ensures spec.Some? ==> o.executed == [spec.value.query] && o.reply.body.query == JStr(spec.value.query)
    ensures spec.Some? ==> (o.reply.body.result == JNull <==> run(spec.value.query).None?)
    ensures spec.Some? && run(spec.value.query).Some? ==> o.reply.body.result == JArr(run(spec.value.query).value)
    ensures Truthy(Some(o.reply.body.content))
    ensures Truthy(text) ==> o.reply.body.content == text.value
    ensures o.reply.body.explanation == JNull || Truthy(Some(o.reply.body.explanation))
    ensures spec.Some? && Truthy(Some(spec.value.explanation)) ==> o.reply.body.explanation == spec.value.explanation
    ensures spec.None? || !Truthy(Some(spec.value.explanation)) ==> o.reply.body.explanation == JNull
  {
    var executed := if spec.Some? then [spec.value.query] else [];
    var rows := if spec.Some? then run(spec.value.query) else None;
    Outcome(Ok(AnalyzeReply(
      if spec.Some? then JStr(spec.value.query) else JNull,
      if spec.Some? && Truthy(Some(spec.value.explanation)) then spec.value.explanation else JNull,
      if rows.Some? then JArr(rows.value) else JNull,
      Or(text, Some(JStr(NoResponse))).value)), executed)
  }

  /** The reply built from the gateway's content blocks: the first text block
      and the query extracted from the first tool block. */
  function Respond(c: Codec, content: seq<Json>, run: string -> Option<seq<Json>>): (r: Completion<Outcome>)
    ensures r.Throws? <==> FindWithKey(content, "text").Throws? || FindWithKey(content, "toolUse").Throws?
  {
    match FindWithKey(content, "text")
    case Throws => Throws
    case Normal(textBlock) =>
      match FindWithKey(content, "toolUse")
      case Throws => Throws
      case Normal(toolBlock) =>
        var spec := if toolBlock.Some? then ExtractQuery(c, toolBlock.value) else None;
        var text := if textBlock.Some? then Prop(textBlock.value, "text") else None;
        Normal(Assemble(spec, text, run))
  }

  /** The reply fields in terms of the first text block and the first tool
      block: the query extracted from the latter (null without one), its
      explanation unless empty, and the first text or the fallback. */
  lemma RespondFields(c: Codec, content: seq<Json>, run: string -> Option<seq<Json>>)
    requires Respond(c, content, run).Normal?
    ensures FindWithKey(content, "text").Normal? && FindWithKey(content, "toolUse").Normal?
    ensures var body := Respond(c, content, run).value.reply.body;
            var tool := FindWithKey(content, "toolUse").value;
            var spec := if tool.Some? then ExtractQuery(c, tool.value) else None;
            && (spec.None? <==> body.query == JNull)
            && (spec.Some? ==> body.query == JStr(spec.value.query))
            && (spec.Some? && spec.value.explanation != JStr("") ==> body.explanation == spec.value.explanation)
            && (spec.None? || spec.value.explanation == JStr("") ==> body.explanation == JNull)
            && (spec.Some? && run(spec.value.query).Some? ==> body.result == JArr(run(spec.value.query).value))
            && (spec.None? || run(spec.value.query).None? ==> body.result == JNull)
    ensures var body := Respond(c, content, run).value.reply.body;
            var text := FindWithKey(content, "text").value;
            && (text.Some? && Truthy(Prop(text.value, "text")) ==> body.content == Prop(text.value, "text").value)
            && (text.None? || !Truthy(Prop(text.value, "text")) ==> body.content == JStr(NoResponse))
  {
    var tool := FindWithKey(content, "toolUse").value;
    var spec := if tool.Some? then ExtractQuery(c, tool.value) else None;
    if spec.Some? && spec.value.explanation != JStr("") {
      var td := ToolInput(c, tool.value).value;
      assert Truthy(Prop(td, "explanation"));
    }
  }

  /** The fields the handler destructures from the request body; null throws. */
  function RequestOf(body: Json): Completion<Request> {
    if body.JNull? then Throws
    else Normal(Request(Prop(body, "messages"), Prop(body, "model"), Prop(body, "region")))
  }

  /** `POST /api/analyze`. `body` is None when the request is not JSON;
      `setupOk` says whether reading the schema file, opening the database and
      sampling the table succeeded; the gateway receives the history as sent;
      `run` executes a query, None being a database error. */
  function Post(c: Codec, body: Option<Json>, setupOk: bool, gateway: seq<Json> -> Converse,
                run: string -> Option<seq<Json>>): (r: Outcome)
    ensures body.Some? && RequestOf(body.value).Normal? && Validate(RequestOf(body.value).value).Some? ==>
      r == Outcome(Fail(400, Validate(RequestOf(body.value).value).value), [])
    ensures body.None? || RequestOf(body.value).Throws? ==> r == Outcome(Fail(500, InternalError), [])
    ensures body.Some? && RequestOf(body.value).Normal? && Validate(RequestOf(body.value).value).None? && !setupOk ==>
      r == Outcome(Fail(500, InternalError), [])
    ensures r.executed != [] ==> r.reply.Ok?
    ensures |r.executed| <= 1
    ensures r.reply.Ok? ==> (r.executed != [] <==> r.reply.body.query != JNull)
    ensures r.reply.Ok? && r.executed != [] ==> r.reply.body.query == JStr(r.executed[0])
    ensures r.reply.Ok? && r.reply.body.result != JNull ==> r.executed != [] && run(r.executed[0]).Some?
    ensures r.reply.Ok? ==>
      && body.Some? && RequestOf(body.value).Normal?
      && Validate(RequestOf(body.value).value).None? && setupOk
      && gateway(RequestOf(body.value).value.messages.value.items).Replied?
    ensures body.Some? && RequestOf(body.value).Normal? && Validate(RequestOf(body.value).value).None? && setupOk ==>
      match gateway(RequestOf(body.value).value.messages.value.items)
      case ServiceFault(h, _) => r == Outcome(Fail(ServiceStatus(h), ServiceErrorText), [])
      case Fault(m) => r == Outcome(Fail(500, m), [])
      case Replied(None, _) => r == Outcome(Fail(500, InvalidResponse), [])
      case Replied(Some(content), _) =>
        && (Respond(c, content, run).Normal? ==> r == Respond(c, content, run).value)
        && (Respond(c, content, run).Throws? ==> r == Outcome(Fail(500, InternalError), []))
  {
    match body
    case None => Outcome(Fail(500, InternalError), [])
    case Some(b) =>
      match RequestOf(b)
      case Throws => Outcome(Fail(500, InternalError), [])
      case Normal(req) =>
        match Validate(req)
        case Some(e) => Outcome(Fail(400, e), [])
        case None =>
          if !setupOk then Outcome(Fail(500, InternalError), [])
          else
            match gateway(req.messages.value.items)
            case ServiceFault(h, _) => Outcome(Fail(ServiceStatus(h), ServiceErrorText), [])
            case Fault(m) => Outcome(Fail(500, m), [])
            case Replied(content, _) =>
              if content.None? then Outcome(Fail(500, InvalidResponse), [])
              else
                match Respond(c, content.value, run)
                case Throws => Outcome(Fail(500, InternalError), [])
                case Normal(o) => o
  }
}

=== FILE: flows.dfy ===
/** How the page's requests meet the endpoints: every body a turn posts
    passes the target endpoint's validation once a model and a region are
    chosen, and no chart request carries `fileData`, so an upload reaches the
    model only through the history the page builds. */
module Flows {
  import opened Wrappers
  import opened Js
  import Gateway
  import Page
  import Analyze
  import Visualize

  /** A page body with a non-empty history, model and region is accepted by
      both endpoints, and carries no file for the chart endpoint. */
  lemma BodyAccepted(history: seq<Json>, model: string, region: string)
    requires |history| > 0 && model != "" && region != ""
    ensures Analyze.RequestOf(Page.Body(history, model, region))
            == Normal(Analyze.Request(Some(JArr(history)), Some(JStr(model)), Some(JStr(region))))
    ensures Analyze.Validate(Analyze.RequestOf(Page.Body(history, model, region)).value).None?
    ensures Visualize.RequestOf(Page.Body(history, model, region))
            == Normal(Visualize.Request(Some(JArr(history)), None, Some(JStr(model)), Some(JStr(region))))
    ensures Visualize.Validate(Visualize.RequestOf(Page.Body(history, model, region)).value).None?
  {
    var fields := Page.Body(history, model, region).fields;
    assert Keys(fields) == ["messages", "model", "region"] by {
      assert Keys(fields[2..]) == ["region"];
      assert Keys(fields[1..]) == ["model", "region"];
    }
    assert "fileData" !in Keys(fields);
  }

  /** With a model and a region chosen, no request of a turn is turned away by
      the endpoint's validation, and no chart request carries `fileData`. */
  lemma TurnRequestsAccepted(c: Gateway.Codec, s: Page.Session, ids: Page.TurnIds, api: Page.ApiCall -> Page.FetchOutcome)
    requires s.model != "" && s.region != ""
    ensures var calls := Page.Submit(c, s, ids, api).calls;
            forall k :: 0 <= k < |calls| ==>
              && Analyze.RequestOf(calls[k].body).Normal?
              && Analyze.Validate(Analyze.RequestOf(calls[k].body).value).None?
              && Visualize.RequestOf(calls[k].body).Normal?
              && Visualize.Validate(Visualize.RequestOf(calls[k].body).value).None?
              && Visualize.RequestOf(calls[k].body).value.fileData.None?
  {
    var calls := Page.Submit(c, s, ids, api).calls;
    Page.TurnCalls(c, s, ids, api);
    forall k | 0 <= k < |calls|
      ensures && Analyze.RequestOf(calls[k].body).Normal?
              && Analyze.Validate(Analyze.RequestOf(calls[k].body).value).None?
              && Visualize.RequestOf(calls[k].body).Normal?
              && Visualize.Validate(Visualize.RequestOf(calls[k].body).value).None?
              && Visualize.RequestOf(calls[k].body).value.fileData.None?
    {
      BodyAccepted(Page.Posted(calls[k]), s.model, s.region);
    }
  }

  /** The chart endpoint's 200 body as `JSON.stringify` writes it. */
  function ReplyFields(r: Visualize.ChartReply): seq<Field> {
    [Field("content", r.content), Field("hasToolUse", JBool(r.hasToolUse)),
     Field("toolUse", r.toolUse), Field("chartData", r.chartData)]
  }

  /** What the page shows for a chart reply: the reply's text, a tool-use flag
      that is set exactly when the endpoint found a tool block, the processed
      chart when there is one, and otherwise the raw tool input when it is
      truthy. */
  lemma ChartReplyShown(c: Gateway.Codec, content: seq<Json>, id: string)
    requires Visualize.Respond(c, content).Normal?
    ensures var r := Visualize.Respond(c, content).value;
            var m := Page.ChartReplyMessage(id, ReplyFields(r));
            && m.content == [Page.Text(Some(r.content))]
            && (Truthy(m.hasToolUse) <==> r.hasToolUse)
            && (r.chartData != JNull ==> m.chartData == Some(r.chartData))
            && (r.chartData == JNull && r.toolUse.JObj? && Truthy(Prop(r.toolUse, "input")) ==>
                  m.chartData == Prop(r.toolUse, "input"))
  {
    ReplyShape(c, content);
    ReplyShown(Visualize.Respond(c, content).value, id);
  }

  /** The chart endpoint's replies: no tool use without a tool block, and a
      chart is an object. */
  lemma ReplyShape(c: Gateway.Codec, content: seq<Json>)
    requires Visualize.Respond(c, content).Normal?
    ensures var r := Visualize.Respond(c, content).value;
            && (!r.hasToolUse ==> r.toolUse == JNull)
            && (r.chartData != JNull ==> r.chartData.JObj?)
  {
    var r := Visualize.Respond(c, content).value;
    if r.chartData != JNull {
      Visualize.ProcessToolResponseShape(c, Gateway.FindWithKey(content, "toolUse").value.value);
    }
  }

  /** The page's chart message for a reply of that shape. */
  lemma ReplyShown(r: Visualize.ChartReply, id: string)
    requires !r.hasToolUse ==> r.toolUse == JNull
    requires r.chartData != JNull ==> r.chartData.JObj?
    ensures var m := Page.ChartReplyMessage(id, ReplyFields(r));
            && m.content == [Page.Text(Some(r.content))]
            && (Truthy(m.hasToolUse) <==> r.hasToolUse)
            && (r.chartData != JNull ==> m.chartData == Some(r.chartData))
            && (r.chartData == JNull && r.toolUse.JObj? && Truthy(Prop(r.toolUse, "input")) ==>
                  m.chartData == Prop(r.toolUse, "input"))
  {
    ReplyFieldsRead(r);
    if r.chartData != JNull {
      assert Truthy(Some(r.chartData));
    }
  }

  /** Each field of the serialised reply reads back. */
  lemma ReplyFieldsRead(r: Visualize.ChartReply)
    ensures var fields := ReplyFields(r);
            && Lookup(fields, "content") == Some(r.content)
            && Lookup(fields, "hasToolUse") == Some(JBool(r.hasToolUse))
            && Lookup(fields, "toolUse") == Some(r.toolUse)
            && Lookup(fields, "chartData") == Some(r.chartData)
  {
    var fields := ReplyFields(r);
    assert Lookup(fields[3..], "chartData") == Some(r.chartData);
    assert fields[2..][1..] == fields[3..];
    assert Lookup(fields[2..], "toolUse") == Some(r.toolUse);
    assert Lookup(fields[2..], "chartData") == Some(r.chartData);
    assert fields[1..][1..] == fields[2..];
    assert Lookup(fields[1..], "hasToolUse") == Some(JBool(r.hasToolUse));
  }
}

=== FILE: gateway.dfy ===
/** What the routes share at their boundary: the runtime codecs they delegate
    to, the outcome of a call to the model gateway, the HTTP reply, and the
    scan for the first response block carrying a given key. */
module Gateway {
  import opened Wrappers
  import opened Js

  /** Runtime conversions, left uninterpreted; `None` means the call throws.
      `atob`/`btoa` are the browser base64 codecs, `escape` and `decodeUri` are
      `escape` and `decodeURIComponent`, `base64Bytes` is the lenient
      `Buffer.from(s, 'base64')`, and `parse`/`stringify` are the JSON codec. */
  datatype Codec = Codec(
    atob: string -> Option<string>,
    btoa: string -> Option<string>,
    escape: string -> string,
    decodeUri: string -> Option<string>,
    base64Bytes: string -> seq<bv8>,
    parse: string -> Option<Json>,
    stringify: Json -> string)

  /** The outcome of one Converse call: a reply whose `output.message.content`
      may be missing, a service exception carrying its HTTP status metadata, or
      any other failure (network, credentials, ...). */
  datatype Converse =
    | Replied(content: Option<seq<Json>>, stopReason: Val)
    | ServiceFault(httpStatus: Option<int>, message: string)
    | Fault(message: string)

  /** An HTTP reply: a 200 body, or an error status with its error text. */
  datatype Reply<T> = Ok(body: T) | Fail(status: int, error: string)

  const InvalidResponse := "Invalid response from Bedrock API"
  const ServiceErrorText := "AWS Service Error"

  /** The text of every runtime exception whose message the model does not
      track (TypeErrors, failed decodes). */
  const InternalError := "Internal error"

  /** `error.$metadata.httpStatusCode || 500`. */
  function ServiceStatus(httpStatus: Option<int>): (status: int)
    ensures httpStatus.Some? && httpStatus.value != 0 ==> status == httpStatus.value
    ensures httpStatus.None? || httpStatus.value == 0 ==> status == 500
  {
    if httpStatus.Some? && httpStatus.value != 0 then httpStatus.value else 500
  }

  /** `blocks.find(c => key in c)`: the first block holding `key`; the `in`
      test throws on a primitive block reached before a match. */
  function FindWithKey(blocks: seq<Json>, key: string): (r: Completion<Val>)
    ensures r.Normal? && r.value.Some? ==>
      exists i :: 0 <= i < |blocks| && blocks[i] == r.value.value && In(key, blocks[i]) == Normal(true)
        && forall j :: 0 <= j < i ==> In(key, blocks[j]) == Normal(false)
    ensures r.Normal? && r.value.None? ==> forall j :: 0 <= j < |blocks| ==> In(key, blocks[j]) == Normal(false)
    ensures r.Throws? ==>
      exists i :: 0 <= i < |blocks| && In(key, blocks[i]).Throws?
        && forall j :: 0 <= j < i ==> In(key, blocks[j]) == Normal(false)
  {
    if |blocks| == 0 then Normal(None)
    else
      match In(key, blocks[0])
      case Throws => Throws
      case Normal(true) => Normal(Some(blocks[0]))
      case Normal(false) =>
        var r := FindWithKey(blocks[1..], key);
        assert forall j :: 1 <= j < |blocks| ==> blocks[j] == blocks[1..][j - 1];
        r
  }

  /** The tool input of a response block, parsed when it is a JSON string;
      None when the block, its `toolUse` or its input is missing or falsy, or
      when the string does not parse. */
  function ToolInput(c: Codec, block: Json): Option<Json> {
    var toolUse := Prop(block, "toolUse");
    if !Truthy(Some(block)) || !Truthy(toolUse) then None
    else
      var input := Prop(toolUse.value, "input");
      if !Truthy(input) then None
      else if input.value.JStr? then c.parse(input.value.s)
      else input
  }
}

=== FILE: js.dfy ===
/** JavaScript values as the routes and the page handle them: the output of
    JSON.parse plus the binary buffers the server builds for the gateway SDK,
    with the runtime semantics the source relies on — truthiness, `||`,
    own-property reads, the `in` operator, String() conversion and property
    assignment on an object whose keys keep their insertion order. */
module Js {
  import opened Wrappers

  /** A value. Numbers are modelled as integers; an object is its ordered list
      of own properties; `JBytes` is a Node Buffer. */
  datatype Json =
    | JNull
    | JBool(b: bool)
    | JNum(n: int)
    | JStr(s: string)
    | JArr(items: seq<Json>)
    | JObj(fields: seq<Field>)
    | JBytes(bytes: seq<bv8>)

  datatype Field = Field(key: string, val: Json)

  /** The result of a property read; `None` is JavaScript's `undefined`. */
  type Val = Option<Json>

  /** Normal completion or a thrown exception (a TypeError, a failed decode, ...). */
  datatype Completion<+T> = Normal(value: T) | Throws

  /** JavaScript truthiness: undefined, null, false, 0 and "" are falsy. */
  predicate Truthy(v: Val) {
    match v
    case None => false
    case Some(j) =>
      match j
      case JNull => false
      case JBool(b) => b
      case JNum(n) => n != 0
      case JStr(s) => s != ""
      case _ => true
  }

  /** `a || b`: the first operand when it is truthy, otherwise the second. */
  function Or(a: Val, b: Val): Val {
    if Truthy(a) then a else b
  }

  /** `null` or `undefined`: reading a property of it throws. */
  predicate Nullish(v: Val) {
    v.None? || v.value.JNull?
  }

  /** `xs.map((x, j) => f(j, x))` where `f` may throw: the first throw
      propagates, otherwise every element is mapped in place. */
  function MapIndexed<A, B>(f: (nat, A) -> Completion<B>, xs: seq<A>): (r: Completion<seq<B>>)
    ensures r.Normal? ==> |r.value| == |xs|
    ensures r.Normal? ==> forall j :: 0 <= j < |xs| ==> f(j, xs[j]) == Normal(r.value[j])
    ensures r.Throws? <==> exists j :: 0 <= j < |xs| && f(j, xs[j]).Throws?
  {
    MapFrom(f, xs, 0)
  }

  function MapFrom<A, B>(f: (nat, A) -> Completion<B>, xs: seq<A>, i: nat): (r: Completion<seq<B>>)
    requires i <= |xs|
    ensures r.Normal? ==> |r.value| == |xs| - i
    ensures r.Normal? ==> forall j :: i <= j < |xs| ==> f(j, xs[j]) == Normal(r.value[j - i])
    ensures r.Throws? <==> exists j :: i <= j < |xs| && f(j, xs[j]).Throws?
    decreases |xs| - i
  {
    if i == |xs| then Normal([])
    else
      var head := f(i, xs[i]);
      var tail := MapFrom(f, xs, i + 1);
      if head.Throws? then Throws
      else if tail.Throws? then Throws
      else
        var r := [head.value] + tail.value;
        assert forall k :: 1 <= k < |r| ==> r[k] == tail.value[k - 1];
        Normal(r)
  }

  // ---------------------------------------------------------------------------
  // Ordered objects
  // ---------------------------------------------------------------------------

  /** `Object.keys` of an object, in insertion order. */
  function Keys(fields: seq<Field>): seq<string> {
    if |fields| == 0 then [] else [fields[0].key] + Keys(fields[1..])
  }

  /** The value stored under `key` (the first occurrence, keys being distinct). */
  function Lookup(fields: seq<Field>, key: string): (v: Val)
    ensures v.Some? <==> key in Keys(fields)
    ensures v.Some? ==> exists i :: 0 <= i < |fields| && fields[i] == Field(key, v.value)
  {
    if |fields| == 0 then None
    else if fields[0].key == key then Some(fields[0].val)
    else
      var r := Lookup(fields[1..], key);
      assert r.Some? ==> exists i :: 0 <= i < |fields| && fields[i] == Field(key, r.value) by {
        if r.Some? {
          var i :| 0 <= i < |fields[1..]| && fields[1..][i] == Field(key, r.value);
          assert fields[i + 1] == Field(key, r.value);
        }
      }
      r
  }

  /** `obj[key] = v` (equivalently `{...obj, [key]: v}`): an existing key keeps
      its position and takes the new value, a new key goes last. */
  function Set(fields: seq<Field>, key: string, v: Json): (r: seq<Field>)
    ensures Lookup(r, key) == Some(v)
    ensures forall k :: k != key ==> Lookup(r, k) == Lookup(fields, k)
    ensures key in Keys(fields) ==> Keys(r) == Keys(fields)
    ensures key !in Keys(fields) ==> Keys(r) == Keys(fields) + [key]
  {
    if |fields| == 0 then [Field(key, v)]
    else if fields[0].key == key then
      var r := [Field(key, v)] + fields[1..];
      ConsFacts(Field(key, v), fields[1..]);
      ConsFacts(fields[0], fields[1..]);
      assert fields == [fields[0]] + fields[1..];
      r
    else
      var rest := Set(fields[1..], key, v);
      ConsFacts(fields[0], rest);
      ConsFacts(fields[0], fields[1..]);
      assert fields == [fields[0]] + fields[1..];
      [fields[0]] + rest
  }

  /** Keys and lookups of an object with a first field in front. */
  lemma ConsFacts(f: Field, rest: seq<Field>)
    ensures Keys([f] + rest) == [f.key] + Keys(rest)
    ensures Lookup([f] + rest, f.key) == Some(f.val)
    ensures forall k :: k != f.key ==> Lookup([f] + rest, k) == Lookup(rest, k)
  {
    assert ([f] + rest)[1..] == rest;
  }

  // ---------------------------------------------------------------------------
  // Property access
  // ---------------------------------------------------------------------------

  /** `String(n)` for a natural number: its decimal digits. */
  function NatStr(n: nat): (s: string)
    ensures |s| >= 1
    ensures forall i :: 0 <= i < |s| ==> '0' <= s[i] <= '9'
  {
    if n < 10 then ["0123456789"[n]] else NatStr(n / 10) + ["0123456789"[n % 10]]
  }

  /** `String(n)` for an integer. */
  function IntStr(n: int): string {
    if n < 0 then "-" + NatStr(-n) else NatStr(n)
  }

  /** The index-keyed entries of an array-like value. */
  function IndexFields(items: seq<Json>): (r: seq<Field>)
    ensures |r| == |items|
    ensures forall i :: 0 <= i < |r| ==> r[i] == Field(NatStr(i), items[i])
  {
    seq(|items|, i requires 0 <= i < |items| => Field(NatStr(i), items[i]))
  }

  /** `Object.entries(v)` for a value that is not null or undefined — also what
      a spread `{...v}` copies: an object's fields, the indexed elements of an
      array, string or buffer, and nothing for a number or boolean. */
  function OwnEntries(v: Json): seq<Field> {
    match v
    case JObj(fields) => fields
    case JArr(items) => IndexFields(items)
    case JStr(s) => IndexFields(seq(|s|, i requires 0 <= i < |s| => JStr([s[i]])))
    case JBytes(b) => IndexFields(seq(|b|, i requires 0 <= i < |b| => JNum(b[i] as int)))
    case _ => []
  }

  /** `v[key]` on a value that is not null or undefined: own properties only,
      plus `length` on arrays, strings and buffers. */
  function Prop(v: Json, key: string): Val {
    match v
    case JStr(s) => if key == "length" then Some(JNum(|s|)) else Lookup(OwnEntries(v), key)
    case JArr(items) => if key == "length" then Some(JNum(|items|)) else Lookup(OwnEntries(v), key)
    case JBytes(b) => if key == "length" then Some(JNum(|b|)) else Lookup(OwnEntries(v), key)
    case _ => Lookup(OwnEntries(v), key)
  }

  /** `v[key]` on any value: reading from null or undefined throws. */
  function Read(v: Val, key: string): (r: Completion<Val>)
    ensures r.Throws? <==> Nullish(v)
  {
    if Nullish(v) then Throws else Normal(Prop(v.value, key))
  }

  /** `key in v`: defined on objects (arrays and buffers included), a TypeError
      on primitives. */
  function In(key: string, v: Json): (r: Completion<bool>)
    ensures r.Normal? <==> v.JObj? || v.JArr? || v.JBytes?
    ensures v.JObj? ==> (r == Normal(true) <==> key in Keys(v.fields))
  {
    if v.JObj? || v.JArr? || v.JBytes? then Normal(Prop(v, key).Some?) else Throws
  }

  // ---------------------------------------------------------------------------
  // String conversion
  // ---------------------------------------------------------------------------

  /** `parts.join(",")`. */
  function JoinComma(parts: seq<string>): string {
    if |parts| == 0 then ""
    else if |parts| == 1 then parts[0]
    else parts[0] + "," + JoinComma(parts[1..])
  }

  /** `String(v)`, as a template literal `${v}` renders it: arrays join their
      elements with commas (null elements render empty), every plain object
      renders as "[object Object]". */
  function JsString(v: Json): string
    decreases v
  {
    match v
    case JNull => "null"
    case JBool(b) => if b then "true" else "false"
    case JNum(n) => IntStr(n)
    case JStr(s) => s
    case JArr(items) =>
      JoinComma(seq(|items|, i requires 0 <= i < |items| =>
        if items[i].JNull? then "" else JsString(items[i])))
    case JObj(_) => "[object Object]"
    case JBytes(b) => seq(|b|, i requires 0 <= i < |b| => (b[i] as int) as char)
  }

  /** `${v}` for a value that may be undefined. */
  function Show(v: Val): string {
    match v
    case None => "undefined"
    case Some(j) => JsString(j)
  }

  // ---------------------------------------------------------------------------
  // String helpers
  // ---------------------------------------------------------------------------

  predicate StartsWith(s: string, prefix: string) {
    |prefix| <= |s| && s[..|prefix|] == prefix
  }

  /** The position of the first `c` in `s`. */
  function IndexOf(s: string, c: char): (i: nat)
    requires c in s
    ensures i < |s| && s[i] == c && c !in s[..i]
  {
    if s[0] == c then 0
    else
      var j := IndexOf(s[1..], c);
      assert s[1..][..j] == s[1..j + 1];
      1 + j
  }

  /** `s.split(sep)` for a one-character separator. */
  function Split(s: string, sep: char): (r: seq<string>)
    ensures |r| >= 1
    ensures sep in s <==> |r| >= 2
    decreases |s|
  {
    if sep !in s then [s]
    else
      var i := IndexOf(s, sep);
      [s[..i]] + Split(s[i + 1..], sep)
  }

  /** `s.split(sep)[k]`: undefined past the last piece. */
  function SplitAt(s: string, sep: char, k: nat): Option<string> {
    var pieces := Split(s, sep);
    if k < |pieces| then Some(pieces[k]) else None
  }
}

=== FILE: page.dfy ===
/** The chat turn handler of the analysis page (`handleSubmit`) as a state
    transition: the submit guard, the start of a turn (the user's message, the
    thinking indicator, the cleared input), the dispatch on a pending upload —
    the chart endpoint alone, or the SQL endpoint followed by the chart
    endpoint when the query returned rows — and the end of every turn, with
    one apology on failure and nothing rolled back. The endpoints' answers,
    the generated ids and the runtime codecs are inputs. */
module Page {
  import opened Wrappers
  import opened Js
  import opened Gateway

  const SqlToolName := "generate_sql_query"
  const Thinking := "thinking"
  const Apology := "I apologize, but I encountered an error. Please try again."
  const ChartFallback := "Here's the visualization based on the data."
  const VisualizePrefix := "Visualize this data: "

  datatype Role = User | Assistant

  /** A pending file: its base64 text, name, media type and `isText` flag. */
  datatype Upload = Upload(base64: string, fileName: string, mediaType: string, isText: Val)

  /** A content block of a chat message. */
  datatype Block =
    | Text(text: Val)
    | ToolUse(toolUseId: string, name: string, query: Val, explanation: Val)
    | ToolResult(toolUseId: string, resultText: string)

  /** A chat message; `hasToolUse` and `chartData` are present only on chart
      replies. */
  datatype Message = Message(
    id: string,
    role: Role,
    content: seq<Block>,
    file: Option<Upload>,
    hasToolUse: Val,
    chartData: Val)

  /** The page state a turn reads and writes. */
  datatype Session = Session(
    messages: seq<Message>,
    queryLog: seq<Json>,
    isLoading: bool,
    thinking: Option<Message>,
    input: string,
    upload: Option<Upload>,
    model: string,
    region: string)

  /** The ids `uuidv4` hands out during one turn, in the order they are used. */
  datatype TurnIds = TurnIds(user: string, thinking: string, toolUse: string, reply: string,
                             result: string, chart: string, apology: string)

  datatype Endpoint = AnalyzeEndpoint | VisualizeEndpoint

  /** One `fetch`: the endpoint and the JSON body posted to it. */
  datatype ApiCall = ApiCall(endpoint: Endpoint, body: Json)

  /** What a `fetch` yields: a 2xx reply with its JSON object, a non-2xx
      status, or a rejected promise. */
  datatype FetchOutcome = Answered(body: seq<Field>) | NotOk(status: int) | Rejected

  /** The session after a turn and the requests the turn made, in order. */
  datatype TurnResult = TurnResult(session: Session, calls: seq<ApiCall>)

  /** What the body of a turn added before it ended or failed. */
  datatype Progress = Progress(added: seq<Message>, logged: seq<Json>, calls: seq<ApiCall>, failed: bool)

  // ---------------------------------------------------------------------------
  // The submit guard
  // ---------------------------------------------------------------------------

  /** The characters `String.prototype.trim` removes: white space and line
      terminators. */
  predicate IsJsSpace(ch: char) {
    ch == '\t' || ch == '\n' || ch == '\U{000B}' || ch == '\U{000C}' || ch == '\r' || ch == ' '
    || ch == '\U{00A0}' || ch == '\U{1680}' || ('\U{2000}' <= ch <= '\U{200A}') || ch == '\U{2028}'
    || ch == '\U{2029}' || ch == '\U{202F}' || ch == '\U{205F}' || ch == '\U{3000}' || ch == '\U{FEFF}'
  }

  function TrimStart(s: string): string {
    if |s| > 0 && IsJsSpace(s[0]) then TrimStart(s[1..]) else s
  }

  function TrimEnd(s: string): string {
    if |s| > 0 && IsJsSpace(s[|s| - 1]) then TrimEnd(s[..|s| - 1]) else s
  }

  /** `s.trim()`. */
  function Trim(s: string): string {
    TrimEnd(TrimStart(s))
  }

  /** Text made of white space only. */
  predicate IsBlank(s: string) {
    forall i :: 0 <= i < |s| ==> IsJsSpace(s[i])
  }

  lemma {:induction false} TrimStartBlank(s: string)
    ensures TrimStart(s) == "" <==> IsBlank(s)
    ensures TrimStart(s) != "" ==> !IsJsSpace(TrimStart(s)[0])
  {
    if |s| > 0 && IsJsSpace(s[0]) {
      TrimStartBlank(s[1..]);
      if IsBlank(s[1..]) {
        assert forall i :: 0 <= i < |s| ==> s[i] == ([s[0]] + s[1..])[i];
      }
      if IsBlank(s) {
        assert forall i :: 0 <= i < |s| - 1 ==> s[1..][i] == s[i + 1];
      }
    }
  }

  lemma {:induction false} TrimEndEmpty(s: string)
    requires s == "" || !IsJsSpace(s[0])
    ensures TrimEnd(s) == "" <==> s == ""
  {
    if |s| > 0 && IsJsSpace(s[|s| - 1]) {
      assert |s| > 1;
      TrimEndEmpty(s[..|s| - 1]);
    }
  }

  /** `input.trim()` is empty exactly when the input is all white space. */
  lemma TrimEmptyIffBlank(s: string)
    ensures Trim(s) == "" <==> IsBlank(s)
  {
    TrimStartBlank(s);
    TrimEndEmpty(TrimStart(s));
  }

  /** Whether a submit starts a turn: there is non-blank input or an upload,
      and no turn is in flight. */
  predicate Submittable(s: Session) {
    (Trim(s.input) != "" || s.upload.Some?) && !s.isLoading
  }

  // ---------------------------------------------------------------------------
  // The request history
  // ---------------------------------------------------------------------------

  function RoleName(role: Role): string {
    match role
    case User => "user"
    case Assistant => "assistant"
  }

  /** A property that is present only when its value is defined. */
  function Entry(key: string, v: Val): seq<Field> {
    if v.Some? then [Field(key, v.value)] else []
  }

  /** A block as `JSON.stringify` writes it (undefined properties vanish). */
  function BlockJson(b: Block): Json {
    match b
    case Text(t) => JObj(Entry("text", t))
    case ToolUse(id, name, q, e) =>
      JObj([Field("toolUse", JObj([Field("toolUseId", JStr(id)), Field("name", JStr(name)),
                                   Field("input", JObj(Entry("query", q) + Entry("explanation", e)))]))])
    case ToolResult(id, t) =>
      JObj([Field("toolResult", JObj([Field("toolUseId", JStr(id)),
                                      Field("content", JArr([JObj([Field("text", JStr(t))])]))]))])
  }

  function ContentJson(content: seq<Block>): (r: Json)
    ensures r.JArr? && |r.items| == |content|
    ensures forall i :: 0 <= i < |content| ==> r.items[i] == BlockJson(content[i])
  {
    JArr(seq(|content|, i requires 0 <= i < |content| => BlockJson(content[i])))
  }

  /** The text the user typed into a message: its string text blocks, joined. */
  function TypedText(content: seq<Block>): string {
    if |content| == 0 then ""
    else
      (if content[0].Text? && content[0].text.Some? && content[0].text.value.JStr? then content[0].text.value.s else "")
      + TypedText(content[1..])
  }

  /** `{role, content}` with the given content. */
  function ApiMessage(role: Role, content: Json): Json {
    JObj([Field("role", JStr(RoleName(role))), Field("content", content)])
  }

  /** The image item and the text item sent for a message with a non-text file. */
  function ImageItems(f: Upload, text: Json): Json {
    JArr([JObj([Field("type", JStr("image")),
                Field("source", JObj([Field("type", JStr("base64")), Field("media_type", JStr(f.mediaType)),
                                      Field("data", JStr(f.base64))]))]),
          JObj([Field("type", JStr("text")), Field("text", text)])])
  }

  /** `decodeURIComponent(atob(base64))`, None when either throws. */
  function DecodeFile(c: Codec, f: Upload): Option<string> {
    match c.atob(f.base64)
    case None => None
    case Some(binary) => c.decodeUri(binary)
  }

  /** One history message as the page writes it, with the message's content
      interpolated as the string `${msg.content}` and sent as the `text` of
      the image path: a block array renders as "[object Object]" (one per
      block) and is no string at all in the image case. */
  function ApiMessageAsWritten(c: Codec, msg: Message): (r: Completion<Json>)
    ensures r.Throws? <==> msg.file.Some? && Truthy(msg.file.value.isText) && DecodeFile(c, msg.file.value).None?
    ensures r.Normal? ==> Prop(r.value, "role") == Some(JStr(RoleName(msg.role)))
    ensures msg.file.None? ==> r == Normal(ApiMessage(msg.role, ContentJson(msg.content)))
    ensures r.Normal? && msg.file.Some? && Truthy(msg.file.value.isText) ==>
      var prefix := "File contents of " + msg.file.value.fileName + ":\n\n" + DecodeFile(c, msg.file.value).value + "\n\n";
      Prop(r.value, "content") == Some(JStr(prefix + JsString(ContentJson(msg.content))))
    ensures msg.file.Some? && !Truthy(msg.file.value.isText) ==>
      r == Normal(ApiMessage(msg.role, ImageItems(msg.file.value, ContentJson(msg.content))))
  {
    match msg.file
    case None => Normal(ApiMessage(msg.role, ContentJson(msg.content)))
    case Some(f) =>
      if Truthy(f.isText) then
        match DecodeFile(c, f)
        case None => Throws
        case Some(text) =>
          Normal(ApiMessage(msg.role, JStr("File contents of " + f.fileName + ":\n\n" + text + "\n\n"
                                           + JsString(ContentJson(msg.content)))))
      else Normal(ApiMessage(msg.role, ImageItems(f, ContentJson(msg.content))))
  }

  /** One history message as evidently intended: the typed text goes after the
      file contents, and is the text item of the image path. */
  function ApiMessageIntended(c: Codec, msg: Message): (r: Completion<Json>)
    ensures msg.file.None? ==> r == Normal(ApiMessage(msg.role, ContentJson(msg.content)))
    ensures msg.file.Some? && !Truthy(msg.file.value.isText) ==>
      r == Normal(ApiMessage(msg.role, ImageItems(msg.file.value, JStr(TypedText(msg.content)))))
    ensures msg.file.Some? && Truthy(msg.file.value.isText) ==>
      (r.Normal? <==> DecodeFile(c, msg.file.value).Some?)
    ensures r.Normal? && msg.file.Some? && Truthy(msg.file.value.isText) ==>
      var prefix := "File contents of " + msg.file.value.fileName + ":\n\n" + DecodeFile(c, msg.file.value).value + "\n\n";
      r.value == ApiMessage(msg.role, JStr(prefix + TypedText(msg.content)))
  {
    match msg.file
    case None => Normal(ApiMessage(msg.role, ContentJson(msg.content)))
    case Some(f) =>
      if Truthy(f.isText) then
        match DecodeFile(c, f)
        case None => Throws
        case Some(text) =>
          Normal(ApiMessage(msg.role, JStr("File contents of " + f.fileName + ":\n\n" + text + "\n\n"
                                           + TypedText(msg.content))))
      else Normal(ApiMessage(msg.role, ImageItems(f, JStr(TypedText(msg.content)))))
  }

  /** `apiMessages`: every message of the history, in order. */
  function ApiMessages(c: Codec, msgs: seq<Message>): (r: Completion<seq<Json>>)
    ensures r.Normal? ==> |r.value| == |msgs|
    ensures r.Normal? ==> forall i :: 0 <= i < |msgs| ==> ApiMessageIntended(c, msgs[i]) == Normal(r.value[i])
    ensures r.Throws? <==> exists i :: 0 <= i < |msgs| && ApiMessageIntended(c, msgs[i]).Throws?
  {
    MapIndexed((j: nat, msg: Message) => ApiMessageIntended(c, msg), msgs)
  }

  /** `apiMessages` as the page writes it. */
  function ApiMessagesAsWritten(c: Codec, msgs: seq<Message>): (r: Completion<seq<Json>>)
    ensures r.Normal? ==> |r.value| == |msgs|
    ensures r.Normal? ==> forall i :: 0 <= i < |msgs| ==> ApiMessageAsWritten(c, msgs[i]) == Normal(r.value[i])
    ensures r.Throws? <==> exists i :: 0 <= i < |msgs| && ApiMessageAsWritten(c, msgs[i]).Throws?
  {
    MapIndexed((j: nat, msg: Message) => ApiMessageAsWritten(c, msg), msgs)
  }

  /** The page's conversion and the corrected one throw on the same messages,
      and agree on every message without a file. */
  lemma AsWrittenAgreesWithoutFile(c: Codec, msg: Message)
    ensures ApiMessageAsWritten(c, msg).Throws? <==> ApiMessageIntended(c, msg).Throws?
    ensures msg.file.None? ==> ApiMessageAsWritten(c, msg) == ApiMessageIntended(c, msg)
    ensures ApiMessageAsWritten(c, msg).Normal? ==>
      Prop(ApiMessageAsWritten(c, msg).value, "role") == Prop(ApiMessageIntended(c, msg).value, "role")
  {
  }

  /** So the histories they send throw alike, and are equal when no message
      carries a file: the turn's requests are the page's own then. */
  lemma {:induction false} AsWrittenHistoryAgrees(c: Codec, msgs: seq<Message>)
    ensures ApiMessagesAsWritten(c, msgs).Throws? <==> ApiMessages(c, msgs).Throws?
    ensures (forall i :: 0 <= i < |msgs| ==> msgs[i].file.None?) ==> ApiMessagesAsWritten(c, msgs) == ApiMessages(c, msgs)
  {
    forall i | 0 <= i < |msgs|
      ensures ApiMessageAsWritten(c, msgs[i]).Throws? <==> ApiMessageIntended(c, msgs[i]).Throws?
      ensures msgs[i].file.None? ==> ApiMessageAsWritten(c, msgs[i]) == ApiMessageIntended(c, msgs[i])
    {
      AsWrittenAgreesWithoutFile(c, msgs[i]);
    }
    if forall i :: 0 <= i < |msgs| ==> msgs[i].file.None? {
      if ApiMessages(c, msgs).Normal? {
        assert ApiMessagesAsWritten(c, msgs).value == ApiMessages(c, msgs).value;
      }
    }
  }

  /** The user's message for a text upload, as the page sends it: whatever was
      typed, the text after the file contents is "[object Object]". */
  lemma TextUploadLosesTypedText(c: Codec, f: Upload, typed: string)
    requires Truthy(f.isText) && DecodeFile(c, f).Some?
    ensures var msg := Message("id", User, [Text(Some(JStr(typed)))], Some(f), None, None);
            var prefix := "File contents of " + f.fileName + ":\n\n" + DecodeFile(c, f).value + "\n\n";
            && ApiMessageAsWritten(c, msg) == Normal(ApiMessage(User, JStr(prefix + "[object Object]")))
            && ApiMessageIntended(c, msg) == Normal(ApiMessage(User, JStr(prefix + typed)))
  {
    var content := [Text(Some(JStr(typed)))];
    var items := ContentJson(content).items;
    assert items == [JObj([Field("text", JStr(typed))])];
    assert JsString(ContentJson(content)) == "[object Object]";
    assert content[1..] == [];
    assert TypedText(content) == typed + TypedText([]) == typed;
  }

  /** The user's message for an image upload, as the page sends it: the text
      item's `text` is the block array rather than the typed string. */
  lemma ImageUploadSendsBlockArray(c: Codec, f: Upload, typed: string)
    requires !Truthy(f.isText)
    ensures var msg := Message("id", User, [Text(Some(JStr(typed)))], Some(f), None, None);
            && ApiMessageAsWritten(c, msg)
               == Normal(ApiMessage(User, ImageItems(f, JArr([JObj([Field("text", JStr(typed))])]))))
            && ApiMessageIntended(c, msg) == Normal(ApiMessage(User, ImageItems(f, JStr(typed))))
  {
    var content := [Text(Some(JStr(typed)))];
    assert ContentJson(content).items == [JObj([Field("text", JStr(typed))])];
    assert content[1..] == [];
    assert TypedText(content) == typed + TypedText([]) == typed;
  }

  /** The JSON body posted to an endpoint. */
  function Body(messages: seq<Json>, model: string, region: string): Json {
    JObj([Field("messages", JArr(messages)), Field("model", JStr(model)), Field("region", JStr(region))])
  }

  // ---------------------------------------------------------------------------
  // The turn
  // ---------------------------------------------------------------------------

  /** The message a turn starts with: the raw input as one text block, with
      the pending upload attached. */
  function UserMessage(s: Session, ids: TurnIds): Message {
    Message(ids.user, User, [Text(Some(JStr(s.input)))], s.upload, None, None)
  }

  function ThinkingMessage(ids: TurnIds): Message {
    Message(ids.thinking, Assistant, [Text(Some(JStr(Thinking)))], None, None, None)
  }

  function ApologyMessage(ids: TurnIds): Message {
    Message(ids.apology, Assistant, [Text(Some(JStr(Apology)))], None, None, None)
  }

  /** The state once a turn has started. */
  function Begin(s: Session, ids: TurnIds): (r: Session)
    ensures r.messages == s.messages + [UserMessage(s, ids)]
    ensures r.input == "" && r.isLoading && r.thinking == Some(ThinkingMessage(ids))
    ensures r.queryLog == s.queryLog && r.upload == s.upload && r.model == s.model && r.region == s.region
  {
    s.(messages := s.messages + [UserMessage(s, ids)], thinking := Some(ThinkingMessage(ids)),
       input := "", isLoading := true)
  }

  /** The chart reply appended on the upload path. */
  function ChartReplyMessage(id: string, data: seq<Field>): (m: Message)
    ensures m.id == id && m.role == Assistant && m.file.None? && NoResults(m)
    ensures m.content == [Text(Lookup(data, "content"))]
    ensures m.hasToolUse.Some?
    ensures Truthy(m.hasToolUse) <==> Truthy(Lookup(data, "hasToolUse")) || Truthy(Lookup(data, "toolUse"))
    ensures Truthy(Lookup(data, "chartData")) ==> m.chartData == Lookup(data, "chartData")
    ensures !Truthy(Lookup(data, "chartData")) && !Nullish(Lookup(data, "toolUse"))
            && Truthy(Prop(Lookup(data, "toolUse").value, "input")) ==>
      m.chartData == Prop(Lookup(data, "toolUse").value, "input")
    ensures !Truthy(Lookup(data, "chartData"))
            && (Nullish(Lookup(data, "toolUse")) || !Truthy(Prop(Lookup(data, "toolUse").value, "input"))) ==>
      m.chartData == Some(JNull)
    ensures m.chartData.Some? && (Truthy(m.chartData) || m.chartData == Some(JNull))
  {
    var toolUse := Lookup(data, "toolUse");
    var input := if Nullish(toolUse) then None else Prop(toolUse.value, "input");
    Message(id, Assistant, [Text(Lookup(data, "content"))], None,
            Or(Lookup(data, "hasToolUse"), Some(JBool(Truthy(toolUse)))),
            Or(Lookup(data, "chartData"), Or(input, Some(JNull))))
  }

  /** The upload path: the chart endpoint, given the whole history. */
  function UploadPath(s: Session, ids: TurnIds, apiMessages: seq<Json>, api: ApiCall -> FetchOutcome): (p: Progress)
    ensures p.calls == [ApiCall(VisualizeEndpoint, Body(apiMessages, s.model, s.region))]
    ensures p.logged == []
    ensures p.failed <==> !api(p.calls[0]).Answered?
    ensures p.failed ==> p.added == []
    ensures !p.failed ==> p.added == [ChartReplyMessage(ids.reply, api(p.calls[0]).body)]
  {
    var call := ApiCall(VisualizeEndpoint, Body(apiMessages, s.model, s.region));
    match api(call)
    case Answered(data) => Progress([ChartReplyMessage(ids.reply, data)], [], [call], false)
    case _ => Progress([], [], [call], true)
  }

  /** The assistant message recording the SQL reply and its tool call. */
  function QueryMessage(ids: TurnIds, data: seq<Field>): (m: Message)
    ensures m.id == ids.reply && m.role == Assistant && m.file.None? && NoResults(m)
    ensures m.hasToolUse.None? && m.chartData.None?
    ensures |m.content| == 2 && m.content[0] == Text(Lookup(data, "content"))
    ensures m.content[1].ToolUse? && m.content[1].toolUseId == ids.toolUse && m.content[1].name == SqlToolName
    ensures m.content[1].query == Lookup(data, "query") && m.content[1].explanation == Lookup(data, "explanation")
  {
    Message(ids.reply, Assistant,
            [Text(Lookup(data, "content")),
             ToolUse(ids.toolUse, SqlToolName, Lookup(data, "query"), Lookup(data, "explanation"))],
            None, None, None)
  }

  /** `result && result.length > 0`. */
  predicate HasRows(result: Val) {
    Truthy(result) &&
    var len := Prop(result.value, "length");
    len.Some? && len.value.JNum? && len.value.n > 0
  }

  /** The follow-up request: a single user message carrying the rows. */
  function VisualizeRequest(c: Codec, result: Json): string {
    VisualizePrefix + c.stringify(result)
  }

  /** The SQL path: the SQL endpoint with the whole history; then, when rows
      came back, the tool result and the chart endpoint with the rows alone. */
  function QueryPath(c: Codec, s: Session, ids: TurnIds, apiMessages: seq<Json>, api: ApiCall -> FetchOutcome): (p: Progress)
    ensures 1 <= |p.calls| <= 2
    ensures p.calls[0] == ApiCall(AnalyzeEndpoint, Body(apiMessages, s.model, s.region))
    ensures !api(p.calls[0]).Answered? ==> p == Progress([], [], [p.calls[0]], true)
    ensures api(p.calls[0]).Answered? ==>
      && p.logged == [JObj(api(p.calls[0]).body)]
      && |p.added| >= 1
      && p.added[0] == QueryMessage(ids, api(p.calls[0]).body)
    ensures |p.calls| == 2 <==> api(p.calls[0]).Answered? && HasRows(Lookup(api(p.calls[0]).body, "result"))
    ensures |p.calls| == 2 ==>
      var request := VisualizeRequest(c, Lookup(api(p.calls[0]).body, "result").value);
      && p.calls[1] == ApiCall(VisualizeEndpoint, Body([ApiMessage(User, JStr(request))], s.model, s.region))
      && |p.added| >= 2
      && p.added[1] == Message(ids.result, User, [ToolResult(ids.toolUse, request)], None, None, None)
    ensures p.failed <==> !api(p.calls[0]).Answered? || (|p.calls| == 2 && !api(p.calls[1]).Answered?)
    ensures |p.added| == (if !api(p.calls[0]).Answered? then 0 else if |p.calls| == 1 || p.failed then |p.calls| else 3)
    ensures |p.added| == 3 ==>
      && |p.calls| == 2 && api(p.calls[1]).Answered?
      && p.added[2] == Message(ids.chart, Assistant,
                               [Text(Or(Lookup(api(p.calls[1]).body, "content"), Some(JStr(ChartFallback))))], None, None,
                               Or(Lookup(api(p.calls[1]).body, "chartData"), Some(JNull)))
  {
    var call := ApiCall(AnalyzeEndpoint, Body(apiMessages, s.model, s.region));
    match api(call)
    case Answered(data) =>
      var first := QueryMessage(ids, data);
      var result := Lookup(data, "result");
      if !HasRows(result) then Progress([first], [JObj(data)], [call], false)
      else
        var request := VisualizeRequest(c, result.value);
        var resultMsg := Message(ids.result, User, [ToolResult(ids.toolUse, request)], None, None, None);
        var chartCall := ApiCall(VisualizeEndpoint, Body([ApiMessage(User, JStr(request))], s.model, s.region));
        (match api(chartCall)
         case Answered(chart) =>
           var chartMsg := Message(ids.chart, Assistant,
                                   [Text(Or(Lookup(chart, "content"), Some(JStr(ChartFallback))))], None, None,
                                   Or(Lookup(chart, "chartData"), Some(JNull)));
           Progress([first, resultMsg, chartMsg], [JObj(data)], [call, chartCall], false)
         case _ => Progress([first, resultMsg], [JObj(data)], [call, chartCall], true))
    case _ => Progress([], [], [call], true)
  }

  /** The body of the `try`: building the history (which may throw on a file
      that does not decode), then the path chosen by the pending upload. */
  function TurnBody(c: Codec, s: Session, ids: TurnIds, api: ApiCall -> FetchOutcome): Progress {
    match ApiMessages(c, s.messages + [UserMessage(s, ids)])
    case Throws => Progress([], [], [], true)
    case Normal(apiMessages) =>
      if s.upload.Some? then UploadPath(s, ids, apiMessages, api)
      else QueryPath(c, s, ids, apiMessages, api)
  }

  /** `handleSubmit`: the guard, then the turn. The messages and log entries a
      turn added are kept when it fails, followed by one apology; the turn
      always ends idle with no thinking indicator. */
  function Submit(c: Codec, s: Session, ids: TurnIds, api: ApiCall -> FetchOutcome): (r: TurnResult)
    ensures !Submittable(s) ==> r == TurnResult(s, [])
    ensures Submittable(s) ==>
      var p := TurnBody(c, s, ids, api);
      && r.calls == p.calls
      && r.session.messages == s.messages + [UserMessage(s, ids)] + p.added + (if p.failed then [ApologyMessage(ids)] else [])
      && r.session.queryLog == s.queryLog + p.logged
      && !r.session.isLoading && r.session.thinking.None? && r.session.input == ""
      && r.session.upload == s.upload && r.session.model == s.model && r.session.region == s.region
  {
    if !Submittable(s) then TurnResult(s, [])
    else
      var started := Begin(s, ids);
      var p := TurnBody(c, s, ids, api);
      TurnResult(started.(messages := started.messages + p.added + (if p.failed then [ApologyMessage(ids)] else []),
                          queryLog := started.queryLog + p.logged,
                          isLoading := false,
                          thinking := None), p.calls)
  }

  // ---------------------------------------------------------------------------
  // Properties of a turn
  // ---------------------------------------------------------------------------

  /** A submit with blank input and no upload does nothing. */
  lemma BlankInputIgnored(c: Codec, s: Session, ids: TurnIds, api: ApiCall -> FetchOutcome)
    requires IsBlank(s.input) && s.upload.None?
    ensures Submit(c, s, ids, api) == TurnResult(s, [])
  {
    TrimEmptyIffBlank(s.input);
  }

  /** A submit with non-blank input or an upload, while idle, starts a turn,
      which ends idle. */
  lemma StartsAndEnds(c: Codec, s: Session, ids: TurnIds, api: ApiCall -> FetchOutcome)
    requires !s.isLoading && (!IsBlank(s.input) || s.upload.Some?)
    ensures var r := Submit(c, s, ids, api);
            && |r.session.messages| > |s.messages|
            && r.session.messages[..|s.messages| + 1] == s.messages + [UserMessage(s, ids)]
            && !r.session.isLoading && r.session.thinking.None? && r.session.input == ""
  {
    TrimEmptyIffBlank(s.input);
    var r := Submit(c, s, ids, api);
    var p := TurnBody(c, s, ids, api);
    assert r.session.messages == (s.messages + [UserMessage(s, ids)]) + (p.added + (if p.failed then [ApologyMessage(ids)] else []));
  }

  /** With an upload pending, the turn calls the chart endpoint alone, once,
      with the whole history (unless a file fails to decode, in which case it
      calls nothing); exactly one assistant message follows the user's — the
      chart reply, or the apology — and the query log is unchanged. */
  lemma UploadTurn(c: Codec, s: Session, ids: TurnIds, api: ApiCall -> FetchOutcome)
    requires Submittable(s) && s.upload.Some?
    ensures var r := Submit(c, s, ids, api);
            var history := ApiMessages(c, s.messages + [UserMessage(s, ids)]);
            && r.session.queryLog == s.queryLog
            && (history.Throws? ==> r.calls == [])
            && (history.Normal? ==> r.calls == [ApiCall(VisualizeEndpoint, Body(history.value, s.model, s.region))])
            && |r.session.messages| == |s.messages| + 2
            && r.session.messages[..|s.messages| + 1] == s.messages + [UserMessage(s, ids)]
            && (r.calls != [] && api(r.calls[0]).Answered? ==>
                  r.session.messages[|s.messages| + 1] == ChartReplyMessage(ids.reply, api(r.calls[0]).body))
            && (r.calls == [] || !api(r.calls[0]).Answered? ==> r.session.messages[|s.messages| + 1] == ApologyMessage(ids))
  {
    var r := Submit(c, s, ids, api);
    var p := TurnBody(c, s, ids, api);
    assert r.session.messages == (s.messages + [UserMessage(s, ids)]) + (p.added + (if p.failed then [ApologyMessage(ids)] else []));
  }

  /** Without an upload, the turn calls the SQL endpoint with the whole
      history; its answer is logged; the chart endpoint is called exactly when
      the answer carries rows; a failed SQL call leaves only the user's
      message and the apology. */
  lemma QueryTurn(c: Codec, s: Session, ids: TurnIds, api: ApiCall -> FetchOutcome)
    requires Submittable(s) && s.upload.None?
    requires ApiMessages(c, s.messages + [UserMessage(s, ids)]).Normal?
    ensures var r := Submit(c, s, ids, api);
            var history := ApiMessages(c, s.messages + [UserMessage(s, ids)]).value;
            && 1 <= |r.calls| <= 2
            && r.calls[0] == ApiCall(AnalyzeEndpoint, Body(history, s.model, s.region))
            && (api(r.calls[0]).Answered? ==> r.session.queryLog == s.queryLog + [JObj(api(r.calls[0]).body)])
            && (!api(r.calls[0]).Answered? ==>
                  && r.session.queryLog == s.queryLog
                  && r.session.messages == s.messages + [UserMessage(s, ids), ApologyMessage(ids)])
            && (|r.calls| == 2 <==> api(r.calls[0]).Answered? && HasRows(Lookup(api(r.calls[0]).body, "result")))
  {
  }

  /** A chart request on the SQL path is a single user message holding the
      rows as text, whatever the history. */
  lemma ChartRequestStandsAlone(c: Codec, s: Session, ids: TurnIds, api: ApiCall -> FetchOutcome)
    requires Submittable(s) && s.upload.None?
    requires |Submit(c, s, ids, api).calls| == 2
    ensures var call := Submit(c, s, ids, api).calls[1];
            && call.endpoint == VisualizeEndpoint
            && call.body.JObj? && Prop(call.body, "messages").Some? && Prop(call.body, "messages").value.JArr?
            && |Prop(call.body, "messages").value.items| == 1
            && Prop(Prop(call.body, "messages").value.items[0], "role") == Some(JStr("user"))
            && var content := Prop(Prop(call.body, "messages").value.items[0], "content");
               content.Some? && content.value.JStr? && StartsWith(content.value.s, VisualizePrefix)
  {
    var history := ApiMessages(c, s.messages + [UserMessage(s, ids)]);
    assert history.Normal?;
    var p := QueryPath(c, s, ids, history.value, api);
    assert Submit(c, s, ids, api).calls == p.calls;
    var request := VisualizeRequest(c, Lookup(api(p.calls[0]).body, "result").value);
    ChartBody(request, s.model, s.region);
    assert request[..|VisualizePrefix|] == VisualizePrefix;
  }

  /** The chart request's body: one user message whose text is `request`. */
  lemma ChartBody(request: string, model: string, region: string)
    ensures var body := Body([ApiMessage(User, JStr(request))], model, region);
            && body.JObj? && Prop(body, "messages") == Some(JArr([ApiMessage(User, JStr(request))]))
            && Prop(ApiMessage(User, JStr(request)), "role") == Some(JStr("user"))
            && Prop(ApiMessage(User, JStr(request)), "content") == Some(JStr(request))
  {
  }

  /** The history a request posts. */
  function Posted(call: ApiCall): seq<Json> {
    if call.body.JObj? && |call.body.fields| > 0 && call.body.fields[0].val.JArr? then call.body.fields[0].val.items else []
  }

  /** Every request of a turn's body posts a non-empty history with the
      session's model and region. */
  lemma BodyCalls(c: Codec, s: Session, ids: TurnIds, api: ApiCall -> FetchOutcome)
    ensures var calls := TurnBody(c, s, ids, api).calls;
            forall k :: 0 <= k < |calls| ==>
              |Posted(calls[k])| > 0 && calls[k].body == Body(Posted(calls[k]), s.model, s.region)
  {
    var history := ApiMessages(c, s.messages + [UserMessage(s, ids)]);
    if history.Normal? && s.upload.None? {
      var p := QueryPath(c, s, ids, history.value, api);
      if |p.calls| == 2 {
        var request := VisualizeRequest(c, Lookup(api(p.calls[0]).body, "result").value);
        assert Posted(p.calls[1]) == [ApiMessage(User, JStr(request))];
      }
    }
  }

  /** Every request of a turn posts a non-empty history with the session's
      model and region. */
  lemma TurnCalls(c: Codec, s: Session, ids: TurnIds, api: ApiCall -> FetchOutcome)
    ensures var calls := Submit(c, s, ids, api).calls;
            forall k :: 0 <= k < |calls| ==>
              |Posted(calls[k])| > 0 && calls[k].body == Body(Posted(calls[k]), s.model, s.region)
  {
    BodyCalls(c, s, ids, api);
  }

  // ---------------------------------------------------------------------------
  // Tool results answer earlier tool calls
  // ---------------------------------------------------------------------------

  /** Some message before position `n` holds a tool call with the given id. */
  predicate ToolUseBefore(msgs: seq<Message>, n: int, id: string) {
    exists i, k :: 0 <= i < n && i < |msgs| && 0 <= k < |msgs[i].content|
                   && msgs[i].content[k].ToolUse? && msgs[i].content[k].toolUseId == id
  }

  /** Every tool result answers a tool call made in an earlier message. */
  predicate ResultsAnswered(msgs: seq<Message>) {
    forall i, k :: 0 <= i < |msgs| && 0 <= k < |msgs[i].content| && msgs[i].content[k].ToolResult? ==>
      ToolUseBefore(msgs, i, msgs[i].content[k].toolUseId)
  }

  predicate NoResults(m: Message) {
    forall k :: 0 <= k < |m.content| ==> !m.content[k].ToolResult?
  }

  /** Appending a message without tool results keeps the history answered. */
  lemma {:induction false} SnocPlain(msgs: seq<Message>, m: Message)
    requires ResultsAnswered(msgs) && NoResults(m)
    ensures ResultsAnswered(msgs + [m])
  {
    var all := msgs + [m];
    forall i, k | 0 <= i < |all| && 0 <= k < |all[i].content| && all[i].content[k].ToolResult?
      ensures ToolUseBefore(all, i, all[i].content[k].toolUseId)
    {
      assert i < |msgs| && all[i] == msgs[i];
      var j, l :| 0 <= j < i && j < |msgs| && 0 <= l < |msgs[j].content|
                  && msgs[j].content[l].ToolUse? && msgs[j].content[l].toolUseId == msgs[i].content[k].toolUseId;
      assert all[j] == msgs[j];
    }
  }

  /** Appending a tool result whose call was made earlier keeps the history
      answered. */
  lemma {:induction false} SnocAnswer(msgs: seq<Message>, m: Message, id: string)
    requires ResultsAnswered(msgs) && ToolUseBefore(msgs, |msgs|, id)
    requires forall k :: 0 <= k < |m.content| && m.content[k].ToolResult? ==> m.content[k].toolUseId == id
    ensures ResultsAnswered(msgs + [m])
  {
    var all := msgs + [m];
    forall i, k | 0 <= i < |all| && 0 <= k < |all[i].content| && all[i].content[k].ToolResult?
      ensures ToolUseBefore(all, i, all[i].content[k].toolUseId)
    {
      var target := if i < |msgs| then msgs[i].content[k].toolUseId else id;
      if i < |msgs| {
        assert all[i] == msgs[i];
      }
      var j, l :| 0 <= j < i && j < |msgs| && 0 <= l < |msgs[j].content|
                  && msgs[j].content[l].ToolUse? && msgs[j].content[l].toolUseId == target;
      assert all[j] == msgs[j];
    }
  }

  /** Messages to append of which only the second may hold a tool result,
      answering the tool call `id` the first one makes. */
  predicate AnswersInPlace(added: seq<Message>, id: string) {
    && |added| <= 3
    && (|added| >= 1 ==> NoResults(added[0]))
    && (|added| >= 2 ==> |added[0].content| == 2 && added[0].content[1].ToolUse?
                         && added[0].content[1].toolUseId == id)
    && (|added| >= 2 ==> forall k :: 0 <= k < |added[1].content| && added[1].content[k].ToolResult? ==>
                           added[1].content[k].toolUseId == id)
    && (|added| >= 3 ==> NoResults(added[2]))
  }

  /** What a turn's body adds, as far as tool results go: only the second
      message may hold one, answering the tool call the first message makes. */
  lemma AddedShape(c: Codec, s: Session, ids: TurnIds, api: ApiCall -> FetchOutcome)
    ensures AnswersInPlace(TurnBody(c, s, ids, api).added, ids.toolUse)
  {
  }

  /** Appending such messages keeps the history answered. */
  lemma {:induction false} AppendAnswersInPlace(msgs: seq<Message>, added: seq<Message>, id: string)
    requires ResultsAnswered(msgs) && AnswersInPlace(added, id)
    ensures ResultsAnswered(msgs + added)
  {
    if |added| == 0 {
      assert msgs + added == msgs;
    } else {
      SnocPlain(msgs, added[0]);
      var m1 := msgs + [added[0]];
      if |added| == 1 {
        assert msgs + added == m1;
      } else {
        assert m1[|msgs|] == added[0] && added[0].content[1].toolUseId == id;
        assert ToolUseBefore(m1, |m1|, id);
        SnocAnswer(m1, added[1], id);
        var m2 := m1 + [added[1]];
        if |added| == 2 {
          assert msgs + added == m2;
        } else {
          SnocPlain(m2, added[2]);
          assert msgs + added == m2 + [added[2]];
        }
      }
    }
  }

  /** A turn keeps every tool result answered by an earlier tool call: the
      tool result it adds follows the message holding the call it answers. */
  lemma {:induction false} SubmitKeepsResultsAnswered(c: Codec, s: Session, ids: TurnIds, api: ApiCall -> FetchOutcome)
    requires ResultsAnswered(s.messages)
    ensures ResultsAnswered(Submit(c, s, ids, api).session.messages)
  {
    if Submittable(s) {
      var p := TurnBody(c, s, ids, api);
      AddedShape(c, s, ids, api);
      SnocPlain(s.messages, UserMessage(s, ids));
      AppendAnswersInPlace(s.messages + [UserMessage(s, ids)], p.added, ids.toolUse);
      var m3 := s.messages + [UserMessage(s, ids)] + p.added;
      if p.failed {
        SnocPlain(m3, ApologyMessage(ids));
        assert Submit(c, s, ids, api).session.messages == m3 + [ApologyMessage(ids)];
      } else {
        assert Submit(c, s, ids, api).session.messages == m3;
      }
    }
  }
}

=== FILE: py_backend.dfy ===
/** The Python twin of the SQL endpoint (`POST /analyze` in the FastAPI
    backend): validation of the already-parsed request, the scan over the
    gateway's content blocks — all text concatenated, the last qualifying tool
    block winning — the query-execution guard, the `stopReason` default and the
    mapping of exceptions to HTTP statuses. Python's `in` and `[]` on the
    blocks keep their own semantics (membership in a list, substring in a
    string, a TypeError or KeyError otherwise). */
module PyBackend {
  import opened Wrappers
  import opened Js
  import opened Gateway
  import Analyze

  const EndTurn := "end_turn"
  const SqlToolName := "generate_sql_query"

  /** A request message as the request model validates it: a role string and
      content that is a string or a list of objects. */
  datatype PyMessage = PyMessage(role: string, content: Json)

  datatype PyRequest = PyRequest(messages: seq<PyMessage>, model: string, region: string)

  /** What executing a query does: rows; a `sqlite3.Error`, which the handler
      swallows; or any other failure (connecting, or a statement without a
      result set, whose missing `cursor.description` raises a TypeError). */
  datatype SqlOutcome = Rows(rows: seq<Json>) | SqlError | OtherError

  /** The tool fields a qualifying block sets together. */
  datatype ToolPick = ToolPick(query: string, explanation: Json, toolUseId: Json)

  /** The scan's accumulators: the text so far and the latest qualifying tool. */
  datatype ScanState = ScanState(text: string, pick: Option<ToolPick>)

  /** The validated response model. */
  datatype PyReply = PyReply(
    content: string,
    query: Option<string>,
    explanation: Option<string>,
    result: Option<seq<Json>>,
    toolUseId: Option<string>,
    toolName: Option<string>,
    stopReason: string)

  /** The HTTP reply together with the queries handed to the database. */
  datatype PyOutcome = PyOutcome(reply: Reply<PyReply>, executed: seq<string>)

  // ---------------------------------------------------------------------------
  // Python operators on the content blocks
  // ---------------------------------------------------------------------------

  /** `t` occurs in `s` as a contiguous piece. */
  predicate IsSubstring(t: string, s: string)
    decreases |s|
  {
    StartsWith(s, t) || (|s| > 0 && IsSubstring(t, s[1..]))
  }

  /** `key in v`: a dict tests its keys, a list its elements, a string its
      substrings; anything else raises a TypeError. */
  function PyIn(key: string, v: Json): (r: Completion<bool>)
    ensures r.Normal? <==> v.JObj? || v.JArr? || v.JStr?
    ensures v.JObj? ==> (r == Normal(true) <==> key in Keys(v.fields))
  {
    match v
    case JObj(fields) => Normal(key in Keys(fields))
    case JArr(items) => Normal(JStr(key) in items)
    case JStr(s) => Normal(IsSubstring(key, s))
    case _ => Throws
  }

  /** `v[key]`: a dict's value; a KeyError for a missing key and a TypeError
      on anything but a dict. */
  function PyIndex(v: Json, key: string): (r: Completion<Json>)
    ensures r.Normal? <==> v.JObj? && key in Keys(v.fields)
    ensures r.Normal? ==> Lookup(v.fields, key) == Some(r.value)
  {
    if v.JObj? && key in Keys(v.fields) then Normal(Lookup(v.fields, key).value) else Throws
  }

  /** `d.get(key, default)` on a dict. */
  function PyGet(fields: seq<Field>, key: string, default: Json): Json {
    Lookup(fields, key).GetOr(default)
  }

  // ---------------------------------------------------------------------------
  // The content scan
  // ---------------------------------------------------------------------------

  /** What one block adds to the text: its `text` when it has one, which must
      be a string for `+=` to succeed. */
  function TextOf(item: Json): (r: Completion<string>)
    ensures PyIn("text", item).Throws? ==> r.Throws?
    ensures PyIn("text", item) == Normal(false) ==> r == Normal("")
    ensures r.Normal? && r.value != "" ==> item.JObj? && Lookup(item.fields, "text") == Some(JStr(r.value))
  {
    match PyIn("text", item)
    case Throws => Throws
    case Normal(false) => Normal("")
    case Normal(true) =>
      match PyIndex(item, "text")
      case Throws => Throws
      case Normal(t) => if t.JStr? then Normal(t.s) else Throws
  }

  /** The tool a block qualifies with: a `toolUse` whose input (decoded when it
      is a JSON string) has a string `query`, together with its explanation
      (default "") and `toolUseId`. A missing key, a non-dict where a dict is
      indexed and an undecodable input all raise. */
  function ToolOf(c: Codec, item: Json): (r: Completion<Option<ToolPick>>)
    ensures PyIn("toolUse", item).Throws? ==> r.Throws?
    ensures PyIn("toolUse", item) == Normal(false) ==> r == Normal(None)
    ensures r.Normal? && r.value.Some? ==>
      && item.JObj?
      && Lookup(item.fields, "toolUse").Some?
      && Lookup(item.fields, "toolUse").value.JObj?
      && Lookup(Lookup(item.fields, "toolUse").value.fields, "toolUseId") == Some(r.value.value.toolUseId)
  {
    match PyIn("toolUse", item)
    case Throws => Throws
    case Normal(false) => Normal(None)
    case Normal(true) =>
      match PyIndex(item, "toolUse")
      case Throws => Throws
      case Normal(toolUse) =>
        match PyIndex(toolUse, "input")
        case Throws => Throws
        case Normal(input) =>
          var decoded := if input.JStr? then c.parse(input.s) else Some(input);
          if decoded.None? then Throws
          else
            var toolData := decoded.value;
            match PyIn("query", toolData)
            case Throws => Throws
            case Normal(false) => Normal(None)
            case Normal(true) =>
              match PyIndex(toolData, "query")
              case Throws => Throws
              case Normal(q) =>
                if !q.JStr? then Normal(None)
                else
                  match PyIndex(toolUse, "toolUseId")
                  case Throws => Throws
                  case Normal(id) => Normal(Some(ToolPick(q.s, PyGet(toolData.fields, "explanation", JStr("")), id)))
  }

  /** One iteration of the loop over the content blocks. */
  function ScanItem(c: Codec, st: ScanState, item: Json): Completion<ScanState> {
    match TextOf(item)
    case Throws => Throws
    case Normal(t) =>
      match ToolOf(c, item)
      case Throws => Throws
      case Normal(p) => Normal(ScanState(st.text + t, if p.Some? then p else st.pick))
  }

  /** The loop as a left fold over the blocks. */
  function Scan(c: Codec, items: seq<Json>): Completion<ScanState>
    decreases |items|
  {
    if |items| == 0 then Normal(ScanState("", None))
    else
      match Scan(c, items[..|items| - 1])
      case Throws => Throws
      case Normal(st) => ScanItem(c, st, items[|items| - 1])
  }

  /** The `for item in content` loop. */
  method ScanContent(c: Codec, items: seq<Json>) returns (r: Completion<ScanState>)
    ensures r == Scan(c, items)
    ensures r.Normal? <==> forall i :: 0 <= i < |items| ==> Scannable(c, items[i])
    ensures r.Normal? ==> r.value.text == AllText(items)
    ensures r.Normal? ==> r.value.pick == LastTool(c, items)
  {
    ScanNormal(c, items);
    ScanText(c, items);
    ScanPicksLastTool(c, items);
    var text := "";
    var pick: Option<ToolPick> := None;
    var i := 0;
    while i < |items|
      invariant 0 <= i <= |items|
      invariant Scan(c, items[..i]) == Normal(ScanState(text, pick))
    {
      assert items[..i + 1][..i] == items[..i];
      assert Scan(c, items[..i + 1]) == ScanItem(c, ScanState(text, pick), items[i]);
      var t := TextOf(items[i]);
      if t.Throws? {
        ScanThrowsExtends(c, items, i + 1);
        return Throws;
      }
      text := text + t.value;
      var p := ToolOf(c, items[i]);
      if p.Throws? {
        ScanThrowsExtends(c, items, i + 1);
        return Throws;
      }
      if p.value.Some? {
        pick := p.value;
      }
      i := i + 1;
    }
    assert items[..i] == items;
    r := Normal(ScanState(text, pick));
  }

  /** Once a prefix of the blocks raises, the whole scan raises. */
  lemma {:induction false} ScanThrowsExtends(c: Codec, items: seq<Json>, n: nat)
    requires n <= |items|
    requires Scan(c, items[..n]).Throws?
    ensures Scan(c, items).Throws?
    decreases |items| - n
  {
    if n < |items| {
      assert items[..n + 1][..n] == items[..n];
      ScanThrowsExtends(c, items, n + 1);
    } else {
      assert items[..n] == items;
    }
  }

  /** A block that does not raise in either check. */
  predicate Scannable(c: Codec, item: Json) {
    TextOf(item).Normal? && ToolOf(c, item).Normal?
  }

  /** The text of every block, in order, independent of the loop. */
  function AllText(items: seq<Json>): string {
    if |items| == 0 then ""
    else (if TextOf(items[0]).Normal? then TextOf(items[0]).value else "") + AllText(items[1..])
  }

  lemma {:induction false} AllTextSnoc(items: seq<Json>, x: Json)
    ensures AllText(items + [x]) == AllText(items) + (if TextOf(x).Normal? then TextOf(x).value else "")
  {
    if |items| > 0 {
      assert (items + [x])[1..] == items[1..] + [x];
      AllTextSnoc(items[1..], x);
    } else {
      assert items + [x] == [x];
    }
  }

  /** The scan succeeds exactly when no block raises. */
  lemma {:induction false} ScanNormal(c: Codec, items: seq<Json>)
    ensures Scan(c, items).Normal? <==> forall i :: 0 <= i < |items| ==> Scannable(c, items[i])
    decreases |items|
  {
    if |items| > 0 {
      var init := items[..|items| - 1];
      assert items == init + [items[|items| - 1]];
      ScanNormal(c, init);
      if Scan(c, init).Throws? {
        var i :| 0 <= i < |init| && !Scannable(c, init[i]);
        assert !Scannable(c, items[i]);
      }
    }
  }

  /** A successful scan's text is the in-order concatenation of every block's
      text. */
  lemma {:induction false} ScanText(c: Codec, items: seq<Json>)
    ensures Scan(c, items).Normal? ==> Scan(c, items).value.text == AllText(items)
    decreases |items|
  {
    if |items| > 0 {
      var init := items[..|items| - 1];
      var last := items[|items| - 1];
      assert items == init + [last];
      ScanText(c, init);
      AllTextSnoc(init, last);
    }
  }

  /** One more block: the scan succeeds when the shorter one did and the
      block passes, and the block's tool, if any, replaces the pick. */
  lemma ScanPickStep(c: Codec, init: seq<Json>, last: Json)
    ensures Scan(c, init + [last]).Normal? ==>
      && Scan(c, init).Normal? && ToolOf(c, last).Normal?
      && Scan(c, init + [last]).value.pick
         == (if ToolOf(c, last).value.Some? then ToolOf(c, last).value else Scan(c, init).value.pick)
  {
    assert (init + [last])[..|init|] == init;
  }

  /** The last pick of `f` over the blocks that yields one, independent of
      the loop. */
  function LastPick<T>(f: Json -> Completion<Option<T>>, items: seq<Json>): Option<T>
    decreases |items|
  {
    if |items| == 0 then None
    else
      var t := f(items[|items| - 1]);
      if t.Normal? && t.value.Some? then t.value else LastPick(f, items[..|items| - 1])
  }

  /** The tool of the last block that yields one. */
  function LastTool(c: Codec, items: seq<Json>): Option<ToolPick> {
    LastPick((item: Json) => ToolOf(c, item), items)
  }

  /** A successful scan picks the tool of the last block that yields one. */
  lemma {:induction false} ScanPicksLastTool(c: Codec, items: seq<Json>)
    ensures Scan(c, items).Normal? ==> Scan(c, items).value.pick == LastTool(c, items)
    decreases |items|
  {
    if |items| > 0 {
      var init := items[..|items| - 1];
      var last := items[|items| - 1];
      assert items == init + [last];
      ScanPickStep(c, init, last);
      ScanPicksLastTool(c, init);
    }
  }

  /** `LastPick` over blocks on which `f` never throws: none when no block
      yields a pick, otherwise the pick of a block after which no block yields
      one. */
  lemma {:induction false} LastPickIsLast<T>(f: Json -> Completion<Option<T>>, items: seq<Json>)
    requires forall i :: 0 <= i < |items| ==> f(items[i]).Normal?
    ensures LastPick(f, items).None? ==> forall i :: 0 <= i < |items| ==> f(items[i]) == Normal(None)
    ensures LastPick(f, items).Some? ==>
      exists i :: 0 <= i < |items| && f(items[i]) == Normal(LastPick(f, items))
        && forall j :: i < j < |items| ==> f(items[j]) == Normal(None)
    decreases |items|
  {
    if |items| > 0 {
      var init := items[..|items| - 1];
      var n := |items| - 1;
      assert forall i :: 0 <= i < |init| ==> init[i] == items[i];
      LastPickIsLast(f, init);
      if f(items[n]).value.Some? {
        assert f(items[n]) == Normal(LastPick(f, items));
      } else if LastPick(f, init).Some? {
        var i :| 0 <= i < |init| && f(init[i]) == Normal(LastPick(f, init))
                 && forall j :: i < j < |init| ==> f(init[j]) == Normal(None);
        assert f(items[i]) == Normal(LastPick(f, items));
      }
    }
  }

  // ---------------------------------------------------------------------------
  // The handler
  // ---------------------------------------------------------------------------

  /** The 400 detail for an invalid request, or None. */
  function Validate(req: PyRequest): (r: Option<string>)
    ensures r == Some(Analyze.MessagesRequired) <==> |req.messages| == 0
    ensures r == Some(Analyze.ModelRequired) <==> |req.messages| > 0 && req.model == ""
    ensures r == Some(Analyze.RegionRequired) <==> |req.messages| > 0 && req.model != "" && req.region == ""
    ensures r.None? <==> |req.messages| > 0 && req.model != "" && req.region != ""
  {
    if |req.messages| == 0 then Some(Analyze.MessagesRequired)
    else if req.model == "" then Some(Analyze.ModelRequired)
    else if req.region == "" then Some(Analyze.RegionRequired)
    else None
  }

  /** `response.get('stopReason', 'end_turn')`, None when it is not a string
      and so fails the response model. */
  function StopReason(stop: Val): (r: Option<string>)
    ensures stop.None? ==> r == Some(EndTurn)
    ensures stop.Some? && stop.value.JStr? ==> r == Some(stop.value.s)
  {
    match stop
    case None => Some(EndTurn)
    case Some(JStr(s)) => Some(s)
    case Some(_) => None
  }

  /** An `Optional[str]` response field: a string, None for null, and a
      validation failure (None here) for anything else. */
  function OptStr(v: Json): Option<Option<string>> {
    match v
    case JStr(s) => Some(Some(s))
    case JNull => Some(None)
    case _ => None
  }

  /** The reply after a successful scan: the query runs only when it is a
      non-empty string; a `sqlite3.Error` leaves the result None, any other
      failure and a reply that fails the response model give 500. */
  function Finish(st: ScanState, stop: Val, run: string -> SqlOutcome): (o: PyOutcome)
    ensures st.pick.None? || st.pick.value.query == "" ==> o.executed == []
    ensures st.pick.Some? && st.pick.value.query != "" ==> o.executed == [st.pick.value.query]
    ensures o.reply.Ok? ==>
      && o.reply.body.content == st.text
      && (o.reply.body.query.Some? <==> st.pick.Some?)
      && (st.pick.Some? ==> o.reply.body.query == Some(st.pick.value.query))
      && (o.reply.body.toolName.Some? <==> st.pick.Some?)
      && (st.pick.Some? ==> o.reply.body.toolName == Some(SqlToolName))
      && (stop.None? ==> o.reply.body.stopReason == EndTurn)
      && (stop.Some? && stop.value.JStr? ==> o.reply.body.stopReason == stop.value.s)
      && (st.pick.Some? ==>
            && Some(o.reply.body.explanation) == OptStr(st.pick.value.explanation)
            && Some(o.reply.body.toolUseId) == OptStr(st.pick.value.toolUseId))
      && (st.pick.None? ==> o.reply.body.explanation.None? && o.reply.body.toolUseId.None?)
    ensures o.reply.Fail? ==> o.reply == Fail(500, InternalError)
    ensures o.reply.Fail? <==>
      || (o.executed != [] && run(o.executed[0]).OtherError?)
      || StopReason(stop).None?
      || (st.pick.Some? && (OptStr(st.pick.value.explanation).None? || OptStr(st.pick.value.toolUseId).None?))
    ensures o.reply.Ok? && o.reply.body.result.Some? ==>
      o.executed != [] && run(o.executed[0]) == Rows(o.reply.body.result.value)
    ensures o.executed != [] && run(o.executed[0]).SqlError? && o.reply.Ok? ==> o.reply.body.result.None?
    ensures o.executed != [] && run(o.executed[0]).OtherError? ==> o.reply == Fail(500, InternalError)
  {
    var executed := if st.pick.Some? && st.pick.value.query != "" then [st.pick.value.query] else [];
    var outcome := if executed != [] then run(executed[0]) else SqlError;
    if outcome.OtherError? then PyOutcome(Fail(500, InternalError), executed)
    else
      var rows := if outcome.Rows? then Some(outcome.rows) else None;
      var stopReason := StopReason(stop);
      var explanation := if st.pick.Some? then OptStr(st.pick.value.explanation) else Some(None);
      var toolUseId := if st.pick.Some? then OptStr(st.pick.value.toolUseId) else Some(None);
      if stopReason.None? || explanation.None? || toolUseId.None? then PyOutcome(Fail(500, InternalError), executed)
      else
        PyOutcome(Ok(PyReply(
          st.text,
          if st.pick.Some? then Some(st.pick.value.query) else None,
          explanation.value,
          rows,
          toolUseId.value,
          if st.pick.Some? then Some(SqlToolName) else None,
          stopReason.value)), executed)
  }

  /** `analyze`: `setupOk` says whether reading the schema file and sampling
      the table succeeded; every gateway failure is re-raised as a 500 carrying
      its text, and only `HTTPException`s keep their status. */
  function Post(c: Codec, req: PyRequest, setupOk: bool, gateway: seq<PyMessage> -> Converse,
                run: string -> SqlOutcome): (r: PyOutcome)
    ensures Validate(req).Some? ==> r == PyOutcome(Fail(400, Validate(req).value), [])
    ensures r.reply.Fail? && r.reply.status != 500 ==> r.reply.status == 400 && Validate(req).Some?
    ensures |r.executed| <= 1
    ensures r.reply.Ok? ==>
      && Validate(req).None? && setupOk && gateway(req.messages).Replied?
      && gateway(req.messages).content.Some? && Scan(c, gateway(req.messages).content.value).Normal?
    ensures Validate(req).None? && setupOk && gateway(req.messages).Replied? && gateway(req.messages).content.None? ==>
      r == PyOutcome(Fail(500, InvalidResponse), [])
    ensures Validate(req).None? && setupOk && (gateway(req.messages).ServiceFault? || gateway(req.messages).Fault?) ==>
      r == PyOutcome(Fail(500, gateway(req.messages).message), [])
    ensures Validate(req).None? && !setupOk ==> r == PyOutcome(Fail(500, InternalError), [])
    ensures Validate(req).None? && setupOk && gateway(req.messages).Replied? && gateway(req.messages).content.Some? ==>
      var scan := Scan(c, gateway(req.messages).content.value);
      && (scan.Throws? ==> r == PyOutcome(Fail(500, InternalError), []))
      && (scan.Normal? ==> r == Finish(scan.value, gateway(req.messages).stopReason, run))
  {
    match Validate(req)
    case Some(e) => PyOutcome(Fail(400, e), [])
    case None =>
      if !setupOk then PyOutcome(Fail(500, InternalError), [])
      else
        match gateway(req.messages)
        case ServiceFault(_, m) => PyOutcome(Fail(500, m), [])
        case Fault(m) => PyOutcome(Fail(500, m), [])
        case Replied(content, stop) =>
          if content.None? then PyOutcome(Fail(500, InvalidResponse), [])
          else
            match Scan(c, content.value)
            case Throws => PyOutcome(Fail(500, InternalError), [])
            case Normal(st) => Finish(st, stop, run)
  }

  /** A 200 reply in terms of the content blocks: the concatenation of every
      block's text, and the query of the last block that qualified (none when
      no block did). */
  lemma PostFields(c: Codec, req: PyRequest, setupOk: bool, gateway: seq<PyMessage> -> Converse,
                   run: string -> SqlOutcome)
    requires Post(c, req, setupOk, gateway, run).reply.Ok?
    ensures var content := gateway(req.messages).content.value;
            var body := Post(c, req, setupOk, gateway, run).reply.body;
            && body.content == AllText(content)
            && (body.query.None? ==> forall i :: 0 <= i < |content| ==> ToolOf(c, content[i]) == Normal(None))
            && (body.query.Some? ==>
                  exists i :: 0 <= i < |content| && ToolOf(c, content[i]).Normal? && ToolOf(c, content[i]).value.Some?
                    && ToolOf(c, content[i]).value.value.query == body.query.value
                    && forall j :: i < j < |content| ==> ToolOf(c, content[j]) == Normal(None))
  {
    ScanText(c, gateway(req.messages).content.value);
    ScanPicksLastTool(c, gateway(req.messages).content.value);
    ScanNormal(c, gateway(req.messages).content.value);
    LastPickIsLast((item: Json) => ToolOf(c, item), gateway(req.messages).content.value);
  }
}

=== FILE: router.dfy ===
/** The routing endpoint (`POST /api/router`): request validation, the history
    cleaning that drops every message carrying a tool call or tool result and
    turns base64 image bytes into buffers, and the pass/fail rule on the
    `generate_answer` tool block. Every failure is the same generic 500. */
module Router {
  import opened Wrappers
  import opened Js
  import opened Gateway

  const MessagesRequired := "Messages array is required"
  const ModelAndRegionRequired := "Model and region are required"
  const GenericError := "An error occurred while processing the request"

  /** The fields the handler destructures from the request body. */
  datatype Request = Request(messages: Val, model: Val, region: Val)

  predicate IsArray(v: Val) {
    v.Some? && v.value.JArr?
  }

  /** The 400 message for an invalid request, or None when it may proceed. */
  function Validate(req: Request): (r: Option<string>)
    ensures r == Some(MessagesRequired) <==> !IsArray(req.messages)
    ensures r == Some(ModelAndRegionRequired) <==> IsArray(req.messages) && (!Truthy(req.model) || !Truthy(req.region))
    ensures r.None? <==> IsArray(req.messages) && Truthy(req.model) && Truthy(req.region)
  {
    if !Truthy(req.messages) || !req.messages.value.JArr? then Some(MessagesRequired)
    else if !Truthy(req.model) || !Truthy(req.region) then Some(ModelAndRegionRequired)
    else None
  }

  // ---------------------------------------------------------------------------
  // The filter
  // ---------------------------------------------------------------------------

  /** `'toolUse' in item || 'toolResult' in item`; throws on a primitive item. */
  function IsToolItem(item: Json): (r: Completion<bool>)
    ensures r.Throws? <==> !(item.JObj? || item.JArr? || item.JBytes?)
    ensures item.JObj? ==> (r == Normal(true) <==> "toolUse" in Keys(item.fields) || "toolResult" in Keys(item.fields))
  {
    match In("toolUse", item)
    case Throws => Throws
    case Normal(true) => Normal(true)
    case Normal(false) => In("toolResult", item)
  }

  /** `items.some(IsToolItem)`: true at the first tool item, throwing at a
      primitive item met before one. */
  function AnyToolItem(items: seq<Json>): (r: Completion<bool>)
    ensures r == Normal(true) ==> exists i :: 0 <= i < |items| && IsToolItem(items[i]) == Normal(true)
    ensures r == Normal(false) <==> forall i :: 0 <= i < |items| ==> IsToolItem(items[i]) == Normal(false)
    ensures r.Throws? ==> exists i :: 0 <= i < |items| && IsToolItem(items[i]).Throws?
  {
    if |items| == 0 then Normal(false)
    else
      assert forall i :: 1 <= i < |items| ==> items[i] == items[1..][i - 1];
      match IsToolItem(items[0])
      case Throws => Throws
      case Normal(true) => Normal(true)
      case Normal(false) => AnyToolItem(items[1..])
  }

  /** The filter's predicate: a message is kept unless its content is an array
      holding a tool item; reading the content of null throws. */
  function Keep(msg: Json): (r: Completion<bool>)
    ensures msg.JNull? ==> r.Throws?
    ensures !msg.JNull? && !IsArray(Prop(msg, "content")) ==> r == Normal(true)
    ensures !msg.JNull? && IsArray(Prop(msg, "content")) ==>
      (r == Normal(true) <==> AnyToolItem(Prop(msg, "content").value.items) == Normal(false))
  {
    if msg.JNull? then Throws
    else
      var content := Prop(msg, "content");
      if !IsArray(content) then Normal(true)
      else
        match AnyToolItem(content.value.items)
        case Throws => Throws
        case Normal(b) => Normal(!b)
  }

  /** `messages.filter(Keep)`: the predicate runs on every message, and its
      first throw propagates. */
  function FilterMessages(msgs: seq<Json>): (r: Completion<seq<Json>>)
    ensures r.Normal? ==> |r.value| <= |msgs|
    ensures r.Normal? ==> forall x :: x in r.value ==> Keep(x) == Normal(true)
    ensures r.Normal? ==> forall i :: 0 <= i < |msgs| && Keep(msgs[i]) == Normal(true) ==> msgs[i] in r.value
    ensures r.Throws? <==> exists i :: 0 <= i < |msgs| && Keep(msgs[i]).Throws?
    ensures r.Normal? ==> forall x :: multiset(r.value)[x] == if Keep(x) == Normal(true) then multiset(msgs)[x] else 0
  {
    if |msgs| == 0 then Normal([])
    else
      assert forall i :: 1 <= i < |msgs| ==> msgs[i] == msgs[1..][i - 1];
      assert msgs == [msgs[0]] + msgs[1..];
      match Keep(msgs[0])
      case Throws => Throws
      case Normal(keep) =>
        match FilterMessages(msgs[1..])
        case Throws => Throws
        case Normal(rest) => Normal(if keep then [msgs[0]] + rest else rest)
  }

  /** `a` is `b` with some elements removed, the rest in their order. */
  predicate IsSubsequence<T(==)>(a: seq<T>, b: seq<T>)
    decreases |b|
  {
    if |a| == 0 then true
    else if |b| == 0 then false
    else (a[0] == b[0] && IsSubsequence(a[1..], b[1..])) || IsSubsequence(a, b[1..])
  }

  lemma {:induction false} SubsequenceOfSelf<T>(a: seq<T>)
    ensures IsSubsequence(a, a)
    decreases |a|
  {
    if |a| > 0 {
      SubsequenceOfSelf(a[1..]);
    }
  }

  /** The filtered history is an order-preserving subsequence of the input. */
  lemma {:induction false} FilterIsSubsequence(msgs: seq<Json>)
    requires FilterMessages(msgs).Normal?
    ensures IsSubsequence(FilterMessages(msgs).value, msgs)
    decreases |msgs|
  {
    if |msgs| > 0 {
      FilterIsSubsequence(msgs[1..]);
      var rest := FilterMessages(msgs[1..]).value;
      if Keep(msgs[0]) == Normal(true) {
        assert ([msgs[0]] + rest)[1..] == rest;
      } else {
        if |rest| > 0 {
          assert IsSubsequence(rest, msgs[1..]);
        }
      }
    }
  }

  /** With no tool items anywhere, the filter keeps the history as it is. */
  lemma {:induction false} FilterKeepsPlainHistory(msgs: seq<Json>)
    requires forall i :: 0 <= i < |msgs| ==> Keep(msgs[i]) == Normal(true)
    ensures FilterMessages(msgs) == Normal(msgs)
    decreases |msgs|
  {
    if |msgs| > 0 {
      FilterKeepsPlainHistory(msgs[1..]);
      assert [msgs[0]] + msgs[1..] == msgs;
    }
  }

  // ---------------------------------------------------------------------------
  // Image bytes
  // ---------------------------------------------------------------------------

  /** `item.image && item.image.source && item.image.source.bytes`. */
  predicate HasImageBytes(item: Json) {
    var image := Prop(item, "image");
    Truthy(image) &&
    var source := Prop(image.value, "source");
    Truthy(source) && Truthy(Prop(source.value, "bytes"))
  }

  /** One content item: an image whose `source.bytes` holds base64 text gets
      those bytes decoded into a buffer, keeping every other field of the
      item, the image and the source; anything else is returned as it is.
      Bytes that are not a string throw. */
  function RewriteItem(c: Codec, item: Json): (r: Completion<Json>)
    ensures item.JNull? ==> r.Throws?
    ensures !item.JNull? && !HasImageBytes(item) ==> r == Normal(item)
  {
    if item.JNull? then Throws
    else if !HasImageBytes(item) then Normal(item)
    else
      var image := Prop(item, "image").value;
      var source := Prop(image, "source").value;
      var bytes := Prop(source, "bytes").value;
      if !bytes.JStr? then Throws
      else
        var newSource := JObj(Set(OwnEntries(source), "bytes", JBytes(c.base64Bytes(bytes.s))));
        var newImage := JObj(Set(OwnEntries(image), "source", newSource));
        Normal(JObj(Set(OwnEntries(item), "image", newImage)))
  }

  /** What the rewrite does to an image item: the item keeps all its other
      fields, its image keeps all fields but `source`, and the source keeps all
      fields but `bytes`, which become the decoded buffer. */
  lemma RewriteItemSpec(c: Codec, item: Json)
    requires HasImageBytes(item) && RewriteItem(c, item).Normal?
    ensures var image := Prop(item, "image").value;
            var source := Prop(image, "source").value;
            var r := RewriteItem(c, item).value;
            && Prop(source, "bytes").value.JStr?
            && r.JObj?
            && (forall k :: k != "image" ==> Lookup(r.fields, k) == Lookup(OwnEntries(item), k))
            && Lookup(r.fields, "image").Some? && Lookup(r.fields, "image").value.JObj?
            && (forall k :: k != "source" ==> Lookup(Lookup(r.fields, "image").value.fields, k) == Lookup(OwnEntries(image), k))
            && Lookup(Lookup(r.fields, "image").value.fields, "source").Some?
            && Lookup(Lookup(r.fields, "image").value.fields, "source").value.JObj?
            && (forall k :: k != "bytes" ==>
                  Lookup(Lookup(Lookup(r.fields, "image").value.fields, "source").value.fields, k) == Lookup(OwnEntries(source), k))
            && Lookup(Lookup(Lookup(r.fields, "image").value.fields, "source").value.fields, "bytes")
               == Some(JBytes(c.base64Bytes(Prop(source, "bytes").value.s)))
  {
  }

  /** The content items, rewritten one by one. */
  function RewriteItems(c: Codec, items: seq<Json>): (r: Completion<seq<Json>>)
    ensures r.Normal? ==> |r.value| == |items|
    ensures r.Normal? ==> forall i :: 0 <= i < |items| ==> RewriteItem(c, items[i]) == Normal(r.value[i])
    ensures r.Throws? <==> exists i :: 0 <= i < |items| && RewriteItem(c, items[i]).Throws?
  {
    MapIndexed((j: nat, item: Json) => RewriteItem(c, item), items)
  }

  /** One kept message: an object whose content is an array gets its items
      rewritten and keeps every other field; any other message is unchanged. */
  function RewriteMessage(c: Codec, msg: Json): (r: Completion<Json>)
    ensures !(msg.JObj? && IsArray(Lookup(msg.fields, "content"))) ==> r == Normal(msg)
    ensures r.Normal? && msg.JObj? && IsArray(Lookup(msg.fields, "content")) ==>
      && r.value.JObj?
      && Keys(r.value.fields) == Keys(msg.fields)
      && (forall k :: k != "content" ==> Lookup(r.value.fields, k) == Lookup(msg.fields, k))
      && Lookup(r.value.fields, "content").Some?
      && Lookup(r.value.fields, "content").value.JArr?
      && RewriteItems(c, Lookup(msg.fields, "content").value.items) == Normal(Lookup(r.value.fields, "content").value.items)
  {
    if msg.JObj? && IsArray(Lookup(msg.fields, "content")) then
      match RewriteItems(c, Lookup(msg.fields, "content").value.items)
      case Throws => Throws
      case Normal(items) => Normal(JObj(Set(msg.fields, "content", JArr(items))))
    else Normal(msg)
  }

  /** The `.map(...)` over the filtered history. */
  function RewriteMessages(c: Codec, msgs: seq<Json>): (r: Completion<seq<Json>>)
    ensures r.Normal? ==> |r.value| == |msgs|
    ensures r.Normal? ==> forall i :: 0 <= i < |msgs| ==> RewriteMessage(c, msgs[i]) == Normal(r.value[i])
    ensures r.Throws? <==> exists i :: 0 <= i < |msgs| && RewriteMessage(c, msgs[i]).Throws?
  {
    MapIndexed((j: nat, msg: Json) => RewriteMessage(c, msg), msgs)
  }

  /** `processedMessages`: the filter, then the rewrite. */
  function Process(c: Codec, msgs: seq<Json>): Completion<seq<Json>> {
    match FilterMessages(msgs)
    case Throws => Throws
    case Normal(kept) => RewriteMessages(c, kept)
  }

  // ---------------------------------------------------------------------------
  // The handler
  // ---------------------------------------------------------------------------

  /** The request log line maps over every processed message's content with
      `.map`, which throws for content that is not an array (a string, or none
      at all); items are objects by then, the filter having tested them. */
  predicate LogLineThrows(processed: seq<Json>) {
    exists i :: 0 <= i < |processed| && !IsArray(Prop(processed[i], "content"))
  }

  /** The reply to a gateway outcome: the first tool block's `toolUse`, sent
      verbatim, when it and its input are truthy; the generic 500 otherwise. */
  function Answer(outcome: Converse): (r: Reply<Json>)
    ensures r.Fail? ==> r == Fail(500, GenericError)
    ensures r.Ok? <==>
      && outcome.Replied? && outcome.content.Some?
      && FindWithKey(outcome.content.value, "toolUse").Normal?
      && FindWithKey(outcome.content.value, "toolUse").value.Some?
      && Truthy(Prop(FindWithKey(outcome.content.value, "toolUse").value.value, "toolUse"))
      && Truthy(Prop(Prop(FindWithKey(outcome.content.value, "toolUse").value.value, "toolUse").value, "input"))
    ensures r.Ok? ==> Some(r.body) == Prop(FindWithKey(outcome.content.value, "toolUse").value.value, "toolUse")
  {
    if !outcome.Replied? || outcome.content.None? then Fail(500, GenericError)
    else
      match FindWithKey(outcome.content.value, "toolUse")
      case Normal(Some(block)) =>
        var toolUse := Prop(block, "toolUse");
        if Truthy(toolUse) && Truthy(Prop(toolUse.value, "input")) then Ok(toolUse.value)
        else Fail(500, GenericError)
      case _ => Fail(500, GenericError)
  }

  /** The fields the handler destructures from the request body; null throws. */
  function RequestOf(body: Json): Completion<Request> {
    if body.JNull? then Throws
    else Normal(Request(Prop(body, "messages"), Prop(body, "model"), Prop(body, "region")))
  }

  /** The history the gateway would receive for a valid request, or None when
      cleaning it throws. */
  function Processed(c: Codec, body: Option<Json>): Option<seq<Json>> {
    if body.None? || RequestOf(body.value).Throws? || Validate(RequestOf(body.value).value).Some? then None
    else
      match Process(c, RequestOf(body.value).value.messages.value.items)
      case Throws => None
      case Normal(p) => Some(p)
  }

  /** `POST /api/router` as written: the request log line runs before the
      gateway call, so a processed message without array content ends the
      request with the generic 500. */
  function Post(c: Codec, body: Option<Json>, gateway: seq<Json> -> Converse): (r: Reply<Json>)
    ensures body.Some? && RequestOf(body.value).Normal? && Validate(RequestOf(body.value).value).Some? ==>
      r == Fail(400, Validate(RequestOf(body.value).value).value)
    ensures Processed(c, body).None? && !(body.Some? && RequestOf(body.value).Normal? && Validate(RequestOf(body.value).value).Some?) ==>
      r == Fail(500, GenericError)
    ensures r.Fail? && r.status != 400 ==> r == Fail(500, GenericError)
    ensures Processed(c, body).Some? && LogLineThrows(Processed(c, body).value) ==> r == Fail(500, GenericError)
    ensures r.Ok? ==>
      && Processed(c, body).Some? && !LogLineThrows(Processed(c, body).value)
      && r == Answer(gateway(Processed(c, body).value))
  {
    match body
    case None => Fail(500, GenericError)
    case Some(b) =>
      match RequestOf(b)
      case Throws => Fail(500, GenericError)
      case Normal(req) =>
        match Validate(req)
        case Some(e) => Fail(400, e)
        case None =>
          match Process(c, req.messages.value.items)
          case Throws => Fail(500, GenericError)
          case Normal(processed) =>
            if LogLineThrows(processed) then Fail(500, GenericError)
            else Answer(gateway(processed))
  }

  /** The route as evidently intended, without the crashing log line: a valid
      request whose history cleans without throwing always reaches the
      gateway, and the reply is decided by the gateway's tool block alone. */
  function PostIntended(c: Codec, body: Option<Json>, gateway: seq<Json> -> Converse): (r: Reply<Json>)
    ensures body.Some? && RequestOf(body.value).Normal? && Validate(RequestOf(body.value).value).Some? ==>
      r == Fail(400, Validate(RequestOf(body.value).value).value)
    ensures Processed(c, body).None? && !(body.Some? && RequestOf(body.value).Normal? && Validate(RequestOf(body.value).value).Some?) ==>
      r == Fail(500, GenericError)
    ensures r.Fail? && r.status != 400 ==> r == Fail(500, GenericError)
    ensures Processed(c, body).Some? ==> r == Answer(gateway(Processed(c, body).value))
  {
    match body
    case None => Fail(500, GenericError)
    case Some(b) =>
      match RequestOf(b)
      case Throws => Fail(500, GenericError)
      case Normal(req) =>
        match Validate(req)
        case Some(e) => Fail(400, e)
        case None =>
          match Process(c, req.messages.value.items)
          case Throws => Fail(500, GenericError)
          case Normal(processed) => Answer(gateway(processed))
  }

  /** The two agree whenever every processed message has array content. */
  lemma IntendedAgreesWithoutStringContent(c: Codec, body: Option<Json>, gateway: seq<Json> -> Converse)
    requires Processed(c, body).Some? ==> !LogLineThrows(Processed(c, body).value)
    ensures Post(c, body, gateway) == PostIntended(c, body, gateway)
  {
  }

  /** A user message with plain string content. */
  function StringMessage(): Json {
    JObj([Field("role", JStr("user")), Field("content", JStr("hi"))])
  }

  /** A one-message history with plain string content. */
  function StringContentBody(): Json {
    JObj([Field("messages", JArr([StringMessage()])), Field("model", JStr("m")), Field("region", JStr("r"))])
  }

  /** The crash: a history whose only message has string content, which the
      filter explicitly keeps, is answered with the generic 500 whatever the
      gateway would say, while the intended route forwards the gateway's tool
      call. */
  lemma StringContentCrashes(c: Codec, gateway: seq<Json> -> Converse)
    ensures Processed(c, Some(StringContentBody())).Some?
    ensures Post(c, Some(StringContentBody()), gateway) == Fail(500, GenericError)
    ensures PostIntended(c, Some(StringContentBody()), gateway) == Answer(gateway(Processed(c, Some(StringContentBody())).value))
  {
    StringContentProcessed(c);
  }

  /** The string-content history passes validation and processing unchanged,
      and its log line throws. */
  lemma StringContentProcessed(c: Codec)
    ensures Processed(c, Some(StringContentBody())) == Some([StringMessage()])
    ensures LogLineThrows([StringMessage()])
  {
    var body := StringContentBody();
    var msg := StringMessage();
    assert Keys(body.fields[1..][1..]) == ["region"];
    assert Keys(body.fields[1..]) == ["model", "region"];
    assert Keys(body.fields) == ["messages", "model", "region"];
    assert Keys(msg.fields[1..]) == ["content"];
    assert Keys(msg.fields) == ["role", "content"];
    assert Prop(msg, "content") == Some(JStr("hi"));
    var req := RequestOf(body).value;
    assert req.messages == Some(JArr([msg]));
    assert Validate(req).None?;
    assert Keep(msg) == Normal(true);
    FilterKeepsPlainHistory([msg]);
    assert RewriteMessage(c, msg) == Normal(msg);
    assert Process(c, [msg]) == Normal([msg]);
  }
}

=== FILE: twins.dfy ===
/** Where the TypeScript SQL endpoint and its Python twin part ways, pinned
    down on concrete gateway replies: an undecodable tool input, two
    qualifying tool blocks, two text blocks, an empty query, and a service
    exception's status. */
module Twins {
  import opened Wrappers
  import opened Js
  import opened Gateway
  import Analyze
  import PyBackend

  /** A content block holding a tool call with the given input. */
  function ToolBlock(input: Json): Json {
    JObj([Field("toolUse", JObj([Field("toolUseId", JStr("t")), Field("input", input)]))])
  }

  /** A tool input holding a query. */
  function QueryInput(q: string): Json {
    JObj([Field("query", JStr(q))])
  }

  function TextBlock(t: string): Json {
    JObj([Field("text", JStr(t))])
  }

  /** A tool input that is a JSON string failing to decode: the TypeScript
      route answers 200 with a null query, the Python one raises (a 500). */
  lemma ParseFailureDiffers(c: Codec, s: string, run: string -> Option<seq<Json>>)
    requires c.parse(s).None?
    ensures Analyze.Respond(c, [ToolBlock(JStr(s))], run).Normal?
    ensures Analyze.Respond(c, [ToolBlock(JStr(s))], run).value.reply.body.query == JNull
    ensures Analyze.Respond(c, [ToolBlock(JStr(s))], run).value.executed == []
    ensures PyBackend.Scan(c, [ToolBlock(JStr(s))]).Throws?
  {
    UndecodableToolBlock(c, s);
    assert [ToolBlock(JStr(s))][..0] == [];
  }

  /** A tool block whose input is a string that fails to decode. */
  lemma UndecodableToolBlock(c: Codec, s: string)
    requires c.parse(s).None?
    ensures In("text", ToolBlock(JStr(s))) == Normal(false)
    ensures In("toolUse", ToolBlock(JStr(s))) == Normal(true)
    ensures ToolInput(c, ToolBlock(JStr(s))).None?
    ensures PyBackend.ToolOf(c, ToolBlock(JStr(s))).Throws?
  {
    var b := ToolBlock(JStr(s));
    assert Keys(b.fields) == ["toolUse"];
    var tu := Lookup(b.fields, "toolUse").value;
    assert Keys(tu.fields[1..]) == ["input"];
    assert Keys(tu.fields) == ["toolUseId", "input"];
    assert PyBackend.PyIndex(tu, "input") == Normal(JStr(s));
  }

  /** A tool input holding only a non-empty string query. */
  predicate QueryOnly(input: Json) {
    && input.JObj? && Keys(input.fields) == ["query"]
    && Lookup(input.fields, "query").value.JStr? && Lookup(input.fields, "query").value.s != ""
  }

  /** Two tool blocks with queries: the TypeScript route keeps the first
      query, the Python one the last. */
  lemma FirstVersusLastTool(c: Codec, first: Json, second: Json, run: string -> Option<seq<Json>>)
    requires QueryOnly(first) && QueryOnly(second)
    ensures Analyze.Respond(c, [ToolBlock(first), ToolBlock(second)], run).Normal?
    ensures Analyze.Respond(c, [ToolBlock(first), ToolBlock(second)], run).value.reply.body.query
         == Lookup(first.fields, "query").value
    ensures PyBackend.Scan(c, [ToolBlock(first), ToolBlock(second)]).Normal?
    ensures PyBackend.Scan(c, [ToolBlock(first), ToolBlock(second)]).value.pick.Some?
    ensures PyBackend.Scan(c, [ToolBlock(first), ToolBlock(second)]).value.pick.value.query
         == Lookup(second.fields, "query").value.s
  {
    TypeScriptKeepsFirstTool(c, first, second, run);
    PythonKeepsLastTool(c, first, second);
  }

  lemma TypeScriptKeepsFirstTool(c: Codec, first: Json, second: Json, run: string -> Option<seq<Json>>)
    requires QueryOnly(first) && QueryOnly(second)
    ensures Analyze.Respond(c, [ToolBlock(first), ToolBlock(second)], run).Normal?
    ensures Analyze.Respond(c, [ToolBlock(first), ToolBlock(second)], run).value.reply.body.query
         == Lookup(first.fields, "query").value
  {
    var items := [ToolBlock(first), ToolBlock(second)];
    ToolBlockFacts(c, first);
    ToolBlockFacts(c, second);
    assert FindWithKey(items, "toolUse") == Normal(Some(items[0]));
    assert FindWithKey(items[1..], "text") == Normal(None);
    assert FindWithKey(items, "text") == Normal(None);
    assert Analyze.ExtractQuery(c, items[0]).value.query == Lookup(first.fields, "query").value.s;
  }

  lemma PythonKeepsLastTool(c: Codec, first: Json, second: Json)
    requires QueryOnly(first) && QueryOnly(second)
    ensures PyBackend.Scan(c, [ToolBlock(first), ToolBlock(second)]).Normal?
    ensures PyBackend.Scan(c, [ToolBlock(first), ToolBlock(second)]).value.pick.Some?
    ensures PyBackend.Scan(c, [ToolBlock(first), ToolBlock(second)]).value.pick.value.query
         == Lookup(second.fields, "query").value.s
  {
    var items := [ToolBlock(first), ToolBlock(second)];
    ToolBlockFacts(c, first);
    ToolBlockFacts(c, second);
    PyBackend.ScanNormal(c, items);
    assert PyBackend.Scannable(c, items[0]) && PyBackend.Scannable(c, items[1]);
    PyBackend.ScanPicksLastTool(c, items);
    assert PyBackend.LastTool(c, items) == PyBackend.ToolOf(c, items[1]).value;
  }

  /** What either twin sees in a tool block whose input is an object with a
      string query. */
  lemma ToolBlockFacts(c: Codec, input: Json)
    requires input.JObj? && Keys(input.fields) == ["query"] && Lookup(input.fields, "query").value.JStr?
    ensures In("text", ToolBlock(input)) == Normal(false)
    ensures In("toolUse", ToolBlock(input)) == Normal(true)
    ensures ToolInput(c, ToolBlock(input)) == Some(input)
    ensures PyBackend.TextOf(ToolBlock(input)) == Normal("")
    ensures PyBackend.ToolOf(c, ToolBlock(input))
         == Normal(Some(PyBackend.ToolPick(Lookup(input.fields, "query").value.s, JStr(""), JStr("t"))))
  {
    var b := ToolBlock(input);
    assert Keys(b.fields) == ["toolUse"];
    var tu := Lookup(b.fields, "toolUse").value;
    assert Keys(tu.fields[1..]) == ["input"];
    assert Keys(tu.fields) == ["toolUseId", "input"];
    assert PyBackend.PyIndex(tu, "input") == Normal(input);
    assert PyBackend.PyIndex(tu, "toolUseId") == Normal(JStr("t"));
    assert "explanation" !in Keys(input.fields);
  }

  /** Two text blocks "a" and "b": the TypeScript route answers with the
      first, the Python one with both joined. */
  lemma FirstTextVersusAllText(c: Codec, run: string -> Option<seq<Json>>)
    ensures Analyze.Respond(c, [TextBlock("a"), TextBlock("b")], run).Normal?
    ensures Analyze.Respond(c, [TextBlock("a"), TextBlock("b")], run).value.reply.body.content == JStr("a")
    ensures PyBackend.Scan(c, [TextBlock("a"), TextBlock("b")]).Normal?
    ensures PyBackend.Scan(c, [TextBlock("a"), TextBlock("b")]).value.text == "ab"
  {
    var items := [TextBlock("a"), TextBlock("b")];
    assert Keys(items[0].fields) == ["text"];
    assert Keys(items[1].fields) == ["text"];
    assert items[..1] == [items[0]];
    assert items[..1][..0] == [];
    assert FindWithKey(items, "text") == Normal(Some(items[0]));
    assert FindWithKey(items[1..], "toolUse") == Normal(None);
    assert FindWithKey(items, "toolUse") == Normal(None);
  }

  /** An empty query string: the TypeScript route extracts nothing, the Python
      one reports the empty query (and its tool name) without running it. */
  lemma EmptyQueryDiffers(c: Codec, stop: Val, run: string -> PyBackend.SqlOutcome)
    ensures Analyze.ExtractQuery(c, ToolBlock(QueryInput(""))).None?
    ensures PyBackend.Scan(c, [ToolBlock(QueryInput(""))]).Normal?
    ensures PyBackend.Finish(PyBackend.Scan(c, [ToolBlock(QueryInput(""))]).value, stop, run).executed == []
    ensures PyBackend.Scan(c, [ToolBlock(QueryInput(""))]).value.pick
         == Some(PyBackend.ToolPick("", JStr(""), JStr("t")))
  {
    ToolBlockFacts(c, QueryInput(""));
    assert [ToolBlock(QueryInput(""))][..0] == [];
  }

  /** A gateway service exception: the TypeScript route answers with the
      exception's HTTP status, the Python one always with 500. */
  lemma ServiceFaultStatusDiffers(c: Codec, body: Json, req: PyBackend.PyRequest,
                                  gateway: seq<Json> -> Converse, pyGateway: seq<PyBackend.PyMessage> -> Converse,
                                  run: string -> Option<seq<Json>>, pyRun: string -> PyBackend.SqlOutcome)
    requires Analyze.RequestOf(body).Normal? && Analyze.Validate(Analyze.RequestOf(body).value).None?
    requires gateway(Analyze.RequestOf(body).value.messages.value.items) == ServiceFault(Some(403), "denied")
    requires PyBackend.Validate(req).None?
    requires pyGateway(req.messages) == ServiceFault(Some(403), "denied")
    ensures Analyze.Post(c, Some(body), true, gateway, run).reply == Fail(403, ServiceErrorText)
    ensures PyBackend.Post(c, req, true, pyGateway, pyRun).reply == Fail(500, "denied")
  {
  }

  // ---------------------------------------------------------------------------
  // Where the twins agree
  // ---------------------------------------------------------------------------

  predicate HasKey(b: Json, key: string) {
    b.JObj? && key in Keys(b.fields)
  }

  /** A content block both twins read without raising: an object whose `text`
      is a string and whose `toolUse` is an object with a `toolUseId` and an
      object `input`. */
  predicate Shaped(b: Json) {
    && b.JObj?
    && (HasKey(b, "text") ==> Lookup(b.fields, "text").value.JStr?)
    && (HasKey(b, "toolUse") ==>
          var t := Lookup(b.fields, "toolUse").value;
          HasKey(t, "toolUseId") && HasKey(t, "input") && Lookup(t.fields, "input").value.JObj?)
  }

  /** At most one block holds `key`. */
  predicate AtMostOne(content: seq<Json>, key: string) {
    forall i, j :: 0 <= i < j < |content| && HasKey(content[i], key) ==> !HasKey(content[j], key)
  }

  /** Python reads a shaped block's text, or "" when it has none. */
  lemma BlockText(b: Json)
    requires Shaped(b)
    ensures PyBackend.TextOf(b) == Normal(if HasKey(b, "text") then Lookup(b.fields, "text").value.s else "")
  {
    if HasKey(b, "text") {
      assert PyBackend.PyIndex(b, "text") == Normal(Lookup(b.fields, "text").value);
    }
  }

  /** The query a block offers each twin: TypeScript extracts it exactly when
      Python picks it and it is not empty, and then it is the same string. */
  lemma BlockAgrees(c: Codec, b: Json)
    requires Shaped(b)
    ensures PyBackend.Scannable(c, b)
    ensures PyBackend.TextOf(b) == Normal(if HasKey(b, "text") then Lookup(b.fields, "text").value.s else "")
    ensures In("text", b) == Normal(HasKey(b, "text")) && In("toolUse", b) == Normal(HasKey(b, "toolUse"))
    ensures !HasKey(b, "toolUse") ==> PyBackend.ToolOf(c, b) == Normal(None)
    ensures HasKey(b, "toolUse") ==>
      var pick := PyBackend.ToolOf(c, b).value;
      && (Analyze.ExtractQuery(c, b).Some? <==> pick.Some? && pick.value.query != "")
      && (Analyze.ExtractQuery(c, b).Some? ==> Analyze.ExtractQuery(c, b).value.query == pick.value.query)
  {
    if HasKey(b, "toolUse") {
      var t := Lookup(b.fields, "toolUse").value;
      var input := Lookup(t.fields, "input").value;
      assert PyBackend.PyIndex(b, "toolUse") == Normal(t);
      assert PyBackend.PyIndex(t, "input") == Normal(input);
      assert ToolInput(c, b) == Some(input);
    }
  }

  /** With every block an object and at most one holding `key`, the search
      finds that block, or none. */
  lemma FindUnique(content: seq<Json>, key: string)
    requires forall i :: 0 <= i < |content| ==> content[i].JObj?
    requires AtMostOne(content, key)
    ensures FindWithKey(content, key).Normal?
    ensures forall k :: 0 <= k < |content| && HasKey(content[k], key) ==> FindWithKey(content, key) == Normal(Some(content[k]))
    ensures (forall k :: 0 <= k < |content| ==> !HasKey(content[k], key)) ==> FindWithKey(content, key) == Normal(None)
  {
    forall i | 0 <= i < |content|
      ensures In(key, content[i]) == Normal(HasKey(content[i], key))
    {
    }
    var r := FindWithKey(content, key);
    if r.value.Some? {
      var i :| 0 <= i < |content| && content[i] == r.value.value && In(key, content[i]) == Normal(true)
        && forall j :: 0 <= j < i ==> In(key, content[j]) == Normal(false);
      assert HasKey(content[i], key);
    }
  }

  /** With at most one tool block, Python's last pick is that block's. */
  lemma LastToolUnique(c: Codec, content: seq<Json>)
    requires forall i :: 0 <= i < |content| ==> Shaped(content[i])
    requires AtMostOne(content, "toolUse")
    ensures forall k :: 0 <= k < |content| && HasKey(content[k], "toolUse") ==>
      Normal(PyBackend.LastTool(c, content)) == PyBackend.ToolOf(c, content[k])
    ensures (forall k :: 0 <= k < |content| ==> !HasKey(content[k], "toolUse")) ==> PyBackend.LastTool(c, content).None?
  {
    var f := (item: Json) => PyBackend.ToolOf(c, item);
    forall i | 0 <= i < |content|
      ensures f(content[i]).Normal?
      ensures !HasKey(content[i], "toolUse") ==> f(content[i]) == Normal(None)
    {
      BlockAgrees(c, content[i]);
    }
    PyBackend.LastPickIsLast(f, content);
    var last := PyBackend.LastTool(c, content);
    assert last == PyBackend.LastPick(f, content);
    if last.Some? {
      var i :| 0 <= i < |content| && f(content[i]) == Normal(last)
        && forall j :: i < j < |content| ==> f(content[j]) == Normal(None);
      assert HasKey(content[i], "toolUse");
      forall k | 0 <= k < |content| && HasKey(content[k], "toolUse")
        ensures Normal(last) == f(content[k])
      {
      }
    }
  }

  /** With at most one text block, Python's text is that block's text. */
  lemma AllTextUnique(content: seq<Json>)
    requires forall i :: 0 <= i < |content| ==> Shaped(content[i])
    requires AtMostOne(content, "text")
    ensures forall k :: 0 <= k < |content| && HasKey(content[k], "text") ==>
      JStr(PyBackend.AllText(content)) == Lookup(content[k].fields, "text").value
    ensures (forall k :: 0 <= k < |content| ==> !HasKey(content[k], "text")) ==> PyBackend.AllText(content) == ""
  {
    forall k | 0 <= k < |content| && HasKey(content[k], "text")
      ensures JStr(PyBackend.AllText(content)) == Lookup(content[k].fields, "text").value
    {
      AllTextAt(content, k);
    }
    if forall k :: 0 <= k < |content| ==> !HasKey(content[k], "text") {
      AllTextNone(content);
    }
  }

  /** Without text blocks, Python's text is "". */
  lemma {:induction false} AllTextNone(content: seq<Json>)
    requires forall i :: 0 <= i < |content| ==> Shaped(content[i]) && !HasKey(content[i], "text")
    ensures PyBackend.AllText(content) == ""
    decreases |content|
  {
    if |content| > 0 {
      BlockText(content[0]);
      AllTextNone(content[1..]);
    }
  }

  /** With block k the only text block, Python's text is its text. */
  lemma {:induction false} AllTextAt(content: seq<Json>, k: nat)
    requires forall i :: 0 <= i < |content| ==> Shaped(content[i])
    requires AtMostOne(content, "text")
    requires k < |content| && HasKey(content[k], "text")
    ensures JStr(PyBackend.AllText(content)) == Lookup(content[k].fields, "text").value
    decreases |content|
  {
    BlockText(content[0]);
    var rest := content[1..];
    assert PyBackend.AllText(content) == PyBackend.TextOf(content[0]).value + PyBackend.AllText(rest);
    TailFacts(content, "text");
    if k == 0 {
      AllTextNone(rest);
    } else {
      assert rest[k - 1] == content[k];
      AllTextAt(rest, k - 1);
    }
  }

  /** The blocks after the first keep the shape and uniqueness facts; after a
      first block holding `key`, none holds it. */
  lemma TailFacts(content: seq<Json>, key: string)
    requires |content| > 0
    requires forall i :: 0 <= i < |content| ==> Shaped(content[i])
    requires AtMostOne(content, key)
    ensures forall i :: 0 <= i < |content[1..]| ==> Shaped(content[1..][i])
    ensures AtMostOne(content[1..], key)
    ensures HasKey(content[0], key) ==> forall i :: 0 <= i < |content[1..]| ==> !HasKey(content[1..][i], key)
  {
    var rest := content[1..];
    forall i | 0 <= i < |rest|
      ensures rest[i] == content[i + 1]
    {
    }
  }

  /** Python's scan of such a reply completes, with every text and the last
      tool pick. */
  lemma ScanCompletes(c: Codec, content: seq<Json>)
    requires forall i :: 0 <= i < |content| ==> Shaped(content[i])
    ensures PyBackend.Scan(c, content).Normal?
    ensures PyBackend.Scan(c, content).value.text == PyBackend.AllText(content)
    ensures PyBackend.Scan(c, content).value.pick == PyBackend.LastTool(c, content)
  {
    forall i | 0 <= i < |content|
      ensures PyBackend.Scannable(c, content[i])
    {
      BlockAgrees(c, content[i]);
    }
    PyBackend.ScanNormal(c, content);
    PyBackend.ScanText(c, content);
    PyBackend.ScanPicksLastTool(c, content);
  }

  /** TypeScript reports the query Python picks, unless it is empty. */
  lemma QueriesAgree(c: Codec, content: seq<Json>, run: string -> Option<seq<Json>>)
    requires forall i :: 0 <= i < |content| ==> Shaped(content[i])
    requires AtMostOne(content, "text") && AtMostOne(content, "toolUse")
    ensures Analyze.Respond(c, content, run).Normal?
    ensures var pick := PyBackend.LastTool(c, content);
            Analyze.Respond(c, content, run).value.reply.body.query
              == (if pick.Some? && pick.value.query != "" then JStr(pick.value.query) else JNull)
  {
    FindUnique(content, "text");
    FindUnique(content, "toolUse");
    LastToolUnique(c, content);
    Analyze.RespondFields(c, content, run);
    if k :| 0 <= k < |content| && HasKey(content[k], "toolUse") {
      BlockAgrees(c, content[k]);
    }
  }

  /** TypeScript answers with Python's text, unless it is empty. */
  lemma ContentsAgree(c: Codec, content: seq<Json>, run: string -> Option<seq<Json>>)
    requires forall i :: 0 <= i < |content| ==> Shaped(content[i])
    requires AtMostOne(content, "text") && AtMostOne(content, "toolUse")
    ensures Analyze.Respond(c, content, run).Normal?
    ensures var text := PyBackend.AllText(content);
            Analyze.Respond(c, content, run).value.reply.body.content
              == JStr(if text != "" then text else Analyze.NoResponse)
  {
    FindUnique(content, "toolUse");
    if k :| 0 <= k < |content| && HasKey(content[k], "text") {
      TextFound(c, content, run, k);
    } else {
      FindUnique(content, "text");
      AllTextUnique(content);
      RespondContent(c, content, run);
    }
  }

  /** The case of ContentsAgree with a text block. */
  lemma TextFound(c: Codec, content: seq<Json>, run: string -> Option<seq<Json>>, k: nat)
    requires forall i :: 0 <= i < |content| ==> Shaped(content[i])
    requires AtMostOne(content, "text") && Analyze.Respond(c, content, run).Normal?
    requires k < |content| && HasKey(content[k], "text")
    ensures var text := PyBackend.AllText(content);
            Analyze.Respond(c, content, run).value.reply.body.content
              == JStr(if text != "" then text else Analyze.NoResponse)
  {
    FindUnique(content, "text");
    assert FindWithKey(content, "text") == Normal(Some(content[k]));
    AllTextUnique(content);
    assert JStr(PyBackend.AllText(content)) == Lookup(content[k].fields, "text").value;
    TextBlockContent(content[k]);
    RespondContent(c, content, run);
  }

  /** The content of TypeScript's reply, in terms of the text block found. */
  lemma RespondContent(c: Codec, content: seq<Json>, run: string -> Option<seq<Json>>)
    requires Analyze.Respond(c, content, run).Normal?
    ensures FindWithKey(content, "text").Normal?
    ensures var body := Analyze.Respond(c, content, run).value.reply.body;
            var text := FindWithKey(content, "text").value;
            && (text.Some? && Truthy(Prop(text.value, "text")) ==> body.content == Prop(text.value, "text").value)
            && (text.None? || !Truthy(Prop(text.value, "text")) ==> body.content == JStr(Analyze.NoResponse))
  {
    Analyze.RespondFields(c, content, run);
  }

  /** The text a shaped text block offers is truthy exactly when it is not
      empty. */
  lemma TextBlockContent(b: Json)
    requires Shaped(b) && HasKey(b, "text")
    ensures Prop(b, "text") == Lookup(b.fields, "text")
    ensures Truthy(Prop(b, "text")) <==> Lookup(b.fields, "text").value.s != ""
  {
  }

  /** On any reply with at most one text block and at most one tool block,
      each an object both twins can read, the twins agree: TypeScript reports
      the query Python picks unless it is empty, and answers with Python's
      text unless that is empty. */
  lemma SingleBlocksAgree(c: Codec, content: seq<Json>, run: string -> Option<seq<Json>>)
    requires forall i :: 0 <= i < |content| ==> Shaped(content[i])
    requires AtMostOne(content, "text") && AtMostOne(content, "toolUse")
    ensures Analyze.Respond(c, content, run).Normal? && PyBackend.Scan(c, content).Normal?
    ensures var ts := Analyze.Respond(c, content, run).value.reply.body;
            var py := PyBackend.Scan(c, content).value;
            && ts.query == (if py.pick.Some? && py.pick.value.query != "" then JStr(py.pick.value.query) else JNull)
            && ts.content == JStr(if py.text != "" then py.text else Analyze.NoResponse)
  {
    ScanCompletes(c, content);
    QueriesAgree(c, content, run);
    ContentsAgree(c, content, run);
  }
}

=== FILE: visualize.dfy ===
/** The chart endpoint (`POST /api/visualize`): request validation, conversion
    of the chat history and of an uploaded file into gateway content blocks,
    and the post-processing of the `generate_graph_data` tool output — shape
    validation, pie normalisation and colour assignment by position. */
module Visualize {
  import opened Wrappers
  import opened Js
  import opened Gateway

  /** The image subtypes an upload may carry. */
  const ImageFormats: seq<string> := ["png", "jpeg", "gif", "webp"]

  const MessagesRequired := "Messages array is required"
  const ModelRequired := "Model selection is required"
  const RegionRequired := "Region selection is required"

  datatype Role = User | Assistant

  /** A content block handed to the gateway. */
  datatype Part = TextPart(text: Val) | ImagePart(format: Option<string>, bytes: seq<bv8>)

  datatype Message = Message(role: Role, content: seq<Part>)

  /** The fields of a request body that the route destructures. */
  datatype Request = Request(messages: Val, fileData: Val, model: Val, region: Val)

  /** The 200 body: `{content, hasToolUse, toolUse, chartData}`. */
  datatype ChartReply = ChartReply(content: Json, hasToolUse: bool, toolUse: Json, chartData: Json)

  // ---------------------------------------------------------------------------
  // Request validation
  // ---------------------------------------------------------------------------

  predicate IsArray(v: Val) {
    v.Some? && v.value.JArr?
  }

  /** The 400 message for an invalid request, or None when it may proceed. */
  function Validate(req: Request): (r: Option<string>)
    ensures r == Some(MessagesRequired) <==> !IsArray(req.messages)
    ensures r == Some(ModelRequired) <==> IsArray(req.messages) && !Truthy(req.model)
    ensures r == Some(RegionRequired) <==> IsArray(req.messages) && Truthy(req.model) && !Truthy(req.region)
    ensures r.None? <==> IsArray(req.messages) && Truthy(req.model) && Truthy(req.region)
  {
    if !Truthy(req.messages) || !req.messages.value.JArr? then Some(MessagesRequired)
    else if !Truthy(req.model) then Some(ModelRequired)
    else if !Truthy(req.region) then Some(RegionRequired)
    else None
  }

  // ---------------------------------------------------------------------------
  // Uploaded files
  // ---------------------------------------------------------------------------

  /** `btoa(atob(s)) === s`, false when either codec throws. */
  predicate IsValidBase64(c: Codec, s: string) {
    match c.atob(s)
    case None => false
    case Some(binary) => c.btoa(binary) == Some(s)
  }

  /** With a base64 codec whose decoder inverts its encoder, the check accepts
      exactly the strings that are the encoding of something. */
  lemma CanonicalBase64(c: Codec, s: string)
    requires forall d :: c.btoa(d).Some? ==> c.atob(c.btoa(d).value) == Some(d)
    ensures IsValidBase64(c, s) <==> exists d :: c.btoa(d) == Some(s)
  {
    if IsValidBase64(c, s) {
      var d := c.atob(s).value;
      assert c.btoa(d) == Some(s);
    }
    if exists d :: c.btoa(d) == Some(s) {
      var d :| c.btoa(d) == Some(s);
      assert c.atob(s) == Some(d);
    }
  }

  /** The header placed before the decoded text of a text upload. */
  function FilePrefix(fileName: Val): string {
    "File contents of " + Show(fileName) + ":\n\n"
  }

  /** `decodeURIComponent(escape(atob(base64)))`, None when it throws. */
  function DecodeText(c: Codec, base64: Json): Option<string> {
    match c.atob(JsString(base64))
    case None => None
    case Some(binary) => c.decodeUri(c.escape(binary))
  }

  /** `processFileContent`: the block an upload contributes, or None. */
  function ProcessFileContent(c: Codec, fileData: Val): Option<Part>
  {
    if !Truthy(fileData) then None
    else
      var f := fileData.value;
      var base64 := Prop(f, "base64");
      if !Truthy(base64) then None
      else if Truthy(Prop(f, "isText")) then
        match DecodeText(c, base64.value)
        case None => None
        case Some(text) => Some(TextPart(Some(JStr(FilePrefix(Prop(f, "fileName")) + text))))
      else
        var mediaType := Prop(f, "mediaType");
        if !IsImageMediaType(mediaType) then None
        else
          var format := SplitAt(mediaType.value.s, '/', 1);
          if format.None? || format.value !in ImageFormats then None
          else if !IsValidBase64(c, JsString(base64.value)) then None
          else if !base64.value.JStr? then None
          else Some(ImagePart(format, c.base64Bytes(base64.value.s)))
  }

  /** What an upload contributes: nothing without file data or base64 text;
      for a text upload, exactly the header and the decoded text when decoding
      succeeds; for an image, only an allowed subtype of an "image/" media type
      with canonical base64; nothing for any other media type. */
  lemma ProcessFileContentSpec(c: Codec, fileData: Val)
    ensures !Truthy(fileData) ==> ProcessFileContent(c, fileData).None?
    ensures Truthy(fileData) && !Truthy(Prop(fileData.value, "base64")) ==> ProcessFileContent(c, fileData).None?
    ensures Truthy(fileData) && Truthy(Prop(fileData.value, "base64")) && Truthy(Prop(fileData.value, "isText")) ==>
      && (ProcessFileContent(c, fileData).Some? <==> DecodeText(c, Prop(fileData.value, "base64").value).Some?)
      && (ProcessFileContent(c, fileData).Some? ==> ProcessFileContent(c, fileData).value == TextPart(Some(JStr(FilePrefix(Prop(fileData.value, "fileName"))
                                                   + DecodeText(c, Prop(fileData.value, "base64").value).value))))
    ensures ProcessFileContent(c, fileData).Some? && ProcessFileContent(c, fileData).value.ImagePart? ==>
      && !Truthy(Prop(fileData.value, "isText"))
      && ProcessFileContent(c, fileData).value.format.Some?
      && ProcessFileContent(c, fileData).value.format.value in ImageFormats
      && IsImageMediaType(Prop(fileData.value, "mediaType"))
      && StartsWith(Prop(fileData.value, "mediaType").value.s, "image/" + ProcessFileContent(c, fileData).value.format.value)
      && Prop(fileData.value, "base64").Some?
      && Prop(fileData.value, "base64").value.JStr?
      && IsValidBase64(c, Prop(fileData.value, "base64").value.s)
    ensures Truthy(fileData) && !Truthy(Prop(fileData.value, "isText")) ==>
      (ProcessFileContent(c, fileData).None? <== !IsImageMediaType(Prop(fileData.value, "mediaType")))
  {
    if Truthy(fileData) && Truthy(Prop(fileData.value, "base64")) && !Truthy(Prop(fileData.value, "isText"))
       && IsImageMediaType(Prop(fileData.value, "mediaType")) {
      ImageMediaType(Prop(fileData.value, "mediaType").value.s);
    }
  }

  /** A media type the route treats as an image: a string starting "image/"
      (`startsWith` on anything else throws, which also yields null). */
  predicate IsImageMediaType(mediaType: Val) {
    mediaType.Some? && mediaType.value.JStr? && StartsWith(mediaType.value.s, "image/")
  }

  /** The subtype `split('/')[1]` picks out of an "image/" media type. */
  lemma ImageMediaType(m: string)
    requires StartsWith(m, "image/")
    ensures SplitAt(m, '/', 1).Some?
    ensures StartsWith(m, "image/" + SplitAt(m, '/', 1).value)
  {
    assert m[5] == '/';
    assert '/' in m;
    var i := IndexOf(m, '/');
    assert m[..5] == "image";
    assert i == 5;
    var rest := m[6..];
    var pieces := Split(rest, '/');
    assert Split(m, '/') == [m[..5]] + pieces;
    var fmt := pieces[0];
    assert StartsWith(rest, fmt) by {
      if '/' in rest {
        var j := IndexOf(rest, '/');
        assert fmt == rest[..j];
      }
    }
    assert m == m[..6] + rest;
    assert ("image/" + fmt) == m[..6] + rest[..|fmt|];
  }

  // ---------------------------------------------------------------------------
  // Message conversion
  // ---------------------------------------------------------------------------

  /** A history item the conversion keeps: one typed "text" or "image". */
  predicate KeptItem(item: Json) {
    Prop(item, "type") == Some(JStr("text")) || Prop(item, "type") == Some(JStr("image"))
  }

  /** The kept items, in their original order. */
  function KeptItems(items: seq<Json>): seq<Json> {
    if |items| == 0 then []
    else (if KeptItem(items[0]) then [items[0]] else []) + KeptItems(items[1..])
  }

  /** The kind of block a kept item becomes, and the text a text item carries
      (an image's subtype and bytes are stated by `ConvertItem`). */
  predicate PartOf(item: Json, p: Part) {
    && (p.TextPart? <==> Prop(item, "type") == Some(JStr("text")))
    && (p.TextPart? ==> p.text == Prop(item, "text"))
  }

  /** An image item whose source cannot be read: `source` null or missing,
      or `media_type` or `data` not a string. */
  predicate BadImageSource(item: Json) {
    var source := Prop(item, "source");
    || Nullish(source)
    || !IsString(Prop(source.value, "media_type"))
    || !IsString(Prop(source.value, "data"))
  }

  predicate IsString(v: Val) {
    v.Some? && v.value.JStr?
  }

  /** One history item: throws on null, on an image without a string
      `source.media_type`, and on image data that is not a string. */
  function ConvertItem(c: Codec, item: Json): (r: Completion<Option<Part>>)
    ensures r.Normal? ==> (r.value.Some? <==> KeptItem(item))
    ensures r.Normal? && r.value.Some? ==> PartOf(item, r.value.value)
    ensures r.Throws? <==>
      item.JNull? || (Prop(item, "type") == Some(JStr("image")) && BadImageSource(item))
    ensures r.Normal? && r.value.Some? && r.value.value.ImagePart? ==>
      var source := Prop(item, "source").value;
      && r.value.value.format == SplitAt(Prop(source, "media_type").value.s, '/', 1)
      && r.value.value.bytes == c.base64Bytes(Prop(source, "data").value.s)
  {
    if item.JNull? then Throws
    else if Prop(item, "type") == Some(JStr("text")) then Normal(Some(TextPart(Prop(item, "text"))))
    else if Prop(item, "type") == Some(JStr("image")) then
      var source := Prop(item, "source");
      if Nullish(source) then Throws
      else
        var mediaType := Prop(source.value, "media_type");
        var data := Prop(source.value, "data");
        if mediaType.None? || !mediaType.value.JStr? then Throws
        else if data.None? || !data.value.JStr? then Throws
        else Normal(Some(ImagePart(SplitAt(mediaType.value.s, '/', 1), c.base64Bytes(data.value.s))))
    else Normal(None)
  }

  /** `content.forEach(...)` over an array: the kept items' blocks, in order. */
  function ConvertItems(c: Codec, items: seq<Json>): (r: Completion<seq<Part>>)
    ensures r.Normal? ==> |r.value| == |KeptItems(items)|
    ensures r.Normal? ==> forall i :: 0 <= i < |r.value| ==> PartOf(KeptItems(items)[i], r.value[i])
    ensures r.Normal? ==> forall i :: 0 <= i < |r.value| ==> ConvertItem(c, KeptItems(items)[i]) == Normal(Some(r.value[i]))
    ensures r.Throws? <==> exists i :: 0 <= i < |items| && ConvertItem(c, items[i]).Throws?
  {
    if |items| == 0 then Normal([])
    else
      var head := ConvertItem(c, items[0]);
      var tail := ConvertItems(c, items[1..]);
      assert forall i :: 1 <= i < |items| ==> items[i] == items[1..][i - 1];
      if head.Throws? then Throws
      else if tail.Throws? then Throws
      else
        ConsParts(c, items, tail.value);
        var r := (if head.value.Some? then [head.value.value] else []) + tail.value;
        assert forall i :: 0 <= i < |r| ==> PartOf(KeptItems(items)[i], r[i]) by {
          forall i | 0 <= i < |r|
            ensures PartOf(KeptItems(items)[i], r[i])
          {
            assert ConvertItem(c, KeptItems(items)[i]) == Normal(Some(r[i]));
          }
        }
        Normal((if head.value.Some? then [head.value.value] else []) + tail.value)
  }

  /** The step of ConvertItems: the first item's block, if kept, goes in
      front of the rest's blocks, matching the kept items one to one. */
  lemma ConsParts(c: Codec, items: seq<Json>, tail: seq<Part>)
    requires |items| > 0 && ConvertItem(c, items[0]).Normal?
    requires |tail| == |KeptItems(items[1..])|
    requires forall i :: 0 <= i < |tail| ==> ConvertItem(c, KeptItems(items[1..])[i]) == Normal(Some(tail[i]))
    ensures var head := ConvertItem(c, items[0]).value;
            var r := (if head.Some? then [head.value] else []) + tail;
            && |r| == |KeptItems(items)|
            && forall i :: 0 <= i < |r| ==> ConvertItem(c, KeptItems(items)[i]) == Normal(Some(r[i]))
  {
    var head := ConvertItem(c, items[0]).value;
    var rest := KeptItems(items[1..]);
    var kept := KeptItems(items);
    if head.Some? {
      assert KeptItem(items[0]);
      assert kept == [items[0]] + rest;
      var r := [head.value] + tail;
      forall i | 0 <= i < |r|
        ensures ConvertItem(c, kept[i]) == Normal(Some(r[i]))
      {
        if i > 0 {
          assert r[i] == tail[i - 1] && kept[i] == rest[i - 1];
          assert ConvertItem(c, rest[i - 1]) == Normal(Some(tail[i - 1]));
        } else {
          assert kept[0] == items[0] && r[0] == head.value;
        }
      }
    } else {
      assert !KeptItem(items[0]);
      assert kept == rest;
      assert [] + tail == tail;
    }
  }

  /** The blocks of one history message before any upload is added. */
  function BaseContent(c: Codec, msg: Json): (r: Completion<seq<Part>>)
    ensures msg.JNull? ==> r.Throws?
    ensures !msg.JNull? && Prop(msg, "content").Some? && Prop(msg, "content").value.JStr? && Prop(msg, "content").value.s != "" ==>
      r == Normal([TextPart(Prop(msg, "content"))])
    ensures !msg.JNull? && !Truthy(Prop(msg, "content")) ==> r == Normal([])
    ensures !msg.JNull? && Prop(msg, "content").Some? && Prop(msg, "content").value.JArr? ==>
      r == ConvertItems(c, Prop(msg, "content").value.items)
    ensures !msg.JNull? && Truthy(Prop(msg, "content")) && !Prop(msg, "content").value.JArr? && !Prop(msg, "content").value.JStr? ==>
      r == Normal([])
  {
    if msg.JNull? then Throws
    else
      var content := Prop(msg, "content");
      if !Truthy(content) then Normal([])
      else
        match content.value
        case JArr(items) => ConvertItems(c, items)
        case JStr(s) => Normal([TextPart(Some(JStr(s)))])
        case _ => Normal([])
  }

  /** `msg.role === 'assistant' ? 'assistant' : 'user'`. */
  function RoleOf(msg: Json): Role {
    if Prop(msg, "role") == Some(JStr("assistant")) then Assistant else User
  }

  /** The blocks an upload adds to the last message: none without file data
      or when `processFileContent` returns null. (The route calls it while
      mapping the last message; it has no effect other than its result, so it
      is computed once here.) */
  function FilePart(c: Codec, fileData: Val): seq<Part> {
    if Truthy(fileData) then
      match ProcessFileContent(c, fileData)
      case Some(p) => [p]
      case None => []
    else []
  }

  /** One history message: its role and its blocks, plus the upload's blocks
      when it is the last message. */
  function ConvertMessage(c: Codec, msg: Json, isLast: bool, upload: seq<Part>): (r: Completion<Message>)
    ensures r.Throws? <==> BaseContent(c, msg).Throws?
    ensures r.Normal? ==> r.value.role == RoleOf(msg)
    ensures r.Normal? ==> r.value.content == BaseContent(c, msg).value + (if isLast then upload else [])
  {
    match BaseContent(c, msg)
    case Throws => Throws
    case Normal(parts) => Normal(Message(RoleOf(msg), parts + (if isLast then upload else [])))
  }

  /** An object, array or buffer: a value compared by identity. */
  predicate IsObject(v: Json) {
    v.JObj? || v.JArr? || v.JBytes?
  }

  /** `msg === messages[messages.length - 1]` for the message at position `j`:
      the last message itself, or a primitive equal to it (objects from the
      parsed body are distinct references, primitives compare by value). */
  predicate MatchesLast(msgs: seq<Json>, j: nat, msg: Json) {
    |msgs| > 0 && (j == |msgs| - 1 || (!IsObject(msg) && msg == msgs[|msgs| - 1]))
  }

  /** The `bedrockMessages` mapping. */
  function ConvertMessages(c: Codec, msgs: seq<Json>, upload: seq<Part>): (r: Completion<seq<Message>>)
    ensures r.Normal? ==> |r.value| == |msgs|
  {
    MapIndexed((j: nat, msg: Json) => ConvertMessage(c, msg, MatchesLast(msgs, j, msg), upload), msgs)
  }

  /** One gateway message per history message, in order: 'assistant' is kept
      and every other role is sent as 'user'; the last message gets its own
      blocks followed by the upload's, an earlier message that is an object
      keeps exactly its own blocks, and an earlier primitive equal to the last
      message gets the upload too; the conversion throws exactly when some
      history message's blocks do. */
  lemma ConvertMessagesShape(c: Codec, msgs: seq<Json>, upload: seq<Part>)
    ensures ConvertMessages(c, msgs, upload).Normal? ==> forall j :: 0 <= j < |msgs| ==>
      (ConvertMessages(c, msgs, upload).value[j].role == Assistant <==> Prop(msgs[j], "role") == Some(JStr("assistant")))
    ensures ConvertMessages(c, msgs, upload).Normal? ==> forall j :: 0 <= j < |msgs| - 1 ==>
      (IsObject(msgs[j]) || msgs[j] != msgs[|msgs| - 1] ==>
         BaseContent(c, msgs[j]) == Normal(ConvertMessages(c, msgs, upload).value[j].content))
    ensures ConvertMessages(c, msgs, upload).Normal? ==> forall j :: 0 <= j < |msgs| - 1 ==>
      (!IsObject(msgs[j]) && msgs[j] == msgs[|msgs| - 1] ==>
         ConvertMessages(c, msgs, upload).value[j].content == BaseContent(c, msgs[j]).value + upload)
    ensures ConvertMessages(c, msgs, upload).Normal? && |msgs| > 0 ==>
      && BaseContent(c, msgs[|msgs| - 1]).Normal?
      && ConvertMessages(c, msgs, upload).value[|msgs| - 1].content
         == BaseContent(c, msgs[|msgs| - 1]).value + upload
    ensures ConvertMessages(c, msgs, upload).Throws? <==> exists j :: 0 <= j < |msgs| && BaseContent(c, msgs[j]).Throws?
  {
    var r := ConvertMessages(c, msgs, upload);
    if r.Normal? {
      forall j | 0 <= j < |msgs|
        ensures ConvertMessage(c, msgs[j], MatchesLast(msgs, j, msgs[j]), upload) == Normal(r.value[j])
      {
      }
      forall j | 0 <= j < |msgs| - 1 && (IsObject(msgs[j]) || msgs[j] != msgs[|msgs| - 1])
        ensures BaseContent(c, msgs[j]) == Normal(r.value[j].content)
      {
        assert !MatchesLast(msgs, j, msgs[j]);
        assert ConvertMessage(c, msgs[j], false, upload) == Normal(r.value[j]);
        assert BaseContent(c, msgs[j]).value + [] == BaseContent(c, msgs[j]).value;
      }
    }
  }

  // ---------------------------------------------------------------------------
  // Tool output post-processing
  // ---------------------------------------------------------------------------

  /** `Object.keys(chartConfig)[0]` as a property key: "undefined" when there is none. */
  function FirstKey(chartConfig: Json): string {
    var keys := Keys(OwnEntries(chartConfig));
    if |keys| > 0 then keys[0] else "undefined"
  }

  /** `config.xAxisKey || "segment"` as a property key. */
  function SegmentKey(config: Json): string {
    var x := Prop(config, "xAxisKey");
    if Truthy(x) then JsString(x.value) else "segment"
  }

  /** A property that is present only when its value is defined (an undefined
      value does not survive into the JSON reply). */
  function Entry(key: string, v: Val): seq<Field> {
    if v.Some? then [Field(key, v.value)] else []
  }

  /** `{segment: ..., value: ...}` for one pie item; throws on a null item. */
  function NormalizeItem(item: Json, segmentKey: string, valueKey: string): (r: Completion<Json>)
    ensures r.Throws? <==> item.JNull?
    ensures r.Normal? ==> r.value.JObj?
    ensures r.Normal? ==> forall k :: k != "segment" && k != "value" ==> Prop(r.value, k).None?
    ensures r.Normal? ==>
      (Prop(r.value, "segment") ==
       Or(Prop(item, segmentKey), Or(Prop(item, "segment"), Or(Prop(item, "category"), Prop(item, "name")))))
    ensures r.Normal? ==> Prop(r.value, "value") == Or(Prop(item, valueKey), Prop(item, "value"))
  {
    if item.JNull? then Throws
    else
      var segment := Or(Prop(item, segmentKey), Or(Prop(item, "segment"), Or(Prop(item, "category"), Prop(item, "name"))));
      var value := Or(Prop(item, valueKey), Prop(item, "value"));
      Normal(JObj(Entry("segment", segment) + Entry("value", value)))
  }

  /** `data.map(...)` with the pie normaliser: same length, item by item. */
  function NormalizeItems(items: seq<Json>, segmentKey: string, valueKey: string): (r: Completion<seq<Json>>)
    ensures r.Normal? ==> |r.value| == |items|
    ensures r.Normal? ==> forall i :: 0 <= i < |items| ==> NormalizeItem(items[i], segmentKey, valueKey) == Normal(r.value[i])
    ensures r.Throws? <==> exists i :: 0 <= i < |items| && items[i].JNull?
  {
    if |items| == 0 then Normal([])
    else
      assert forall i :: 1 <= i < |items| ==> items[i] == items[1..][i - 1];
      match NormalizeItem(items[0], segmentKey, valueKey)
      case Throws => Throws
      case Normal(head) =>
        match NormalizeItems(items[1..], segmentKey, valueKey)
        case Throws => Throws
        case Normal(tail) => Normal([head] + tail)
  }

  /** The pie branch over the chart object's fields: normalise `data`, then set
      `config.xAxisKey = "segment"`. Throws when `chartConfig` or `config` is
      null or undefined (the latter even for empty data), and when `config` is
      a primitive (assigning a property to it throws in strict-mode code). */
  function PieStep(fields: seq<Field>, items: seq<Json>): Completion<seq<Field>> {
    var chartConfig := Lookup(fields, "chartConfig");
    var config := Lookup(fields, "config");
    if |items| > 0 && (Nullish(chartConfig) || Nullish(config)) then Throws
    else if Nullish(config) then Throws
    else
      var valueKey := if Nullish(chartConfig) then "undefined" else FirstKey(chartConfig.value);
      match NormalizeItems(items, SegmentKey(config.value), valueKey)
      case Throws => Throws
      case Normal(normalized) =>
        var withData := Set(fields, "data", JArr(normalized));
        match config.value
        case JObj(cf) => Normal(Set(withData, "config", JObj(Set(cf, "xAxisKey", JStr("segment")))))
        case JArr(_) => Normal(withData)
        case JBytes(_) => Normal(withData)
        case _ => Throws
  }

  /** Normalising an already normalised item again, with the segment key the
      first pass installs, gives it back unchanged — provided its segment is
      truthy and the value key is not "segment". */
  lemma NormalizeItemIdempotent(item: Json, segmentKey: string, valueKey: string)
    requires NormalizeItem(item, segmentKey, valueKey).Normal?
    requires Truthy(Prop(NormalizeItem(item, segmentKey, valueKey).value, "segment"))
    requires valueKey != "segment"
    ensures NormalizeItem(NormalizeItem(item, segmentKey, valueKey).value, "segment", valueKey)
         == NormalizeItem(item, segmentKey, valueKey)
  {
    var r := NormalizeItem(item, segmentKey, valueKey).value;
    var segment := Or(Prop(item, segmentKey), Or(Prop(item, "segment"), Or(Prop(item, "category"), Prop(item, "name"))));
    var value := Or(Prop(item, valueKey), Prop(item, "value"));
    assert r == JObj(Entry("segment", segment) + Entry("value", value));
    assert Prop(r, "segment") == segment;
    assert Prop(r, "value") == value;
    assert Or(Prop(r, valueKey), Prop(r, "value")) == value by {
      if valueKey != "value" {
        assert Prop(r, valueKey).None?;
      }
    }
  }

  /** The item-wise idempotence, over a whole data array. */
  lemma NormalizeItemsIdempotent(items: seq<Json>, segmentKey: string, valueKey: string)
    requires NormalizeItems(items, segmentKey, valueKey).Normal?
    requires forall i :: 0 <= i < |items| ==> Truthy(Prop(NormalizeItems(items, segmentKey, valueKey).value[i], "segment"))
    requires valueKey != "segment"
    ensures NormalizeItems(NormalizeItems(items, segmentKey, valueKey).value, "segment", valueKey)
         == NormalizeItems(items, segmentKey, valueKey)
  {
    var out := NormalizeItems(items, segmentKey, valueKey).value;
    forall i | 0 <= i < |out|
      ensures NormalizeItem(out[i], "segment", valueKey) == Normal(out[i])
    {
      NormalizeItemIdempotent(items[i], segmentKey, valueKey);
    }
    var again := NormalizeItems(out, "segment", valueKey);
    assert again.Normal?;
    assert again.value == out;
  }

  /** The colour of the series at 0-based position `i`. */
  function Color(i: nat): string {
    "hsl(var(--chart-" + NatStr(i + 1) + "))"
  }

  /** `Object.entries(chartConfig).reduce(...)`: every entry keeps its key and
      position and becomes `{...config, color}` with the colour of its position. */
  function Colorize(entries: seq<Field>): (r: seq<Field>)
    ensures |r| == |entries|
    ensures forall i :: 0 <= i < |r| ==>
      && r[i].key == entries[i].key
      && r[i].val.JObj?
      && Lookup(r[i].val.fields, "color") == Some(JStr(Color(i)))
      && (forall k :: k != "color" ==> Lookup(r[i].val.fields, k) == Lookup(OwnEntries(entries[i].val), k))
  {
    seq(|entries|, i requires 0 <= i < |entries| =>
      Field(entries[i].key, JObj(Set(OwnEntries(entries[i].val), "color", JStr(Color(i))))))
  }

  lemma ColorizeKeys(entries: seq<Field>)
    ensures Keys(Colorize(entries)) == Keys(entries)
  {
    KeysByIndex(Colorize(entries));
    KeysByIndex(entries);
  }

  lemma {:induction false} KeysByIndex(fields: seq<Field>)
    ensures |Keys(fields)| == |fields|
    ensures forall i :: 0 <= i < |fields| ==> Keys(fields)[i] == fields[i].key
  {
    if |fields| > 0 {
      KeysByIndex(fields[1..]);
    }
  }

  /** A chart input `processToolResponse` accepts: an object with a truthy
      chart type, an array `data` and a chart config, whose pie step (for a
      pie) does not throw. */
  predicate ChartAccepted(chart: Json) {
    && chart.JObj?
    && Truthy(Prop(chart, "chartType"))
    && IsArray(Prop(chart, "data"))
    && !Nullish(Prop(chart, "chartConfig"))
    && (Prop(chart, "chartType") == Some(JStr("pie")) ==> PieStep(chart.fields, Prop(chart, "data").value.items).Normal?)
  }

  /** `processToolResponse`: the validated, normalised and coloured chart, or
      None. */
  function ProcessToolResponse(c: Codec, block: Json): (r: Option<Json>)
    ensures r.Some? <==> ToolInput(c, block).Some? && ChartAccepted(ToolInput(c, block).value)
    ensures ToolInput(c, block).None? ==> r.None?
    ensures r.Some? ==> Truthy(Prop(ToolInput(c, block).value, "chartType"))
    ensures r.Some? ==> IsArray(Prop(ToolInput(c, block).value, "data"))
    ensures r.Some? ==> !Nullish(Prop(ToolInput(c, block).value, "chartConfig"))
    ensures r.Some? && Prop(ToolInput(c, block).value, "chartType") == Some(JStr("pie")) ==>
      !Nullish(Prop(ToolInput(c, block).value, "config"))
  {
    match ToolInput(c, block)
    case None => None
    case Some(chart) => ProcessChartAccepts(chart); ProcessChart(chart)
  }

  /** The checks, the pie step and the colouring applied to a tool input. */
  function ProcessChart(chart: Json): Option<Json> {
    // A primitive or array input has no truthy `chartType`.
    if !chart.JObj? then None
    else
      var chartType := Prop(chart, "chartType");
      var data := Prop(chart, "data");
      if !Truthy(chartType) || !Truthy(data) || !data.value.JArr? then None
      else
        var shaped := if chartType == Some(JStr("pie")) then PieStep(chart.fields, data.value.items) else Normal(chart.fields);
        match shaped
        case Throws => None
        case Normal(fs) =>
          ShapedKeepsChartConfig(chart.fields, data.value.items, chartType == Some(JStr("pie")));
          var chartConfig := Lookup(fs, "chartConfig");
          if Nullish(chartConfig) then None
          else
            Some(JObj(Set(fs, "chartConfig", JObj(Colorize(OwnEntries(chartConfig.value))))))
  }

  /** A tool input becomes a chart exactly when it is accepted. */
  lemma ProcessChartAccepts(chart: Json)
    ensures ProcessChart(chart).Some? <==> ChartAccepted(chart)
  {
    if !chart.JObj? {
      assert ProcessChart(chart).None?;
    } else if !Truthy(Prop(chart, "chartType")) || !IsArray(Prop(chart, "data")) {
      assert ProcessChart(chart).None?;
    } else {
      var items := Prop(chart, "data").value.items;
      var pie := Prop(chart, "chartType") == Some(JStr("pie"));
      var shaped := if pie then PieStep(chart.fields, items) else Normal(chart.fields);
      assert Truthy(Prop(chart, "data"));
      if shaped.Normal? {
        ShapedKeepsChartConfig(chart.fields, items, pie);
        assert Prop(chart, "chartConfig") == Lookup(chart.fields, "chartConfig");
        assert ProcessChart(chart).Some? <==> !Nullish(Lookup(shaped.value, "chartConfig"));
      } else {
        assert ProcessChart(chart).None?;
      }
    }
  }

  /** What a processed chart looks like: an object with the tool input's
      top-level keys in their order; its `chartConfig` has the input's entries
      in their order, the one at position i carrying colour i; a non-pie
      chart's other fields pass through unchanged. */
  lemma ProcessToolResponseShape(c: Codec, block: Json)
    requires ProcessToolResponse(c, block).Some?
    ensures ToolInput(c, block).Some? && ToolInput(c, block).value.JObj?
    ensures var chart := ToolInput(c, block).value.fields;
            var out := ProcessToolResponse(c, block).value;
            && out.JObj?
            && Keys(out.fields) == Keys(chart)
            && Lookup(chart, "chartConfig").Some?
            && Lookup(out.fields, "chartConfig").Some?
            && Lookup(out.fields, "chartConfig").value.JObj?
            && Keys(Lookup(out.fields, "chartConfig").value.fields) == Keys(OwnEntries(Lookup(chart, "chartConfig").value))
            && (forall i :: 0 <= i < |Lookup(out.fields, "chartConfig").value.fields| ==>
                  Lookup(Lookup(out.fields, "chartConfig").value.fields[i].val.fields, "color") == Some(JStr(Color(i))))
    ensures var chart := ToolInput(c, block).value.fields;
            var out := ProcessToolResponse(c, block).value;
            Lookup(chart, "chartType") != Some(JStr("pie")) ==>
              forall k :: k != "chartConfig" ==> Lookup(out.fields, k) == Lookup(chart, k)
  {
    var chart := ToolInput(c, block).value;
    var fields := chart.fields;
    var data := Prop(chart, "data");
    var shaped := if Prop(chart, "chartType") == Some(JStr("pie")) then PieStep(fields, data.value.items) else Normal(fields);
    var fs := shaped.value;
    assert Keys(fs) == Keys(fields) && Lookup(fs, "chartConfig") == Lookup(fields, "chartConfig") by {
      if Prop(chart, "chartType") == Some(JStr("pie")) {
        PieStepShape(fields, data.value.items);
      }
    }
    var cc := Lookup(fs, "chartConfig").value;
    assert "chartConfig" in Keys(fs);
    ColorizeKeys(OwnEntries(cc));
  }

  /** Whichever branch shaped the chart, its `chartConfig` is the input's. */
  lemma ShapedKeepsChartConfig(fields: seq<Field>, items: seq<Json>, pie: bool)
    requires (if pie then PieStep(fields, items) else Normal(fields)).Normal?
    ensures Lookup((if pie then PieStep(fields, items) else Normal(fields)).value, "chartConfig")
         == Lookup(fields, "chartConfig")
  {
    if pie {
      var config := Lookup(fields, "config");
      var chartConfig := Lookup(fields, "chartConfig");
      var valueKey := if Nullish(chartConfig) then "undefined" else FirstKey(chartConfig.value);
      var normalized := NormalizeItems(items, SegmentKey(config.value), valueKey).value;
      var withData := Set(fields, "data", JArr(normalized));
      assert Lookup(withData, "chartConfig") == chartConfig;
    }
  }

  /** The pie step keeps the chart's keys and its `chartConfig`. */
  lemma PieStepShape(fields: seq<Field>, items: seq<Json>)
    requires PieStep(fields, items).Normal?
    requires "data" in Keys(fields)
    ensures Keys(PieStep(fields, items).value) == Keys(fields)
    ensures Lookup(PieStep(fields, items).value, "chartConfig") == Lookup(fields, "chartConfig")
  {
    var config := Lookup(fields, "config");
    assert "config" in Keys(fields);
  }

  /** The pie step on the data array: same length, each item normalised with
      the segment key from `config.xAxisKey` and the value key from the first
      `chartConfig` key; `config.xAxisKey` becomes "segment" on an object
      config and every other field is untouched. */
  lemma PieStepData(fields: seq<Field>, items: seq<Json>)
    requires PieStep(fields, items).Normal?
    ensures Lookup(fields, "config").Some?
    ensures var config := Lookup(fields, "config").value;
            var chartConfig := Lookup(fields, "chartConfig");
            var out := PieStep(fields, items).value;
            && Lookup(out, "data").Some? && Lookup(out, "data").value.JArr?
            && |Lookup(out, "data").value.items| == |items|
            && (forall i :: 0 <= i < |items| ==>
                  NormalizeItem(items[i], SegmentKey(config),
                                if Nullish(chartConfig) then "undefined" else FirstKey(chartConfig.value))
                  == Normal(Lookup(out, "data").value.items[i]))
            && (config.JObj? ==>
                  && Lookup(out, "config").Some? && Lookup(out, "config").value.JObj?
                  && Lookup(Lookup(out, "config").value.fields, "xAxisKey") == Some(JStr("segment"))
                  && forall k :: k != "xAxisKey" ==> Lookup(Lookup(out, "config").value.fields, k) == Lookup(config.fields, k))
            && (forall k :: k != "data" && k != "config" ==> Lookup(out, k) == Lookup(fields, k))
  {
    var config := Lookup(fields, "config").value;
    var chartConfig := Lookup(fields, "chartConfig");
    var valueKey := if Nullish(chartConfig) then "undefined" else FirstKey(chartConfig.value);
    var normalized := NormalizeItems(items, SegmentKey(config), valueKey).value;
    var withData := Set(fields, "data", JArr(normalized));
    PieStepResult(fields, items);
    if config.JObj? {
      ConfigSet(withData, config.fields);
    }
  }

  /** The pie step's result, in terms of the normalised data. */
  lemma PieStepResult(fields: seq<Field>, items: seq<Json>)
    requires PieStep(fields, items).Normal?
    ensures Lookup(fields, "config").Some?
    ensures var config := Lookup(fields, "config").value;
            var chartConfig := Lookup(fields, "chartConfig");
            var valueKey := if Nullish(chartConfig) then "undefined" else FirstKey(chartConfig.value);
            && NormalizeItems(items, SegmentKey(config), valueKey).Normal?
            && var withData := Set(fields, "data", JArr(NormalizeItems(items, SegmentKey(config), valueKey).value));
               PieStep(fields, items).value
               == if config.JObj? then Set(withData, "config", JObj(Set(config.fields, "xAxisKey", JStr("segment"))))
                  else withData
  {
  }

  /** Setting the object config's `xAxisKey` on a chart object. */
  lemma ConfigSet(withData: seq<Field>, cf: seq<Field>)
    ensures var out := Set(withData, "config", JObj(Set(cf, "xAxisKey", JStr("segment"))));
            && Lookup(out, "config").Some? && Lookup(out, "config").value.JObj?
            && Lookup(Lookup(out, "config").value.fields, "xAxisKey") == Some(JStr("segment"))
            && (forall k :: k != "xAxisKey" ==> Lookup(Lookup(out, "config").value.fields, k) == Lookup(cf, k))
            && (forall k :: k != "config" ==> Lookup(out, k) == Lookup(withData, k))
  {
  }

  /** The chart object after the pie branch has run, whether it finished or
      threw part-way: `data` is replaced once the map finishes, then
      `config.xAxisKey` is set when `config` is an object. When the tool input
      is an object, `chartData` is that very object, so these edits show in
      the reply's `toolUse` as well. */
  function PieEffect(fields: seq<Field>, items: seq<Json>): (r: seq<Field>)
    ensures forall k :: k != "data" && k != "config" ==> Lookup(r, k) == Lookup(fields, k)
  {
    var chartConfig := Lookup(fields, "chartConfig");
    var config := Lookup(fields, "config");
    if |items| > 0 && (Nullish(chartConfig) || Nullish(config)) then fields
    else
      var valueKey := if Nullish(chartConfig) then "undefined" else FirstKey(chartConfig.value);
      var segmentKey := if Nullish(config) then "segment" else SegmentKey(config.value);
      match NormalizeItems(items, segmentKey, valueKey)
      case Throws => fields
      case Normal(normalized) =>
        var withData := Set(fields, "data", JArr(normalized));
        if config.Some? && config.value.JObj? then Set(withData, "config", JObj(Set(config.value.fields, "xAxisKey", JStr("segment"))))
        else withData
  }

  /** When the pie step finishes, the object it edited is the step's result. */
  lemma PieEffectOnSuccess(fields: seq<Field>, items: seq<Json>)
    requires PieStep(fields, items).Normal?
    ensures PieEffect(fields, items) == PieStep(fields, items).value
  {
    PieStepResult(fields, items);
  }

  /** When the map throws, the object is left as it was. */
  lemma PieEffectOnMapThrow(fields: seq<Field>, items: seq<Json>)
    requires || (|items| > 0 && (Nullish(Lookup(fields, "chartConfig")) || Nullish(Lookup(fields, "config"))))
             || (exists i :: 0 <= i < |items| && items[i].JNull?)
    ensures PieEffect(fields, items) == fields
  {
  }

  /** A primitive `config` makes the step throw only after `data` has been
      replaced, so the reply's tool input carries the normalised data while
      the chart itself is null. */
  lemma PieEffectOnLateThrow(fields: seq<Field>, items: seq<Json>)
    requires Lookup(fields, "config").Some?
    requires var config := Lookup(fields, "config").value;
             config.JBool? || config.JNum? || config.JStr?
    requires !Nullish(Lookup(fields, "chartConfig"))
    requires forall i :: 0 <= i < |items| ==> !items[i].JNull?
    ensures PieStep(fields, items).Throws?
    ensures var normalized := NormalizeItems(items, SegmentKey(Lookup(fields, "config").value),
                                             FirstKey(Lookup(fields, "chartConfig").value));
            && normalized.Normal?
            && Lookup(PieEffect(fields, items), "data") == Some(JArr(normalized.value))
  {
    var config := Lookup(fields, "config");
    var normalized := NormalizeItems(items, SegmentKey(config.value), FirstKey(Lookup(fields, "chartConfig").value));
    assert !Nullish(config) && !config.value.JObj?;
    assert normalized.Normal?;
    var withData := Set(fields, "data", JArr(normalized.value));
    assert PieEffect(fields, items) == withData;
    assert Lookup(withData, "data") == Some(JArr(normalized.value));
  }

  /** A block whose tool input is an object that the pie branch edits: a
      truthy `toolUse` holding an object input with chart type "pie" and an
      array `data`. */
  predicate PieInPlace(block: Json) {
    var toolUse := Prop(block, "toolUse");
    && Truthy(Some(block)) && Truthy(toolUse) && toolUse.value.JObj?
    && var input := Prop(toolUse.value, "input");
       && input.Some? && input.value.JObj?
       && Prop(input.value, "chartType") == Some(JStr("pie"))
       && IsArray(Prop(input.value, "data"))
  }

  /** The block's `toolUse` as the reply serialises it, after
      `processToolResponse` has run: for a pie input object, the input is the
      object the pie branch edited; anything else is read as it came. */
  function ToolUseAfter(block: Json): (r: Val)
    ensures !PieInPlace(block) ==> r == Prop(block, "toolUse")
    ensures PieInPlace(block) ==>
      var toolUse := Prop(block, "toolUse").value;
      var chart := Prop(toolUse, "input").value;
      && r.Some? && r.value.JObj?
      && Keys(r.value.fields) == Keys(toolUse.fields)
      && (forall k :: k != "input" ==> Lookup(r.value.fields, k) == Lookup(toolUse.fields, k))
      && Lookup(r.value.fields, "input") == Some(JObj(PieEffect(chart.fields, Prop(chart, "data").value.items)))
  {
    var toolUse := Prop(block, "toolUse");
    if !PieInPlace(block) then toolUse
    else
      var chart := Prop(toolUse.value, "input").value;
      Some(JObj(Set(toolUse.value.fields, "input", JObj(PieEffect(chart.fields, Prop(chart, "data").value.items)))))
  }

  // ---------------------------------------------------------------------------
  // Response assembly and the handler
  // ---------------------------------------------------------------------------

  /** The 200 body built from the gateway's content blocks: the first text
      block's text (or ""), whether a tool block exists, that block's `toolUse`
      as `processToolResponse` left it (or null) and the processed chart (or
      null). */
  function Respond(c: Codec, content: seq<Json>): (r: Completion<ChartReply>)
    ensures r.Throws? <==> FindWithKey(content, "text").Throws? || FindWithKey(content, "toolUse").Throws?
    ensures r.Normal? ==>
      var text := FindWithKey(content, "text").value;
      && (text.Some? && Truthy(Prop(text.value, "text")) ==> r.value.content == Prop(text.value, "text").value)
      && (text.None? || !Truthy(Prop(text.value, "text")) ==> r.value.content == JStr(""))
    ensures r.Normal? && FindWithKey(content, "toolUse").value.Some? ==>
      var block := FindWithKey(content, "toolUse").value.value;
      && (!PieInPlace(block) && Truthy(Prop(block, "toolUse")) ==> r.value.toolUse == Prop(block, "toolUse").value)
      && (!Truthy(Prop(block, "toolUse")) ==> r.value.toolUse == JNull)
      && (PieInPlace(block) ==> Some(r.value.toolUse) == ToolUseAfter(block))
    ensures r.Normal? ==> (r.value.hasToolUse <==> FindWithKey(content, "toolUse") != Normal(None))
    ensures r.Normal? && !r.value.hasToolUse ==> r.value.chartData == JNull && r.value.toolUse == JNull
    ensures r.Normal? && r.value.chartData != JNull ==>
      FindWithKey(content, "toolUse").Normal? && FindWithKey(content, "toolUse").value.Some? &&
      ProcessToolResponse(c, FindWithKey(content, "toolUse").value.value) == Some(r.value.chartData)
  {
    match FindWithKey(content, "text")
    case Throws => Throws
    case Normal(textBlock) =>
      match FindWithKey(content, "toolUse")
      case Throws => Throws
      case Normal(toolBlock) =>
        var text := if textBlock.Some? then Prop(textBlock.value, "text") else None;
        var chart := if toolBlock.Some? then ProcessToolResponse(c, toolBlock.value) else None;
        var toolUse := if toolBlock.Some? then ToolUseAfter(toolBlock.value) else None;
        Normal(ChartReply(
          if Truthy(text) then text.value else JStr(""),
          toolBlock.Some?,
          if Truthy(toolUse) then toolUse.value else JNull,
          if chart.Some? then chart.value else JNull))
  }

  /** With an object tool input, the reply's `toolUse.input` and its chart
      agree on every field but `chartConfig`: the pie branch's edits to the
      input show in both. */
  lemma ReplyToolUseShowsChart(c: Codec, content: seq<Json>, block: Json)
    requires FindWithKey(content, "toolUse") == Normal(Some(block))
    requires Respond(c, content).Normal? && Respond(c, content).value.chartData != JNull
    requires Prop(block, "toolUse").Some? && Prop(block, "toolUse").value.JObj?
    requires Prop(Prop(block, "toolUse").value, "input").Some?
    requires Prop(Prop(block, "toolUse").value, "input").value.JObj?
    ensures var toolUse := Respond(c, content).value.toolUse;
            var chart := Respond(c, content).value.chartData;
            && toolUse.JObj? && chart.JObj?
            && Lookup(toolUse.fields, "input").Some? && Lookup(toolUse.fields, "input").value.JObj?
            && forall k :: k != "chartConfig" ==>
                 Lookup(Lookup(toolUse.fields, "input").value.fields, k) == Lookup(chart.fields, k)
  {
    var r := Respond(c, content).value;
    assert ProcessToolResponse(c, block) == Some(r.chartData);
    ToolUseShowsChart(c, block);
    assert ToolUseAfter(block) == Some(r.toolUse);
  }

  /** The same, for one tool block: its `toolUse` after processing and the
      processed chart. */
  lemma ToolUseShowsChart(c: Codec, block: Json)
    requires ProcessToolResponse(c, block).Some?
    requires Prop(block, "toolUse").Some? && Prop(block, "toolUse").value.JObj?
    requires Prop(Prop(block, "toolUse").value, "input").Some?
    requires Prop(Prop(block, "toolUse").value, "input").value.JObj?
    ensures var toolUse := ToolUseAfter(block);
            var chart := ProcessToolResponse(c, block).value;
            && toolUse.Some? && toolUse.value.JObj? && chart.JObj?
            && Lookup(toolUse.value.fields, "input").Some? && Lookup(toolUse.value.fields, "input").value.JObj?
            && forall k :: k != "chartConfig" ==>
                 Lookup(Lookup(toolUse.value.fields, "input").value.fields, k) == Lookup(chart.fields, k)
  {
    var input := Prop(Prop(block, "toolUse").value, "input").value;
    assert ToolInput(c, block) == Some(input);
    assert ChartAccepted(input);
    var data := Prop(input, "data");
    var pie := Prop(input, "chartType") == Some(JStr("pie"));
    var fs := (if pie then PieStep(input.fields, data.value.items) else Normal(input.fields)).value;
    ProcessedChart(c, block, input, fs);
    InputAfter(block, input, fs);
  }

  /** After processing, an accepted object input reads as the shaped fields. */
  lemma InputAfter(block: Json, input: Json, fs: seq<Field>)
    requires Prop(block, "toolUse").Some? && Prop(block, "toolUse").value.JObj?
    requires Prop(Prop(block, "toolUse").value, "input") == Some(input)
    requires ChartAccepted(input)
    requires fs == (if Prop(input, "chartType") == Some(JStr("pie"))
                    then PieStep(input.fields, Prop(input, "data").value.items) else Normal(input.fields)).value
    ensures ToolUseAfter(block).Some? && ToolUseAfter(block).value.JObj?
    ensures Lookup(ToolUseAfter(block).value.fields, "input") == Some(JObj(fs))
  {
    if Prop(input, "chartType") == Some(JStr("pie")) {
      HasPropTruthy(block, "toolUse");
      assert PieInPlace(block);
      PieEffectOnSuccess(input.fields, Prop(input, "data").value.items);
    } else {
      assert !PieInPlace(block);
    }
  }

  /** A value with a property other than `length` is truthy. */
  lemma HasPropTruthy(v: Json, key: string)
    requires key != "length" && Prop(v, key).Some?
    ensures Truthy(Some(v))
  {
  }

  /** A pie input with a primitive `config`: no chart comes back, yet the
      reply's tool input already carries the normalised data. */
  lemma LateThrowShowsInToolUse(c: Codec, block: Json)
    requires PieInPlace(block)
    requires var input := Prop(Prop(block, "toolUse").value, "input").value;
             && Lookup(input.fields, "config").Some?
             && (Lookup(input.fields, "config").value.JBool? || Lookup(input.fields, "config").value.JNum?
                 || Lookup(input.fields, "config").value.JStr?)
             && !Nullish(Lookup(input.fields, "chartConfig"))
             && forall i :: 0 <= i < |Prop(input, "data").value.items| ==> !Prop(input, "data").value.items[i].JNull?
    ensures ProcessToolResponse(c, block).None?
    ensures var input := Prop(Prop(block, "toolUse").value, "input").value;
            var normalized := NormalizeItems(Prop(input, "data").value.items, SegmentKey(Lookup(input.fields, "config").value),
                                             FirstKey(Lookup(input.fields, "chartConfig").value));
            && normalized.Normal?
            && Lookup(ToolUseAfter(block).value.fields, "input").Some?
            && Lookup(ToolUseAfter(block).value.fields, "input").value.JObj?
            && Lookup(Lookup(ToolUseAfter(block).value.fields, "input").value.fields, "data") == Some(JArr(normalized.value))
  {
    var input := Prop(Prop(block, "toolUse").value, "input").value;
    assert ToolInput(c, block) == Some(input);
    PieEffectOnLateThrow(input.fields, Prop(input, "data").value.items);
  }

  /** The processed chart of an accepted object input is the shaped fields
      with the coloured chart config. */
  lemma ProcessedChart(c: Codec, block: Json, input: Json, fs: seq<Field>)
    requires ToolInput(c, block) == Some(input) && ChartAccepted(input)
    requires fs == (if Prop(input, "chartType") == Some(JStr("pie"))
                    then PieStep(input.fields, Prop(input, "data").value.items) else Normal(input.fields)).value
    ensures Lookup(fs, "chartConfig").Some?
    ensures ProcessToolResponse(c, block)
         == Some(JObj(Set(fs, "chartConfig", JObj(Colorize(OwnEntries(Lookup(fs, "chartConfig").value))))))
  {
    ShapedKeepsChartConfig(input.fields, Prop(input, "data").value.items, Prop(input, "chartType") == Some(JStr("pie")));
  }

  /** The fields the handler destructures from the request body; null throws. */
  function RequestOf(body: Json): Completion<Request> {
    if body.JNull? then Throws
    else Normal(Request(Prop(body, "messages"), Prop(body, "fileData"), Prop(body, "model"), Prop(body, "region")))
  }

  /** `POST /api/visualize`; `body` is None when the request is not JSON. */
  function Post(c: Codec, body: Option<Json>, gateway: seq<Message> -> Converse): (r: Reply<ChartReply>)
    ensures body.Some? && RequestOf(body.value).Normal? && Validate(RequestOf(body.value).value).Some? ==>
      r == Fail(400, Validate(RequestOf(body.value).value).value)
    ensures body.None? || RequestOf(body.value).Throws? ==> r == Fail(500, InternalError)
    ensures body.Some? && RequestOf(body.value).Normal? && Validate(RequestOf(body.value).value).None? &&
            ConvertMessages(c, RequestOf(body.value).value.messages.value.items, FilePart(c, RequestOf(body.value).value.fileData)).Throws? ==>
      r == Fail(500, InternalError)
    ensures r.Ok? ==>
      && body.Some? && RequestOf(body.value).Normal?
      && Validate(RequestOf(body.value).value).None?
      && ConvertMessages(c, RequestOf(body.value).value.messages.value.items, FilePart(c, RequestOf(body.value).value.fileData)).Normal?
      && gateway(ConvertMessages(c, RequestOf(body.value).value.messages.value.items, FilePart(c, RequestOf(body.value).value.fileData)).value).Replied?
    ensures body.Some? && RequestOf(body.value).Normal? && Validate(RequestOf(body.value).value).None? ==>
      var req := RequestOf(body.value).value;
      var msgs := ConvertMessages(c, req.messages.value.items, FilePart(c, req.fileData));
      msgs.Normal? ==>
        match gateway(msgs.value)
        case ServiceFault(h, _) => r == Fail(ServiceStatus(h), ServiceErrorText)
        case Fault(m) => r == Fail(500, m)
        case Replied(None, _) => r == Fail(500, InvalidResponse)
        case Replied(Some(content), _) =>
          && (Respond(c, content).Normal? ==> r == Ok(Respond(c, content).value))
          && (Respond(c, content).Throws? ==> r == Fail(500, InternalError))
  {
    match body
    case None => Fail(500, InternalError)
    case Some(b) =>
      match RequestOf(b)
      case Throws => Fail(500, InternalError)
      case Normal(req) =>
        match Validate(req)
        case Some(e) => Fail(400, e)
        case None =>
          match ConvertMessages(c, req.messages.value.items, FilePart(c, req.fileData))
          case Throws => Fail(500, InternalError)
          case Normal(msgs) =>
            match gateway(msgs)
            case ServiceFault(h, _) => Fail(ServiceStatus(h), ServiceErrorText)
            case Fault(m) => Fail(500, m)
            case Replied(content, _) =>
              if content.None? then Fail(500, InvalidResponse)
              else
                match Respond(c, content.value)
                case Throws => Fail(500, InternalError)
                case Normal(reply) => Ok(reply)
  }
}

=== FILE: wrappers.dfy ===
/** The optional-value type shared by every module of the model. */
module Wrappers {

  /** A value that may be absent. */
  datatype Option<+T> = None | Some(value: T) {

    /** The carried value, or `default` when absent. */
    function GetOr(default: T): T {
      match this
      case Some(v) => v
      case None => default
    }
  }
}
